=== FILE: README.md ===
# Job-search toolkit scripts in Dafny

This project models the deterministic core of three command-line scripts from a job-search toolkit:

- **email_finder.py** guesses the e-mail address of a person at a company:
  - it normalises the person's name (dropping honorifics and suffixes);
  - it renders a fixed, ordered list of local-part templates (`{first}.{last}`, `{f}{last}`, …) at the domain;
  - it moves the address built from the domain's known pattern (as reported by Hunter.io) to the front;
  - it records Hunter.io verification replies for the first three candidates;
  - it formats the report;
  - it loads `KEY=value` lines from the first `.env` file it finds without overriding existing variables.
- **greenhouse_search.py** searches Greenhouse job boards:
  - it maps company names to board tokens through an alias table;
  - it reads a salary range out of a job description;
  - it filters jobs by keyword, location, department and minimum salary;
  - it formats each job, with a cleaned and truncated description in verbose mode;
  - it walks a list of companies, collecting each company's filtered and tagged jobs and the printed lines.
- **job_search.py** post-processes scraped job rows:
  - it applies the "keep if salary unknown or at least the minimum" mask and its note;
  - it formats the three-way salary string and the report;
  - it derives the CSV and JSON output paths, including the default timestamped name;
  - it merges command-line values with a profile.

## Files

- `wrappers.dfy`: `Option`, `Result` and the Python exceptions the scripts can raise.
- `text.dfy`: the Python string operations the scripts use. These are `split`, `strip`, `lower`, `upper`, `replace`, `join`, `startswith`/`endswith`, `in` on strings, `{:,}` number formatting and parsing digits.
- `seqs.dfy`: list comprehensions with a condition (`Filter`) and subsequences.
- `email_finder.dfy`: module `EmailFinder`.
- `greenhouse_search.dfy`: module `GreenhouseSearch`.
- `job_search.dfy`: module `JobSearch`.

The methods are the script code that builds lists, dictionaries or the environment step by step. Each is proved against a specification: most are proved equal to a function that specifies them, and the lemmas state the properties of those functions. `MergeProfile` is instead specified directly by its postconditions, one per branch of the merge:
- `GenerateEmails`
- `PromoteCanonical`
- `VerifyTop`
- `FormatOutput`
- the `Environment` class
- `FilterJobs`
- `SearchCompanies`, `SearchCompany` and `TagAndFormat`
- `FormatResults` and `AppendRow`
- `MergeProfile`

Everything outside the scripts is an input value:
- HTTP responses;
- the scraped rows;
- the contents of the `.env` files;
- the profile;
- the clock's timestamp.

## Model

| member | source | states |
|---|---|---|
| EmailFinder.ParseShow | toolkit/scripts/email_finder.py:97-104 | Reading the format string a template is written as gives back exactly that template. |
| EmailFinder.ParseShowToken | toolkit/scripts/email_finder.py:99-104 | Each placeholder or literal, written in format syntax, is read back as that token, whatever text follows. |
| EmailFinder.PlaceholderRead | toolkit/scripts/email_finder.py:99-104 | `{first}`, `{last}`, `{f}` and `{l}` are read as the four fields passed to `format`. |
| EmailFinder.ParseTemplate | toolkit/scripts/email_finder.py:97-104 | Reading a format string fails only with `ValueError` (an unbalanced brace, a `{` inside a field name, or a field whose leading digits exceed `sys.maxsize`), `KeyError` (an unknown field name) or `IndexError` (an empty or all-digit field up to `sys.maxsize`, which `format` takes as positional). |
| EmailFinder.FieldError | toolkit/scripts/email_finder.py:99-104 | An unknown field raises `ValueError` exactly when its leading digits exceed `sys.maxsize`; otherwise `IndexError` exactly when it is all digits, and `KeyError` exactly when it is not. |
| EmailFinder.HugeIndexRaises | toolkit/scripts/email_finder.py:226-228 | A field of digits worth more than `sys.maxsize` makes `format` raise `ValueError`, whatever text follows the field. |
| EmailFinder.HugeIndexExample | toolkit/scripts/email_finder.py:226-228 | `"{99999999999999999999}"` raises `ValueError`, not `IndexError`. |
| EmailFinder.BraceInFieldRaises | toolkit/scripts/email_finder.py:226-228 | A `{` in a field name, before any `:` or `!`, makes `format` raise `ValueError`, whatever text follows the field. |
| EmailFinder.NestedBraceExamples | toolkit/scripts/email_finder.py:226-228 | `"{a{b}"` and `"{a{b}}"` raise `ValueError`, not `KeyError`. |
| EmailFinder.ShowParse | toolkit/scripts/email_finder.py:97-104 | Every format string that is read successfully is exactly the written form of the template read: with `ParseShow`, reading and writing are inverse. |
| EmailFinder.PATTERNS | toolkit/scripts/email_finder.py:51-64 | The eleven address templates, most frequent first, as sequences of placeholders and literal characters (no `ensures`: `PatternStrings` and its two companions state the written form of each). |
| EmailFinder.Render | toolkit/scripts/email_finder.py:99-104 | `pattern.format(first=…, last=…, f=…, l=…)` for a template that parsed: the text of each token in order (no `ensures`: `PatternEmailShow`, `RenderWithoutLast` and `CandidatesAll` state what it gives). |
| EmailFinder.PatternStrings | toolkit/scripts/email_finder.py:52-55 | Templates 0-2 are `{first}.{last}`, `{first}{last}` and `{first}`. |
| EmailFinder.PatternStringsInitials | toolkit/scripts/email_finder.py:56-61 | Templates 3, 4, 7 and 8 are `{f}{last}`, `{first}{l}`, `{f}.{last}` and `{first}.{l}`. |
| EmailFinder.PatternStringsOthers | toolkit/scripts/email_finder.py:58-63 | Templates 5, 6, 9 and 10 are `{first}_{last}`, `{last}.{first}`, `{last}` and `{first}-{last}`. |
| EmailFinder.NormalizeName | toolkit/scripts/email_finder.py:67-85 | Normalising succeeds exactly when the name has at least one word; a blank name raises. |
| EmailFinder.NormalizeParts | toolkit/scripts/email_finder.py:69-85 | Normalising the words succeeds exactly when there is at least one word; both names are then lower-case. |
| EmailFinder.NormalizeOneWord | toolkit/scripts/email_finder.py:69-71 | A one-word name gives that word lower-cased and an empty last name, without any title filtering. |
| EmailFinder.NormalizeExampleTitle | toolkit/scripts/email_finder.py:69-71 | `"Dr."` alone gives `("dr.", "")`. |
| EmailFinder.NormalizeSkipsTitles | toolkit/scripts/email_finder.py:77-81 | With two or more words left after dropping titles and suffixes, the result is the first and the last of them, lower-cased. |
| EmailFinder.NormalizeOnePart | toolkit/scripts/email_finder.py:82-83 | With exactly one word left, the result is that word lower-cased and an empty last name. |
| EmailFinder.NormalizeAllTitles | toolkit/scripts/email_finder.py:84-85 | With no word left, the raw first and last words are used, lower-cased. |
| EmailFinder.NormalizeTwoWords | toolkit/scripts/email_finder.py:77-81 | "First Last" with neither word a title gives both words lower-cased. |
| EmailFinder.NormalizeStable | toolkit/scripts/email_finder.py:67-85 | The first name is non-empty, lower-case and spaceless, and normalising the normalised name again gives the same pair. |
| EmailFinder.TITLES | toolkit/scripts/email_finder.py:74 | The honorifics `dr`, `mr`, `ms`, `mrs` and `prof` (a constant, used by `IsTitleOrSuffix`). |
| EmailFinder.SUFFIXES | toolkit/scripts/email_finder.py:75 | The suffixes `jr`, `sr`, `ii`, `iii`, `iv`, `phd` and `md` (a constant, used by `IsTitleOrSuffix`). |
| EmailFinder.IsTitleOrSuffix | toolkit/scripts/email_finder.py:77-78 | A word is skipped exactly when, lower-cased and with trailing periods stripped, it is in the title set or in the suffix set. |
| EmailFinder.TitleExamples | toolkit/scripts/email_finder.py:74-78 | `"Dr."` and `"PhD"` are dropped: case and a trailing period do not matter. |
| EmailFinder.NamePartExamples | toolkit/scripts/email_finder.py:77-78 | Ordinary words such as "Sam" and "Altman" are kept. |
| EmailFinder.OneOfIsIn | toolkit/scripts/email_finder.py:74-78 | The membership test used for the title and suffix sets is set membership. |
| EmailFinder.NeedsLastAt | toolkit/scripts/email_finder.py:106 | The literal `"{last}"` test holds for every template except `{first}`, `{first}{l}` and `{first}.{l}`. |
| EmailFinder.LastFree | toolkit/scripts/email_finder.py:106 | The templates at positions 2, 4 and 8 do not contain `"{last}"`. |
| EmailFinder.LastNeeded | toolkit/scripts/email_finder.py:106 | Every other template contains `"{last}"`. |
| EmailFinder.LastShown | toolkit/scripts/email_finder.py:106 | A template holding a last-name placeholder contains `"{last}"` when written out. |
| EmailFinder.ShowAppend | toolkit/scripts/email_finder.py:52-64 | Writing out two templates one after the other is writing out their concatenation. |
| EmailFinder.NoLastIn | toolkit/scripts/email_finder.py:106 | Text without an `a` never contains `"{last}"`. |
| EmailFinder.Emit | toolkit/scripts/email_finder.py:105-108 | A template gives at most one address, and exactly one when there is a last name. |
| EmailFinder.CandidatesOf | toolkit/scripts/email_finder.py:97-108 | A run of templates gives at most one address each, and exactly one each when there is a last name. |
| EmailFinder.Candidates | toolkit/scripts/email_finder.py:88-112 | An empty first name gives no address. Otherwise there are at most 11, and exactly 11 with a last name. |
| EmailFinder.GenerateEmails | toolkit/scripts/email_finder.py:88-112 | The loop builds exactly the candidate list: one rendered template per pattern, in order, followed by `@domain`, skipping the `{last}` templates when there is no last name, and nothing at all when the first name is empty. |
| EmailFinder.CandidatesAll | toolkit/scripts/email_finder.py:97-108 | With a last name every template yields one address, in template order: entry i is template i rendered, followed by `@domain`. |
| EmailFinder.CandidatesWithLast | toolkit/scripts/email_finder.py:52-64 | With a last name there are 11 addresses. Entry 0 is `first.last@d` (rank 1, as for xiao.li). Entry 3 is `f+last@d` (rank 4, as for snadella). Entry 4 is `first+l@d` (rank 5, as for sama). Entry 2 is `first@d`. |
| EmailFinder.CandidatesWithoutLast | toolkit/scripts/email_finder.py:95-108 | Without a last name the list is exactly `[first@d, first@d, first.@d]`, duplicates included. |
| EmailFinder.WithoutLastPrefix | toolkit/scripts/email_finder.py:97-108 | The candidates from the first k templates without a last name are the kept ones among positions 2, 4 and 8. |
| EmailFinder.EmitWithoutLast | toolkit/scripts/email_finder.py:95-108 | Without a last name a template yields `first@d` at positions 2 and 4, `first.@d` at 8, and nothing elsewhere. |
| EmailFinder.RenderWithoutLast | toolkit/scripts/email_finder.py:95-104 | `{first}{l}` and `{first}.{l}` with an empty last initial render as `first` and `first.`. |
| EmailFinder.CandidatesAtDomain | toolkit/scripts/email_finder.py:108 | Every candidate ends with `@domain`. |
| EmailFinder.PatternEmail | toolkit/scripts/email_finder.py:226-228 | Rendering the known pattern succeeds exactly when it is a valid format string over the four fields; the result ends with `@domain`. |
| EmailFinder.Promote | toolkit/scripts/email_finder.py:229-231 | The pattern address is first, and the rest is a subsequence of the old list. If it was present, the length and the multiset are kept, and it is its first occurrence that is removed: the rest is the old list without that position. If not, the list is the address followed by the old list. |
| EmailFinder.PromoteCanonical | toolkit/scripts/email_finder.py:229-231 | Removing the first occurrence and inserting at the front in place gives `Promote`. |
| EmailFinder.PromoteOnce | toolkit/scripts/email_finder.py:229-231 | An address that occurred at most once occurs exactly once after promotion. |
| EmailFinder.PromoteIdempotent | toolkit/scripts/email_finder.py:229-231 | Promoting the same address twice is promoting it once. |
| EmailFinder.RankFor | toolkit/scripts/email_finder.py:217-231 | The ranking succeeds exactly when there is no pattern or the pattern parses. Without a pattern the list is the candidate list. With one, it is the candidate list with the pattern's address promoted (so, by `Promote`, that address first and the other candidates after it in their order). |
| EmailFinder.RankEmails | toolkit/scripts/email_finder.py:212-231 | A missing name or domain is the `parser.error` usage error. Otherwise the ranking succeeds exactly when the name is not blank and the pattern, if any, parses, and the list is then the ranking for the normalised name. |
| EmailFinder.RankKnownPattern | toolkit/scripts/email_finder.py:224-231 | When the known pattern is one of `PATTERNS`, its candidate moves to the front, with the same length and the same addresses. |
| EmailFinder.StatusText | toolkit/scripts/email_finder.py:160-170 | Each branch of the marker: an error reply shows ` [Error: …]`; an error-free "deliverable" shows the check mark and "VERIFIED"; "undeliverable" shows the cross and "Invalid"; any other result text is shown in brackets; a reply without a result shows ` [unknown]`; a JSON null result shows ` [None]`. |
| EmailFinder.StatusMarks | toolkit/scripts/email_finder.py:165-168 | The check-mark status appears exactly for an error-free "deliverable" reply, and the "Invalid" status exactly for an error-free "undeliverable" one. |
| EmailFinder.StatusBracketed | toolkit/scripts/email_finder.py:163-170 | The marker is bracketed exactly when the reply has an error or its result is neither "deliverable" nor "undeliverable". |
| EmailFinder.VerifyTop | toolkit/scripts/email_finder.py:242-244 | The dictionary holds the replies for the first three addresses (or fewer), recorded in order. |
| EmailFinder.Recorded | toolkit/scripts/email_finder.py:243-244 | The last address sent for verification is in the dictionary and holds the last reply. |
| EmailFinder.RecordedKeys | toolkit/scripts/email_finder.py:243-244 | The verified addresses are exactly the addresses sent for verification. |
| EmailFinder.RecordedLastWins | toolkit/scripts/email_finder.py:243-244 | An address holds the reply from its last verification call. |
| EmailFinder.EntryLines | toolkit/scripts/email_finder.py:159-172 | One numbered line per listed address. |
| EmailFinder.EntryLinesAt | toolkit/scripts/email_finder.py:159-172 | Line k is `  k. address` followed by its status, if the address was verified. |
| EmailFinder.EntryLine | toolkit/scripts/email_finder.py:159-172 | The line starts with `  k. address`, and ends with the address's marker when it was verified. |
| EmailFinder.HeaderLines | toolkit/scripts/email_finder.py:145-157 | The header has 7 lines, 8 with a known pattern. Line 3 names the person, line 4 the domain, line 5 the pattern when there is one, and the last line is 40 dashes. |
| EmailFinder.FormatOutput | toolkit/scripts/email_finder.py:142-175 | The loop's output is the report lines joined by newlines. |
| EmailFinder.OutputLines | toolkit/scripts/email_finder.py:145-174 | The report's lines: the header, an entry line for each of at most ten addresses, then an empty line (no `ensures`: `OutputShape` states its layout). |
| EmailFinder.OutputShape | toolkit/scripts/email_finder.py:145-175 | After 7 header lines (8 with a known pattern), at most ten entry lines follow in order, then an empty line. |
| EmailFinder.ParseEnvLine | toolkit/scripts/email_finder.py:40-42 | A stripped line counts exactly when it contains `=` and does not start with `#`; the key then holds no `=`, since the split is at the first one. |
| EmailFinder.ParseEnvLineRoundTrip | toolkit/scripts/email_finder.py:40-43 | `key = value` with any whitespace before and after the key and the value reads back as (key, value), for a key without `=` or a leading `#` and without whitespace at its ends, and a value without whitespace at its ends (or empty). |
| EmailFinder.EnvPairs | toolkit/scripts/email_finder.py:39-42 | A file gives at most one pair per line. |
| EmailFinder.SetDefaultsStep | toolkit/scripts/email_finder.py:43 | One `setdefault` adds the key only when it is absent. |
| EmailFinder.SetDefaults | toolkit/scripts/email_finder.py:39-43 | Applying `setdefault` for the pairs never removes a variable. |
| EmailFinder.SetDefaultsKeeps | toolkit/scripts/email_finder.py:43 | A variable already in the environment is never overwritten. |
| EmailFinder.SetDefaultsKeys | toolkit/scripts/email_finder.py:39-43 | The keys afterwards are the old keys plus the file's keys. |
| EmailFinder.SetDefaultsFirstWins | toolkit/scripts/email_finder.py:39-43 | A new key takes the value of its first line in the file. |
| EmailFinder.SetDefaultsAbsent | toolkit/scripts/email_finder.py:39-43 | A key neither in the environment nor in the file stays absent. |
| EmailFinder.Environment.constructor | toolkit/scripts/email_finder.py:29-44 | The environment starts as the given variables. |
| EmailFinder.Environment.SetDefault | toolkit/scripts/email_finder.py:43 | Sets the key only if it is absent. |
| EmailFinder.Environment.LoadLines | toolkit/scripts/email_finder.py:39-43 | The environment after reading a file's lines is `setdefault` applied to each parsed pair in order. |
| EmailFinder.FirstFile | toolkit/scripts/email_finder.py:36-44 | Some file is read exactly when one of the candidates exists, and the one read is an existing file with no existing file before it. |
| EmailFinder.Environment.LoadEnv | toolkit/scripts/email_finder.py:36-44 | Only the first existing file is read; with none the environment is unchanged. |
| GreenhouseSearch.NormalizeCompany | toolkit/scripts/greenhouse_search.py:65 | The result is lower-case with no spaces or hyphens. |
| GreenhouseSearch.KNOWN_BOARDS | toolkit/scripts/greenhouse_search.py:22-60 | The alias table: 29 normalised company names and their board tokens, in the source's four groups (a constant; `TokenKinds`, `AliasTokensNormalized` and `AliasTokensUnknown` state its properties). |
| GreenhouseSearch.GetBoardToken | toolkit/scripts/greenhouse_search.py:63-66 | The token is lower-case with no spaces or hyphens, whether it comes from the alias table or not. |
| GreenhouseSearch.TokenKinds | toolkit/scripts/greenhouse_search.py:23-60 | Every alias maps either to its own key or to one of five board tokens. |
| GreenhouseSearch.TokenNormalized | toolkit/scripts/greenhouse_search.py:23-60 | The alias table maps normalised keys to normalised tokens. |
| GreenhouseSearch.AliasTokensNormalized | toolkit/scripts/greenhouse_search.py:23-60 | The five tokens that differ from their keys are written in lower-case letters. |
| GreenhouseSearch.AliasTokensUnknown | toolkit/scripts/greenhouse_search.py:23-60 | Four of those tokens are not keys of the table themselves. |
| GreenhouseSearch.LettersNormalized | toolkit/scripts/greenhouse_search.py:65 | A lower-case word already is a normal form. |
| GreenhouseSearch.TokenStable | toolkit/scripts/greenhouse_search.py:23-60 | A token that is itself a key maps to itself. |
| GreenhouseSearch.NormalizeCompanyIdempotent | toolkit/scripts/greenhouse_search.py:65 | Normalising a normalised name changes nothing. |
| GreenhouseSearch.BoardTokenIdempotent | toolkit/scripts/greenhouse_search.py:63-66 | Looking up a board token twice gives the same token. |
| GreenhouseSearch.NormalizeLetters | toolkit/scripts/greenhouse_search.py:65 | A name of letters normalises to its lower-case form. |
| GreenhouseSearch.NormalizeTwoWords | toolkit/scripts/greenhouse_search.py:65 | Two words separated by a space normalise to the words run together. |
| GreenhouseSearch.AliasExamples | toolkit/scripts/greenhouse_search.py:23-66 | "Scale" gives "scaleai" and "CZI" gives "chanzuckerberginitiative". |
| GreenhouseSearch.SpacedExample | toolkit/scripts/greenhouse_search.py:63-66 | "Hugging Face" gives "huggingface". |
| GreenhouseSearch.UnknownExample | toolkit/scripts/greenhouse_search.py:63-66 | A company not in the table gets its normalised name, e.g. "acmerobotics". |
| GreenhouseSearch.Run | toolkit/scripts/greenhouse_search.py:106 | A character-class run stays within the text. |
| GreenhouseSearch.RunMaximal | toolkit/scripts/greenhouse_search.py:106 | A run is maximal: every character in it is in the class, and the next one is not. |
| GreenhouseSearch.AmountAt | toolkit/scripts/greenhouse_search.py:106 | The `[\d,]+` group read at a position is the maximal run of digits and commas there. |
| GreenhouseSearch.HighPart | toolkit/scripts/greenhouse_search.py:106 | The second group, when found, is a non-empty digits-and-commas run. |
| GreenhouseSearch.SepPart | toolkit/scripts/greenhouse_search.py:106 | After the separator, the second group found is a non-empty digits-and-commas run. |
| GreenhouseSearch.MatchAt | toolkit/scripts/greenhouse_search.py:106 | A match starting at a position yields two non-empty digits-and-commas groups. |
| GreenhouseSearch.Attempts | toolkit/scripts/greenhouse_search.py:112 | One attempt per start position, including the end; attempt q succeeds exactly when the pattern matches at q. |
| GreenhouseSearch.FirstHit | toolkit/scripts/greenhouse_search.py:112 | `re.search` takes the leftmost successful start, or reports that none succeeds. |
| GreenhouseSearch.ToAmount | toolkit/scripts/greenhouse_search.py:114-124 | A group converts exactly when it holds a digit and, without its commas, at most 4300 digits (`int()`'s default limit); otherwise it raises `ValueError`. Values under 1000 are multiplied by 1000, and every value returned is 0 or at least 1000 and within the digit limit. |
| GreenhouseSearch.CommasRemoved | toolkit/scripts/greenhouse_search.py:114-115 | Removing commas leaves only digits, and leaves nothing exactly when the group has no digit. |
| GreenhouseSearch.ToAmountThousands | toolkit/scripts/greenhouse_search.py:114-124 | A comma-grouped amount of at least 1000, with at most 4300 digits, converts back to itself. |
| GreenhouseSearch.ExtractSalary | toolkit/scripts/greenhouse_search.py:95-128 | Empty text gives no salary. "No salary" is returned exactly when no position matches. The only error is `ValueError`. Each returned bound is 0 or at least 1000. |
| GreenhouseSearch.ExtractErrAt | toolkit/scripts/greenhouse_search.py:112-118 | Wherever the leftmost match starts, if either of its groups holds no digit, `int("")` makes the extraction raise `ValueError`. |
| GreenhouseSearch.MatchAtLayout | toolkit/scripts/greenhouse_search.py:106 | Any text laid out as `$?low k? spaces separator spaces $?high` matches at its start, with groups low and high. |
| GreenhouseSearch.MatchAtIs | toolkit/scripts/greenhouse_search.py:106 | Given the positions of the first group and a found second group, the match yields both. |
| GreenhouseSearch.MatchAtPositions | toolkit/scripts/greenhouse_search.py:106 | Given the boundaries of each regex piece, the match at the start yields the two groups. |
| GreenhouseSearch.NoMatchBefore | toolkit/scripts/greenhouse_search.py:106 | No match can start inside a prefix free of digits and commas. |
| GreenhouseSearch.FirstHitIs | toolkit/scripts/greenhouse_search.py:112 | The leftmost successful attempt is found. |
| GreenhouseSearch.ExtractAt | toolkit/scripts/greenhouse_search.py:111-126 | The leftmost match's converted groups are the result. |
| GreenhouseSearch.ExtractLayout | toolkit/scripts/greenhouse_search.py:95-126 | A laid-out range preceded by text free of amounts is extracted as its two converted bounds. |
| GreenhouseSearch.SalaryRoundTrip | toolkit/scripts/greenhouse_search.py:95-126 | The salary line this script prints, `$lo - $hi` with grouped digits, is read back as (lo, hi) inside any text free of amounts before it, for every pair of bounds the extraction itself can return (at least 1000, at most 4300 digits). |
| GreenhouseSearch.DollarRangeExample | toolkit/scripts/greenhouse_search.py:104-126 | `"$150,000 - $200,000"` gives (150000, 200000). |
| GreenhouseSearch.KRangeExample | toolkit/scripts/greenhouse_search.py:104-126 | `"$150k-200k"` gives (150000, 200000). |
| GreenhouseSearch.ToRangeExample | toolkit/scripts/greenhouse_search.py:104-126 | `"150,000 to 200,000"` gives (150000, 200000). |
| GreenhouseSearch.CommaOnlyExample | toolkit/scripts/greenhouse_search.py:114-118 | `", to 5"` matches with a comma-only first group, so `int("")` raises `ValueError`. |
| GreenhouseSearch.HighCommaExample | toolkit/scripts/greenhouse_search.py:114-118 | `"5 - ,"` matches with a comma-only second group and raises `ValueError` too. |
| GreenhouseSearch.ToAmountSmall | toolkit/scripts/greenhouse_search.py:120-124 | "150" and "200" are scaled to thousands. |
| GreenhouseSearch.GroupedAmounts | toolkit/scripts/greenhouse_search.py:114-118 | "150,000" and "200,000" convert to 150000 and 200000. |
| GreenhouseSearch.KeywordMatch | toolkit/scripts/greenhouse_search.py:143-148 | An empty keyword lets every job through. |
| GreenhouseSearch.LocationMatch | toolkit/scripts/greenhouse_search.py:151-154 | An empty location lets every job through. |
| GreenhouseSearch.DepartmentMatch | toolkit/scripts/greenhouse_search.py:157-160 | An empty department lets every job through. |
| GreenhouseSearch.SalaryMatch | toolkit/scripts/greenhouse_search.py:163-168 | A job without salary information passes, and so does one whose minimum reaches the threshold. |
| GreenhouseSearch.MatchesIgnoreCase | toolkit/scripts/greenhouse_search.py:144-159 | The keyword, location and department filters give the same verdict for the filter text and for its lower-case form. |
| GreenhouseSearch.Filtered | toolkit/scripts/greenhouse_search.py:131-172 | Filtering never returns more jobs than it was given. |
| GreenhouseSearch.Keep | toolkit/scripts/greenhouse_search.py:141-170 | A job's verdict is an error only when the salary filter is on and reading its salary raises. |
| GreenhouseSearch.Verdicts | toolkit/scripts/greenhouse_search.py:141-170 | One verdict per job, in order. |
| GreenhouseSearch.FilterJobs | toolkit/scripts/greenhouse_search.py:131-172 | The loop returns the jobs whose verdict is "keep", in order, or the first error raised. |
| GreenhouseSearch.FilteredErr | toolkit/scripts/greenhouse_search.py:163-167 | Filtering raises exactly when some job's verdict raises. |
| GreenhouseSearch.FilteredIsFilter | toolkit/scripts/greenhouse_search.py:139-172 | Without error, the result is the list comprehension of the jobs satisfying every given filter. |
| GreenhouseSearch.FilteredKeeps | toolkit/scripts/greenhouse_search.py:139-170 | The result is an order-preserving subsequence. Every kept job matches the keyword, the location and the department. With a minimum, its salary is unknown, or its minimum is 0 or at least the minimum. |
| GreenhouseSearch.FilteredComplete | toolkit/scripts/greenhouse_search.py:139-172 | Every job that passes occurs as often in the result as in the input. |
| GreenhouseSearch.NoFiltersKeepAll | toolkit/scripts/greenhouse_search.py:139-172 | With every filter empty the input comes back unchanged. |
| GreenhouseSearch.SalaryRule | toolkit/scripts/greenhouse_search.py:163-167 | The salary filter raises exactly when reading the salary raises, and drops a job exactly when its minimum is non-zero and below the threshold. |
| GreenhouseSearch.TagAt | toolkit/scripts/greenhouse_search.py:200 | A match of `<[^>]+>` starts at a position: a `<`, then at least one character other than `>`, then a `>` (a predicate used by `StripTags`). |
| GreenhouseSearch.StripTags | toolkit/scripts/greenhouse_search.py:200 | Replacing tags never lengthens the text, and text without `<` is unchanged. |
| GreenhouseSearch.StripTagsClean | toolkit/scripts/greenhouse_search.py:200 | After replacing every `<…>` tag by a space, no tag is left. |
| GreenhouseSearch.StripTagsNoClose | toolkit/scripts/greenhouse_search.py:200 | Text without `>` stays without `>`. |
| GreenhouseSearch.StripTagsHead | toolkit/scripts/greenhouse_search.py:200 | Text that does not start with a tag keeps its first character. |
| GreenhouseSearch.CollapseSpace | toolkit/scripts/greenhouse_search.py:201 | Collapsing whitespace never lengthens the text, and text without whitespace is unchanged. |
| GreenhouseSearch.CollapseSpaceSingle | toolkit/scripts/greenhouse_search.py:201 | Collapsing whitespace leaves no two whitespace characters in a row, keeps the text non-empty when it was, and keeps whether it starts with whitespace. |
| GreenhouseSearch.Description | toolkit/scripts/greenhouse_search.py:198-203 | The printed description is at most 303 characters long, and empty content gives an empty description. |
| Text.Truncate | toolkit/scripts/greenhouse_search.py:202-203 | Text of at most n characters is unchanged. Longer text becomes its first n characters followed by "...", so the result is never longer than n + 3. |
| GreenhouseSearch.DescriptionClean | toolkit/scripts/greenhouse_search.py:199-203 | The cleaned description is single-spaced and stripped. It is shown whole up to 300 characters, else as its first 300 characters plus "...", so it is never longer than 303. |
| GreenhouseSearch.StripSlice | toolkit/scripts/greenhouse_search.py:201 | `strip` returns a slice of its input. |
| GreenhouseSearch.DepartmentNames | toolkit/scripts/greenhouse_search.py:182-188 | The department names are read in order. A department without a name makes the join raise `TypeError`. |
| GreenhouseSearch.FormatJobLines | toolkit/scripts/greenhouse_search.py:175-206 | Formatting fails exactly when a department has no name or reading the salary raises. |
| GreenhouseSearch.FormatJob | toolkit/scripts/greenhouse_search.py:175-207 | The text is produced exactly when the lines are. |
| GreenhouseSearch.FormatJobEnds | toolkit/scripts/greenhouse_search.py:206-207 | A formatted job always ends with a line of 40 dashes. |
| GreenhouseSearch.JobLines | toolkit/scripts/greenhouse_search.py:177-206 | The lines of `format_job`: the head, then the tail (no `ensures`: `JobLinesFrame` and `JobLinesMiddle` state its layout). |
| GreenhouseSearch.JobHead | toolkit/scripts/greenhouse_search.py:179-194 | The title ("Unknown" when missing), company and location ("Unknown Location") lines, the department line when there are departments, and the salary lines (no `ensures`: stated through `JobLinesFrame`). |
| GreenhouseSearch.JobTail | toolkit/scripts/greenhouse_search.py:196-206 | The URL line, the description line in verbose mode for non-empty content, and 40 dashes (no `ensures`: stated through `JobLinesFrame` and `JobLinesMiddle`). |
| GreenhouseSearch.SalaryLines | toolkit/scripts/greenhouse_search.py:190-194 | One `Salary: $lo - $hi` line when both extracted bounds are non-zero, none otherwise (no `ensures`: `SalaryLinesSpec` states it). |
| GreenhouseSearch.JobLinesFrame | toolkit/scripts/greenhouse_search.py:179-186 | The title line (or "Unknown") is first, then the company, then the location (or "Unknown Location"); the 40-dash rule is last. |
| GreenhouseSearch.SalaryLinesSpec | toolkit/scripts/greenhouse_search.py:190-194 | The salary line appears exactly when both bounds are non-zero, as `$lo - $hi` with grouped digits. |
| GreenhouseSearch.JobLinesMiddle | toolkit/scripts/greenhouse_search.py:187-204 | Next come the department line (when there are departments), the salary line (when there is one) and the URL, then the cleaned description in verbose mode when there is content. |
| GreenhouseSearch.FormatJobLayout | toolkit/scripts/greenhouse_search.py:175-207 | A successful format is the layout above, built from the department names and the extracted salary. |
| GreenhouseSearch.FetchJobs | toolkit/scripts/greenhouse_search.py:69-92 | An HTTP error other than 404 propagates. A 404 or a failed request becomes an error message with no jobs. A good response is its jobs. |
| GreenhouseSearch.Tag | toolkit/scripts/greenhouse_search.py:244-245 | Each job is tagged with the company and nothing else changes. |
| GreenhouseSearch.FormatAll | toolkit/scripts/greenhouse_search.py:244-247 | One formatted text per job. |
| GreenhouseSearch.SearchingLine | toolkit/scripts/greenhouse_search.py:226-227 | The progress line for a company, naming the board token `get_board_token` gives (a single string, no `ensures`). |
| GreenhouseSearch.CompanyStep | toolkit/scripts/greenhouse_search.py:226-247 | A turn that succeeds prints at least two lines, the first being the "Searching" line, and every job it adds is tagged with the company. |
| GreenhouseSearch.Searched | toolkit/scripts/greenhouse_search.py:222-249 | A search that succeeds prints at least two lines per company, and every collected job is tagged with a company. |
| GreenhouseSearch.SearchedStep | toolkit/scripts/greenhouse_search.py:225-247 | Each company's jobs and lines are appended after the previous companies'. |
| GreenhouseSearch.SearchedStopsAt | toolkit/scripts/greenhouse_search.py:225-247 | An exception raised for one company ends the search with that exception. |
| GreenhouseSearch.CompanyStepBoardError | toolkit/scripts/greenhouse_search.py:229-233 | A board error adds the "Searching" line and the error line, and no jobs. |
| GreenhouseSearch.CompanyStepFetched | toolkit/scripts/greenhouse_search.py:235-247 | A fetched board adds the total count, the match count when any filter is on, and one text per filtered, tagged job. |
| GreenhouseSearch.SearchCompany | toolkit/scripts/greenhouse_search.py:226-247 | One company's step computes exactly the lines and jobs specified above. |
| GreenhouseSearch.TagAndFormat | toolkit/scripts/greenhouse_search.py:244-247 | The inner loop yields the tagged jobs and their texts, or the first formatting error. |
| GreenhouseSearch.SearchCompanies | toolkit/scripts/greenhouse_search.py:210-249 | The loop over companies yields exactly the specified jobs and output lines. |
| GreenhouseSearch.ErroredCompany | toolkit/scripts/greenhouse_search.py:87-92 | A 404 or a failed request contributes no jobs, only the "Searching" and "Error" lines. |
| GreenhouseSearch.CompanyStepJobs | toolkit/scripts/greenhouse_search.py:229-246 | A company contributes its filtered jobs, tagged. |
| GreenhouseSearch.SearchedAllJobs | toolkit/scripts/greenhouse_search.py:222-249 | All jobs are the concatenation, in company order, of each company's filtered, tagged jobs. |
| GreenhouseSearch.AllJobs | toolkit/scripts/greenhouse_search.py:244-246 | Every collected job carries a company tag. |
| GreenhouseSearch.Contribution | toolkit/scripts/greenhouse_search.py:229-246 | What one company adds to `all_jobs`: its fetched jobs that pass the filters, tagged; nothing for a failed fetch (no `ensures`: `ContributionFiltered` and `CompanyStepJobs` state it). |
| GreenhouseSearch.ContributionFiltered | toolkit/scripts/greenhouse_search.py:239-245 | Every collected job is tagged with its company and passes the keyword, location and salary filters. |
| GreenhouseSearch.KeepIgnoresDepartments | toolkit/scripts/greenhouse_search.py:239 | The search never applies the department filter: a job's departments do not affect whether it is kept. |
| JobSearch.FilterSplit | toolkit/scripts/job_search.py:81-86 | Rows kept and rows dropped by a condition and its negation add up to all rows. |
| JobSearch.SalaryMask | toolkit/scripts/job_search.py:80-88 | The mask only removes rows. A note is produced exactly when the count changed, and it reads "Filtered (before − after) jobs below $min salary". |
| JobSearch.SalaryMaskSelects | toolkit/scripts/job_search.py:80-85 | The result is an order-preserving subsequence. When active, it keeps exactly the rows whose minimum is missing or at least `min_salary`, each as often as before. When inactive (no minimum, or no `min_amount` column), the table is unchanged. |
| JobSearch.DroppedNote | toolkit/scripts/job_search.py:87-88 | The message `Filtered n jobs below $min salary`, with the minimum grouped by `{:,}` (no `ensures`: `SalaryMask` states when it appears and `SalaryMaskCount` its count). |
| JobSearch.SalaryMaskCount | toolkit/scripts/job_search.py:81-88 | The reported count is the number of rows below the minimum. |
| JobSearch.ColumnGuardRedundant | toolkit/scripts/job_search.py:80 | When the column flag agrees with the rows, the mask is exactly the filter. |
| JobSearch.SearchJobs | toolkit/scripts/job_search.py:64-90 | A failed scrape gives an empty table and no note; otherwise the result is a subsequence of the scraped rows. |
| JobSearch.SalaryString | toolkit/scripts/job_search.py:109-118 | The string is empty exactly when both bounds are missing. It starts with `$` when the minimum is present, and with `Up to $` when only the maximum is. It ends with `+` when only the minimum is. |
| JobSearch.SalaryRangeReadsBack | toolkit/scripts/job_search.py:113-114 | A displayed range of bounds of at least 1000, with at most 4300 digits each, is read back as those bounds by Greenhouse's salary extractor. |
| JobSearch.SalaryFromReadsBack | toolkit/scripts/job_search.py:115-116 | A lone minimum is `$`, its digits with grouping commas, and `+`. |
| JobSearch.SalaryUpToReadsBack | toolkit/scripts/job_search.py:117-118 | A lone maximum is `Up to $` and its digits with grouping commas. |
| JobSearch.FormatResults | toolkit/scripts/job_search.py:93-134 | The loop builds the report; an empty table gives exactly "No jobs found matching criteria.". |
| JobSearch.AppendRow | toolkit/scripts/job_search.py:101-132 | One row appends exactly its lines. |
| JobSearch.AllRowLinesStep | toolkit/scripts/job_search.py:101-132 | The rows' lines are appended in row order. |
| JobSearch.RowLinesCount | toolkit/scripts/job_search.py:120-132 | A row has four lines. It has one more for each of: a location, a salary, and a description in verbose mode. |
| JobSearch.RowLineParts | toolkit/scripts/job_search.py:120-132 | Every line of a row is one of its title, company, location, salary, URL, description or rule lines. |
| JobSearch.RowLineTags | toolkit/scripts/job_search.py:120-132 | The line kinds are told apart by their first characters. |
| JobSearch.SalaryLineSource | toolkit/scripts/job_search.py:124-125 | A line of a row that reads as a salary line is the salary line. |
| JobSearch.DescriptionLineSource | toolkit/scripts/job_search.py:128-130 | A line of a row that reads as a description line is the description line. |
| JobSearch.RowSalaryLine | toolkit/scripts/job_search.py:108-125 | A Salary line appears exactly when some bound is present, and it shows the three-way salary string. |
| JobSearch.RowDescriptionLine | toolkit/scripts/job_search.py:128-130 | A Description line appears exactly in verbose mode with a non-empty description. It shows the text cut to 300 characters plus "..." when longer. |
| JobSearch.RowLinesEnds | toolkit/scripts/job_search.py:120-132 | A row starts with `[SITE] title` ("Unknown Title" when absent) and ends with 40 dashes. |
| JobSearch.Header | toolkit/scripts/job_search.py:98-99 | The two header lines: `Found n jobs:` with a newline, and 80 `=` (no `ensures`: `ReportShape` states it). |
| JobSearch.RowLines | toolkit/scripts/job_search.py:101-132 | The lines of one row (no `ensures`: `RowLinesCount`, `RowLineParts`, `RowLineTags`, `RowSalaryLine`, `RowDescriptionLine` and `RowLinesEnds` state them). |
| JobSearch.Report | toolkit/scripts/job_search.py:93-134 | The text `format_results` returns (no `ensures`: `ReportShape` and `ReportEmpty` state it, and `FormatResults` is proved equal to it). |
| JobSearch.ReportShape | toolkit/scripts/job_search.py:98-134 | A non-empty report starts with "Found n jobs:" and ends with 40 dashes. |
| JobSearch.ReportEmpty | toolkit/scripts/job_search.py:95-98 | The report is the fixed "No jobs found matching criteria." message exactly when there are no rows. |
| Text.JoinFirst | toolkit/scripts/job_search.py:134 | A join of lines starts with the first line. |
| JobSearch.JsonPath | toolkit/scripts/job_search.py:149 | A path already ending in ".json" is the JSON path unchanged; any other path gets ".json" appended. Either way the result ends with ".json" and extends the given path by at most five characters. |
| JobSearch.JsonPathIdempotent | toolkit/scripts/job_search.py:149 | Deriving the JSON path twice changes nothing. |
| JobSearch.CsvPath | toolkit/scripts/job_search.py:144 | Replacing ".json" by the shorter ".csv" never lengthens the path. |
| JobSearch.CsvPathPrefix | toolkit/scripts/job_search.py:144 | A dot-free prefix of the CSV path is a prefix of the given path. |
| JobSearch.CsvHead | toolkit/scripts/job_search.py:144 | ".csv" followed by text without ".json" contains no ".json". |
| JobSearch.CsvPathNoJson | toolkit/scripts/job_search.py:144 | After replacing every ".json" with ".csv", no ".json" is left. |
| JobSearch.CsvPathOfJson | toolkit/scripts/job_search.py:144 | A path ending in ".json" gets ".csv" in its place. |
| JobSearch.CsvPathPlain | toolkit/scripts/job_search.py:144-149 | A path without ".json" is its own CSV path, and its JSON path is the path plus ".json". |
| JobSearch.SaveResults | toolkit/scripts/job_search.py:137-151 | Nothing is saved exactly when there are no rows. Otherwise the files are the CSV path and the JSON path of the output path, so the JSON path ends with ".json" and the CSV path holds no ".json". |
| JobSearch.SaveTarget | toolkit/scripts/job_search.py:201-208 | Something is saved exactly when there are rows. With `--output` the save is `save_results` on that path; without it, `save_results` on the default `job_search_<timestamp>.json`. |
| JobSearch.NoDotNoJson | toolkit/scripts/job_search.py:206-207 | Text without a dot contains no ".json". |
| JobSearch.DefaultSaveTarget | toolkit/scripts/job_search.py:204-208 | Without `--output`, results go to `job_search_<timestamp>.csv` and `job_search_<timestamp>.json`. |
| JobSearch.MergeProfile | toolkit/scripts/job_search.py:170-185 | Command-line values always win. Without a profile, a missing search term is a usage error. With a profile, the gaps are filled from it: the titles joined by " OR " (an error when that is empty), the first preferred location, and the profile's minimum. |
| JobSearch.JoinedTitlesEmpty | toolkit/scripts/job_search.py:177-178 | The joined titles are empty exactly when there are no titles or only one empty title. |

## Left out

- HTTP calls are not modelled: `fetch_greenhouse_jobs`, `verify_with_hunter` and `get_domain_pattern`. Their outcomes are input values: a response, a verification reply, or a pattern string.
- The `--pattern` lookup mode of `email_finder.py` is not modelled; it is only I/O and printing.
- The JSON output mode of `email_finder.py` is not modelled, for the same reason.
- `scrape_jobs` and the pandas DataFrame machinery, including `to_csv` and `to_json`, are not modelled: they are foreign libraries. Rows are plain records, and a scrape is given as its result or its failure message.
- argparse, `print`, reading `profile.json`, reading the companies file and `.env` files, and file-existence checks are not modelled: they are I/O. `.env` files are given as an optional list of lines each. `parser.error` is the `UsageError` outcome.
- `datetime.now()` is not modelled: it is the clock. The timestamp is a parameter.
- Greenhouse responses are given as a sequence aligned with the companies rather than a map from tokens. This is equivalent when companies map to distinct tokens.
- Only the first of the three salary regexes is modelled. Any text the second or third matches also contains a match for the first, so the result of the search is unchanged.
- Whitespace (`\s`, `split()` and `strip()`) is Python's full `str.isspace` set, Unicode included. Python's `\d`, `lower()` and `upper()` are Unicode-aware too, but the model's digits are the ASCII digits, and its lower- and upper-casing change only ASCII letters. `upper()` is applied to the site name in the report.
- The HTML-tag regex is modelled as an explicit scanner of `<` … `>` spans.
- EmailFinder.ParseTemplate: accepts only the four field names and doubled braces. It does not model `str.format`'s conversions, format specs (including replacement fields nested inside them), attribute access or indexing. A pattern using those counts as an error, which may be of a different kind than Python's. `sys.maxsize` is taken at its 64-bit value, and only ASCII digits are read as a positional index (Python also reads other Unicode decimal digits).
- EmailFinder.Promote: removes only the first earlier occurrence, as `list.remove` does, so a duplicate further down the list stays (`PromoteOnce` states when it occurs once).
- EmailFinder.Environment.LoadEnv: an empty key, which makes `os.environ.setdefault` raise, is not modelled.
- GreenhouseSearch.SalaryRoundTrip: covers bounds of at least 1000 with at most 4300 digits. Smaller bounds are printed as themselves but read back multiplied by 1000, and longer ones make `int()` raise `ValueError`.
- GreenhouseSearch.ToAmount: the 4300-digit limit is CPython's default (`sys.set_int_max_str_digits` and `PYTHONINTMAXSTRDIGITS` can change it; Python versions before the limit was introduced have none).
- GreenhouseSearch.Job: a JSON null `title`, `location`, location `name` or department `name` is not modelled; `None` in the model stands only for a missing key. In Python a null title prints as "None" and makes the keyword filter raise `AttributeError`; a null location or location name raises `AttributeError` in the location filter and in `format_job`; a null department name raises `AttributeError` under the department filter.
- GreenhouseSearch.FetchJobs: the "error" key of a successful board response is not modelled. A good response carries only its jobs.
- JobSearch.SearchJobs: the progress lines it prints are left out. Only the dropped-rows note is modelled.
- JobSearch.SalaryString: pandas reads the amounts as floats and `int()` truncates them. The model takes whole-number amounts.
- JobSearch.RowLinesEnds: pandas gives a missing text cell as NaN, which is truthy and prints as "nan". The model takes a missing location or description as empty, and a missing title or company as the placeholder.
- JobSearch.MergeProfile: a missing `min_salary` in the profile reads as 0 (falsy, as `None` is). A `job_search` section that is not a dictionary is not modelled.
- `{:,}` formatting covers negative amounts (a minus sign before the grouped digits), but the lemmas that read a formatted amount back take natural numbers only.
- EmailFinder.StatusText: a verification result that is a JSON number, boolean, list or object is not modelled; a result is either missing, JSON null or a string.

=== FILE: email_finder.dfy ===
/**
 * Email pattern finder: a person's name and a company domain give an ordered
 * list of likely addresses, re-ranked by the domain's known pattern when one is
 * supplied, with the top candidates' verification outcomes shown beside them.
 * The Hunter.io lookups are inputs here: the pattern a domain search returned
 * and the replies of the verification calls.
 */
module EmailFinder {
  import opened Wrappers
  import opened Text
  import opened Seqs

  // ================================================================ templates

  /** One element of an email template: a placeholder or one literal character. */
  datatype Token =
    | First        // {first}
    | Last         // {last}
    | Initial      // {f}, the first letter of the first name
    | LastInitial  // {l}, the first letter of the last name, or nothing
    | Lit(c: char)

  type Template = seq<Token>

  /** The address templates, most frequent first. */
  const PATTERNS: seq<Template> := [
    [First, Lit('.'), Last],
    [First, Last],
    [First],
    [Initial, Last],
    [First, LastInitial],
    [First, Lit('_'), Last],
    [Last, Lit('.'), First],
    [Initial, Lit('.'), Last],
    [First, Lit('.'), LastInitial],
    [Last],
    [First, Lit('-'), Last]
  ]

  /** The keyword arguments handed to `str.format`. */
  datatype Fields = Fields(first: string, last: string, f: string, l: string)

  /** `f = first[0]` and `l = last[0] if last else ""`. */
  function FieldsFor(first: string, last: string): Fields
    requires first != ""
  {
    Fields(first, last, [first[0]], if last == "" then "" else [last[0]])
  }

  function TokenText(t: Token, v: Fields): string {
    match t
    case First => v.first
    case Last => v.last
    case Initial => v.f
    case LastInitial => v.l
    case Lit(c) => [c]
  }

  /** The text `str.format` produces for a template. */
  function Render(t: Template, v: Fields): string {
    if t == [] then "" else TokenText(t[0], v) + Render(t[1..], v)
  }

  /** A token written in format-string syntax; literal braces are doubled. */
  function ShowToken(t: Token): string {
    match t
    case First => "{first}"
    case Last => "{last}"
    case Initial => "{f}"
    case LastInitial => "{l}"
    case Lit(c) => if c == '{' then "{{" else if c == '}' then "}}" else [c]
  }

  /** A template written as the format string it stands for. */
  function Show(t: Template): string {
    if t == [] then "" else ShowToken(t[0]) + Show(t[1..])
  }

  /** The placeholder a field name denotes, if it is one of the four names passed to `format`. */
  function FieldToken(name: string): Option<Token> {
    if name == "first" then Some(First)
    else if name == "last" then Some(Last)
    else if name == "f" then Some(Initial)
    else if name == "l" then Some(LastInitial)
    else None
  }

  /** `sys.maxsize` on a 64-bit build: the largest positional index `str.format` reads. */
  const MAXSIZE: nat := 0x7FFF_FFFF_FFFF_FFFF

  /** The digits a field name starts with, which `str.format` reads as a positional index. */
  function LeadingDigits(s: string): (r: string)
    ensures AllDigits(r) && |r| <= |s| && r == s[..|r|]
    ensures |r| < |s| ==> !IsDigit(s[|r|])
    decreases |s|
  {
    if s != [] && IsDigit(s[0]) then [s[0]] + LeadingDigits(s[1..]) else []
  }

  /** A name made of digits only is read whole as the index. */
  lemma LeadingDigitsAll(s: string)
    ensures AllDigits(s) ==> LeadingDigits(s) == s
  {
  }

  /**
   * The exception `format(first=…, last=…, f=…, l=…)` raises for any other field
   * name: `ValueError` ("Too many decimal digits in format string") once its
   * leading digits pass `sys.maxsize`, otherwise `IndexError` for a positional
   * index (no positional arguments are given) and `KeyError` for a keyword.
   */
  function FieldError(name: string): (e: Exception)
    ensures e == ValueError <==> DigitsValue(LeadingDigits(name)) > MAXSIZE
    ensures e == IndexError <==> AllDigits(name) && DigitsValue(name) <= MAXSIZE
    ensures e == KeyError <==> !AllDigits(name) && DigitsValue(LeadingDigits(name)) <= MAXSIZE
  {
    LeadingDigitsAll(name);
    if DigitsValue(LeadingDigits(name)) > MAXSIZE then ValueError
    else if AllDigits(name) then IndexError
    else KeyError
  }

  /**
   * The field-name scan of `str.format` stops at `}`, `:` or `!`; a `{` met
   * before any of them is a `ValueError` ("unexpected '{' in field name").
   */
  predicate BraceInFieldName(name: string) {
    exists i :: 0 <= i < |name| && name[i] == '{' && ':' !in name[..i] && '!' !in name[..i]
  }

  function Prepend(t: Token, r: Result<Template>): (p: Result<Template>)
    ensures p.Ok? <==> r.Ok?
    ensures p.Err? ==> p.error == r.error
    ensures p.Ok? ==> Show(p.value) == ShowToken(t) + Show(r.value)
  {
    if r.Ok? then assert ([t] + r.value)[1..] == r.value; Ok([t] + r.value) else Err(r.error)
  }

  /**
   * Reads a format string such as a domain pattern returned by Hunter.io:
   * `{{` and `}}` are literal braces, `{name}` a placeholder, anything else a
   * literal character; an unbalanced brace, a `{` inside a field name or an
   * unknown field is an error.
   */
  function ParseTemplate(s: string): (r: Result<Template>)
    ensures r.Err? ==> r.error == ValueError || r.error == KeyError || r.error == IndexError
    decreases |s|
  {
    if s == [] then Ok([])
    else if s[0] == '{' then
      if |s| >= 2 && s[1] == '{' then Prepend(Lit('{'), ParseTemplate(s[2..]))
      else
        var k := IndexOf(s[1..], '}');
        if k == |s| - 1 then Err(ValueError)
        else
          var name := s[1..k + 1];
          if BraceInFieldName(name) then Err(ValueError)
          else match FieldToken(name)
          case Some(t) => Prepend(t, ParseTemplate(s[k + 2..]))
          case None => Err(FieldError(name))
    else if s[0] == '}' then
      if |s| >= 2 && s[1] == '}' then Prepend(Lit('}'), ParseTemplate(s[2..])) else Err(ValueError)
    else Prepend(Lit(s[0]), ParseTemplate(s[1..]))
  }

  /** Every format string the reader accepts is the written form of what it reads. */
  lemma {:induction false} ShowParse(s: string)
    ensures ParseTemplate(s).Ok? ==> Show(ParseTemplate(s).value) == s
    decreases |s|
  {
    if s == [] {
    } else if s[0] == '{' && |s| >= 2 && s[1] == '{' {
      ShowParse(s[2..]);
      assert s == "{{" + s[2..];
    } else if s[0] == '{' {
      var k := IndexOf(s[1..], '}');
      if k < |s| - 1 {
        ShowParse(s[k + 2..]);
        ShowPlaceholder(s, k);
      }
    } else if s[0] == '}' && |s| >= 2 && s[1] == '}' {
      ShowParse(s[2..]);
      assert s == "}}" + s[2..];
    } else if s[0] == '}' {
    } else {
      ShowParse(s[1..]);
      assert s == [s[0]] + s[1..];
    }
  }

  /** A placeholder that reads as a field is written back as itself. */
  lemma ShowPlaceholder(s: string, k: nat)
    requires |s| >= 2 && s[0] == '{' && s[1] != '{' && k < |s| - 1 && k == IndexOf(s[1..], '}')
    ensures FieldToken(s[1..k + 1]).Some? ==>
      s == ShowToken(FieldToken(s[1..k + 1]).value) + s[k + 2..]
  {
    var name := s[1..k + 1];
    assert s[k + 1] == s[1..][k] == '}';
    assert s == "{" + name + "}" + s[k + 2..];
  }

  lemma PlaceholderRead(name: string, t: Token, rest: string)
    requires FieldToken(name) == Some(t) && '}' !in name && name != []
    ensures ParseTemplate("{" + name + "}" + rest) == Prepend(t, ParseTemplate(rest))
  {
    var s := "{" + name + "}" + rest;
    assert s[1..] == name + "}" + rest;
    assert s[1] == name[0] != '{' by { assert name[0] != '{' by { assert name[0] in "fl"; } }
    IndexOfAfter(name, rest);
    assert s[1..|name| + 1] == name;
    assert s[|name| + 2..] == rest;
    assert '{' !in name by { assert name[0] in "fl"; }
  }

  /** A `{` in a field name, before any `:` or `!`, raises `ValueError` whatever follows. */
  lemma BraceInFieldRaises(name: string, rest: string)
    requires name != [] && name[0] != '{' && '}' !in name && BraceInFieldName(name)
    ensures ParseTemplate("{" + name + "}" + rest) == Err(ValueError)
  {
    var s := "{" + name + "}" + rest;
    assert s[1..] == name + "}" + rest;
    IndexOfAfter(name, rest);
    assert s[1..|name| + 1] == name;
  }

  /** `"{a{b}"` and `"{a{b}}"` are rejected with `ValueError`, not read as an unknown field `a{b`. */
  lemma NestedBraceExamples()
    ensures ParseTemplate("{a{b}") == Err(ValueError)
    ensures ParseTemplate("{a{b}}") == Err(ValueError)
  {
    var name := "a{b";
    assert name[1] == '{' && name[..1] == "a";
    assert "{a{b}" == "{" + name + "}" + "";
    assert "{a{b}}" == "{" + name + "}" + "}";
    BraceInFieldRaises(name, "");
    BraceInFieldRaises(name, "}");
  }

  /** A positional index past `sys.maxsize` raises `ValueError`, not `IndexError`, whatever follows. */
  lemma HugeIndexRaises(name: string, rest: string)
    requires name != [] && AllDigits(name) && DigitsValue(name) > MAXSIZE
    ensures ParseTemplate("{" + name + "}" + rest) == Err(ValueError)
  {
    var s := "{" + name + "}" + rest;
    assert s[1..] == name + "}" + rest;
    assert '}' !in name && '{' !in name;
    IndexOfAfter(name, rest);
    assert s[1..|name| + 1] == name;
    assert IsDigit(name[0]);
  }

  /** `"{99999999999999999999}"` names an index past `sys.maxsize`. */
  lemma HugeIndexExample()
    ensures ParseTemplate("{99999999999999999999}") == Err(ValueError)
  {
    var name := "99999999999999999999";
    DigitsValueLower(name);
    assert Pow10(10) == 10000000000;
    assert Pow10(19) == 10000000000000000000;
    assert "{99999999999999999999}" == "{" + name + "}" + "";
    HugeIndexRaises(name, "");
  }

  lemma IndexOfAfter(name: string, rest: string)
    requires '}' !in name
    ensures IndexOf(name + "}" + rest, '}') == |name|
  {
    var s := name + "}" + rest;
    var i := IndexOf(s, '}');
    assert s[|name|] == '}';
  }

  /** Reading one written-out token consumes exactly that token. */
  lemma ParseShowToken(t: Token, rest: string)
    ensures ParseTemplate(ShowToken(t) + rest) == Prepend(t, ParseTemplate(rest))
  {
    match t
    case First =>
      assert ShowToken(t) + rest == "{" + "first" + "}" + rest;
      PlaceholderRead("first", First, rest);
    case Last =>
      assert ShowToken(t) + rest == "{" + "last" + "}" + rest;
      PlaceholderRead("last", Last, rest);
    case Initial =>
      assert ShowToken(t) + rest == "{" + "f" + "}" + rest;
      PlaceholderRead("f", Initial, rest);
    case LastInitial =>
      assert ShowToken(t) + rest == "{" + "l" + "}" + rest;
      PlaceholderRead("l", LastInitial, rest);
    case Lit(c) =>
      var s := ShowToken(t) + rest;
      if c == '{' || c == '}' {
        assert s[2..] == rest;
      } else {
        assert s[1..] == rest;
      }
  }

  /** Writing a template out and reading it back gives the same template. */
  lemma {:induction false} ParseShow(t: Template)
    ensures ParseTemplate(Show(t)) == Ok(t)
    decreases |t|
  {
    if t != [] {
      ParseShow(t[1..]);
      ParseShowToken(t[0], Show(t[1..]));
      assert t == [t[0]] + t[1..];
    }
  }

  /** The templates are exactly the format strings of the original table: the plain ones. */
  lemma PatternStrings()
    ensures Show(PATTERNS[0]) == "{first}.{last}"
    ensures Show(PATTERNS[1]) == "{first}{last}"
    ensures Show(PATTERNS[2]) == "{first}"
  {
    TokenTexts();
    ShowThree(First, Lit('.'), Last);
    ShowTwo(First, Last);
    ShowOne(First);
  }

  /** The templates built from an initial. */
  lemma PatternStringsInitials()
    ensures Show(PATTERNS[3]) == "{f}{last}"
    ensures Show(PATTERNS[4]) == "{first}{l}"
    ensures Show(PATTERNS[7]) == "{f}.{last}"
    ensures Show(PATTERNS[8]) == "{first}.{l}"
  {
    TokenTexts();
    ShowTwo(Initial, Last);
    ShowTwo(First, LastInitial);
    ShowThree(Initial, Lit('.'), Last);
    ShowThree(First, Lit('.'), LastInitial);
  }

  /** The remaining templates: other separators, the reversed order and the last name alone. */
  lemma PatternStringsOthers()
    ensures Show(PATTERNS[5]) == "{first}_{last}"
    ensures Show(PATTERNS[6]) == "{last}.{first}"
    ensures Show(PATTERNS[9]) == "{last}"
    ensures Show(PATTERNS[10]) == "{first}-{last}"
  {
    TokenTexts();
    ShowThree(First, Lit('_'), Last);
    ShowThree(Last, Lit('.'), First);
    ShowOne(Last);
    ShowThree(First, Lit('-'), Last);
  }

  lemma TokenTexts()
    ensures ShowToken(First) == "{first}" && ShowToken(Last) == "{last}"
    ensures ShowToken(Initial) == "{f}" && ShowToken(LastInitial) == "{l}"
    ensures ShowToken(Lit('.')) == "." && ShowToken(Lit('_')) == "_" && ShowToken(Lit('-')) == "-"
  {
  }

  lemma ShowOne(a: Token)
    ensures Show([a]) == ShowToken(a)
  {
    assert Show([a]) == ShowToken(a) + Show([]);
  }

  lemma ShowTwo(a: Token, b: Token)
    ensures Show([a, b]) == ShowToken(a) + ShowToken(b)
  {
    assert [a, b][1..] == [b];
    ShowOne(b);
  }

  lemma ShowThree(a: Token, b: Token, c: Token)
    ensures Show([a, b, c]) == ShowToken(a) + ShowToken(b) + ShowToken(c)
  {
    assert [a, b, c][1..] == [b, c];
    ShowTwo(b, c);
  }

  // ================================================================ names

  const TITLES: seq<string> := ["dr", "mr", "ms", "mrs", "prof"]
  const SUFFIXES: seq<string> := ["jr", "sr", "ii", "iii", "iv", "phd", "md"]

  /** `k` is one of `words`. */
  predicate OneOf(k: string, words: seq<string>)
    decreases |words|
  {
    words != [] && (k == words[0] || OneOf(k, words[1..]))
  }

  lemma {:induction false} OneOfIsIn(k: string, words: seq<string>)
    ensures OneOf(k, words) <==> k in words
    decreases |words|
  {
    if words != [] {
      OneOfIsIn(k, words[1..]);
      assert words == [words[0]] + words[1..];
    }
  }

  /** Lower-cased with trailing periods stripped, the token is an honorific or a suffix. */
  predicate IsTitleOrSuffix(p: string)
    ensures IsTitleOrSuffix(p) <==> RStripChar(Lower(p), '.') in TITLES || RStripChar(Lower(p), '.') in SUFFIXES
  {
    var key := RStripChar(Lower(p), '.');
    OneOfIsIn(key, TITLES + SUFFIXES);
    OneOf(key, TITLES + SUFFIXES)
  }

  predicate IsNamePart(p: string) {
    !IsTitleOrSuffix(p)
  }

  /**
   * `normalize_name`: the lower-cased first and last name of a full name. A
   * single word is taken as it is; otherwise honorifics and suffixes are dropped,
   * and if nothing is left the first and last raw words are used. A blank name
   * has no first word and raises.
   */
  function NormalizeName(name: string): (r: Result<(string, string)>)
    ensures r.Ok? <==> Split(name) != []
  {
    NormalizeParts(Split(name))
  }

  /** `normalize_name` once the name is split into its words. */
  function NormalizeParts(parts: seq<string>): (r: Result<(string, string)>)
    ensures r.Ok? <==> parts != []
    ensures r.Ok? ==> IsLower(r.value.0) && IsLower(r.value.1)
  {
    if |parts| == 1 then Ok((Lower(parts[0]), ""))
    else
      var clean := Filter(parts, IsNamePart);
      if |clean| >= 2 then Ok((Lower(clean[0]), Lower(clean[|clean| - 1])))
      else if |clean| == 1 then Ok((Lower(clean[0]), ""))
      else if parts == [] then Err(IndexError)
      else Ok((Lower(parts[0]), Lower(parts[|parts| - 1])))
  }

  /** A one-word name is kept whole, even when the word is a title: `"Dr."` gives `("dr.", "")`. */
  lemma NormalizeOneWord(name: string)
    requires |Split(name)| == 1
    ensures NormalizeName(name) == Ok((Lower(Split(name)[0]), ""))
  {
  }

  /**
   * With two or more words, the first is the first word that is not a title or
   * suffix, and the last is the last such word, when those are two different words.
   */
  lemma NormalizeSkipsTitles(name: string, i: nat, j: nat)
    requires var parts := Split(name);
      i < j < |parts| && IsNamePart(parts[i]) && IsNamePart(parts[j])
      && (forall k :: 0 <= k < i ==> !IsNamePart(parts[k]))
      && (forall k :: j < k < |parts| ==> !IsNamePart(parts[k]))
    ensures NormalizeName(name) == Ok((Lower(Split(name)[i]), Lower(Split(name)[j])))
  {
    SkipTitles(Split(name), i, j);
  }

  lemma SkipTitles(parts: seq<string>, i: nat, j: nat)
    requires i < j < |parts| && IsNamePart(parts[i]) && IsNamePart(parts[j])
    requires forall k :: 0 <= k < i ==> !IsNamePart(parts[k])
    requires forall k :: j < k < |parts| ==> !IsNamePart(parts[k])
    ensures NormalizeParts(parts) == Ok((Lower(parts[i]), Lower(parts[j])))
  {
    FilterFirstAt(parts, IsNamePart, i);
    FilterLastAt(parts, IsNamePart, j);
    FilterTwo(parts, IsNamePart, i, j);
    CleanEnds(parts, parts[i], parts[j]);
  }

  /** With two or more words, at least two of them real name parts, the outer real parts are used. */
  lemma CleanEnds(parts: seq<string>, a: string, b: string)
    requires |parts| >= 2
    requires var clean := Filter(parts, IsNamePart);
      |clean| >= 2 && clean[0] == a && clean[|clean| - 1] == b
    ensures NormalizeParts(parts) == Ok((Lower(a), Lower(b)))
  {
  }

  /** With two or more words of which only one is a real name part, that word is the first name. */
  lemma NormalizeOnePart(name: string, i: nat)
    requires var parts := Split(name);
      |parts| >= 2 && i < |parts| && IsNamePart(parts[i])
      && (forall k :: 0 <= k < |parts| && k != i ==> !IsNamePart(parts[k]))
    ensures NormalizeName(name) == Ok((Lower(Split(name)[i]), ""))
  {
    OnePart(Split(name), i);
  }

  lemma OnePart(parts: seq<string>, i: nat)
    requires |parts| >= 2 && i < |parts| && IsNamePart(parts[i])
    requires forall k :: 0 <= k < |parts| && k != i ==> !IsNamePart(parts[k])
    ensures NormalizeParts(parts) == Ok((Lower(parts[i]), ""))
  {
    FilterOnly(parts, IsNamePart, i);
    CleanOnly(parts, parts[i]);
  }

  /** With two or more words of which exactly one is a real name part, it alone is used. */
  lemma CleanOnly(parts: seq<string>, a: string)
    requires |parts| >= 2
    requires var clean := Filter(parts, IsNamePart); |clean| == 1 && clean[0] == a
    ensures NormalizeParts(parts) == Ok((Lower(a), ""))
  {
  }

  /** A name made only of titles and suffixes falls back to its first and last raw words. */
  lemma NormalizeAllTitles(name: string)
    requires var parts := Split(name);
      |parts| >= 2 && forall k :: 0 <= k < |parts| ==> !IsNamePart(parts[k])
    ensures NormalizeName(name) == Ok((Lower(Split(name)[0]), Lower(Split(name)[|Split(name)| - 1])))
  {
    FilterNone(Split(name), IsNamePart);
  }

  lemma LowerWord(w: string)
    requires w != [] && NoSpace(w)
    ensures Lower(w) != [] && NoSpace(Lower(w)) && IsLower(Lower(w)) && Lower(Lower(w)) == Lower(w)
    ensures IsNamePart(Lower(w)) == IsNamePart(w)
  {
    LowerIsLower(w);
    assert forall k :: 0 <= k < |w| ==> !IsSpace(w[k]) ==> !IsSpace(LowerChar(w[k]));
  }

  /**
   * Normalising is stable: the pair a name normalises to, written back as a name
   * (first and last joined by a blank), normalises to the same pair.
   */
  lemma NormalizeStable(name: string)
    requires Split(name) != []
    ensures var (first, last) := NormalizeName(name).value;
      first != [] && NoSpace(first) && IsLower(first)
      && NormalizeName(if last == "" then first else first + " " + last) == Ok((first, last))
  {
    var a, b := NormalizeSource(Split(name));
    if NormalizeName(name).value == (Lower(a), "") {
      StableWord(a);
    } else {
      StablePair(a, b);
    }
  }

  /**
   * The words a normalised name comes from: either one word `a` alone, or two
   * words `a` and `b` that are both real name parts or both titles.
   */
  lemma NormalizeSource(parts: seq<string>) returns (a: string, b: string)
    requires parts != [] && forall k :: 0 <= k < |parts| ==> parts[k] != [] && NoSpace(parts[k])
    ensures a != [] && NoSpace(a)
    ensures NormalizeParts(parts).value == (Lower(a), "")
      || (b != [] && NoSpace(b) && IsNamePart(a) == IsNamePart(b)
          && NormalizeParts(parts).value == (Lower(a), Lower(b)))
  {
    var clean := Filter(parts, IsNamePart);
    if |parts| == 1 {
      a, b := parts[0], parts[0];
    } else if |clean| >= 2 {
      a, b := SourceTwo(parts);
    } else if |clean| == 1 {
      a := SourceOne(parts);
      b := a;
    } else {
      a, b := parts[0], parts[|parts| - 1];
      FilterEmptyAt(parts, IsNamePart, 0);
      FilterEmptyAt(parts, IsNamePart, |parts| - 1);
      TitlesOnly(parts);
    }
  }

  lemma SourceTwo(parts: seq<string>) returns (a: string, b: string)
    requires forall k :: 0 <= k < |parts| ==> parts[k] != [] && NoSpace(parts[k])
    requires |parts| >= 2 && |Filter(parts, IsNamePart)| >= 2
    ensures a != [] && NoSpace(a) && b != [] && NoSpace(b) && IsNamePart(a) && IsNamePart(b)
    ensures NormalizeParts(parts) == Ok((Lower(a), Lower(b)))
  {
    var i := FilterElem(parts, IsNamePart, 0);
    var j := FilterElem(parts, IsNamePart, |Filter(parts, IsNamePart)| - 1);
    a, b := parts[i], parts[j];
    CleanEnds(parts, a, b);
  }

  lemma SourceOne(parts: seq<string>) returns (a: string)
    requires forall k :: 0 <= k < |parts| ==> parts[k] != [] && NoSpace(parts[k])
    requires |parts| >= 2 && |Filter(parts, IsNamePart)| == 1
    ensures a != [] && NoSpace(a)
    ensures NormalizeParts(parts) == Ok((Lower(a), ""))
  {
    var i := FilterElem(parts, IsNamePart, 0);
    a := parts[i];
    CleanOnly(parts, a);
  }

  /** With two or more words, none of them a real name part, the outer raw words are used. */
  lemma TitlesOnly(parts: seq<string>)
    requires |parts| >= 2 && Filter(parts, IsNamePart) == []
    ensures NormalizeParts(parts) == Ok((Lower(parts[0]), Lower(parts[|parts| - 1])))
  {
  }

  /** A word kept as the first name alone normalises back to itself. */
  lemma StableWord(w: string)
    requires w != [] && NoSpace(w)
    ensures var first := Lower(w);
      first != [] && NoSpace(first) && IsLower(first) && NormalizeName(first) == Ok((first, ""))
  {
    LowerWord(w);
    SplitWord(Lower(w));
  }

  /**
   * Two words taken as the first and last name, both real name parts or both
   * titles, normalise back to themselves once written as "first last".
   */
  lemma StablePair(a: string, b: string)
    requires a != [] && NoSpace(a) && b != [] && NoSpace(b)
    requires IsNamePart(a) == IsNamePart(b)
    ensures var (first, last) := (Lower(a), Lower(b));
      first != [] && NoSpace(first) && IsLower(first) && last != []
      && NormalizeName(first + " " + last) == Ok((first, last))
  {
    LowerWord(a);
    LowerWord(b);
    SplitTwo(Lower(a), Lower(b));
    TwoParts(Lower(a), Lower(b));
  }

  /** Two words, both real name parts or both titles, are the first and the last name. */
  lemma TwoParts(x: string, y: string)
    requires IsNamePart(x) == IsNamePart(y)
    ensures NormalizeParts([x, y]) == Ok((Lower(x), Lower(y)))
  {
    var parts := [x, y];
    assert parts[..1] == [x] && [x][..0] == [];
    var head := Filter([x], IsNamePart);
    assert head == Filter([], IsNamePart) + (if IsNamePart(x) then [x] else []);
    var clean := Filter(parts, IsNamePart);
    assert clean == head + (if IsNamePart(y) then [y] else []);
  }

  lemma NormalizeExampleTitle()
    ensures NormalizeName("Dr.") == Ok(("dr.", ""))
  {
    SplitWord("Dr.");
    assert Lower("Dr.") == "dr.";
  }

  /** Two plain words, neither a title nor a suffix, are the first and the last name. */
  lemma NormalizeTwoWords(a: string, b: string)
    requires a != [] && NoSpace(a) && b != [] && NoSpace(b)
    requires IsNamePart(a) && IsNamePart(b)
    ensures NormalizeName(a + " " + b) == Ok((Lower(a), Lower(b)))
  {
    SplitTwo(a, b);
    TwoParts(a, b);
  }

  /** `"Dr."` and `"PhD"` are dropped whatever their case; `"Sam"` and `"Altman"` are kept. */
  lemma TitleExamples()
    ensures IsTitleOrSuffix("Dr.") && IsTitleOrSuffix("PhD")
  {
    assert Lower("Dr.") == "dr." && RStripChar("dr.", '.') == "dr";
    assert Lower("PhD") == "phd" && RStripChar("phd", '.') == "phd";
    OneOfIsIn("dr", TITLES + SUFFIXES);
    OneOfIsIn("phd", TITLES + SUFFIXES);
  }

  lemma NamePartExamples()
    ensures IsNamePart("Sam") && IsNamePart("Altman")
  {
    assert Lower("Sam") == "sam" && RStripChar("sam", '.') == "sam";
    assert Lower("Altman") == "altman" && RStripChar("altman", '.') == "altman";
    OneOfIsIn("sam", TITLES + SUFFIXES);
    OneOfIsIn("altman", TITLES + SUFFIXES);
  }

  // ================================================================ candidates

  /** A template is skipped for a person without a last name when its format string mentions `{last}`. */
  predicate NeedsLast(p: Template) {
    Contains(Show(p), "{last}")
  }

  /** Exactly the templates at positions 2, 4 and 8 (`{first}`, `{first}{l}`, `{first}.{l}`) do without `{last}`. */
  lemma NeedsLastAt(i: nat)
    requires i < |PATTERNS|
    ensures NeedsLast(PATTERNS[i]) <==> i != 2 && i != 4 && i != 8
  {
    if i == 2 || i == 4 || i == 8 {
      LastFree(i);
    } else {
      LastNeeded(i);
    }
  }

  lemma LastFree(i: nat)
    requires i == 2 || i == 4 || i == 8
    ensures !NeedsLast(PATTERNS[i])
  {
    var s := Show(PATTERNS[i]);
    assert 'a' !in s by { PatternStrings(); }
    NoLastIn(s);
  }

  lemma LastNeeded(i: nat)
    requires i < |PATTERNS| && i != 2 && i != 4 && i != 8
    ensures NeedsLast(PATTERNS[i])
  {
    var k := if i == 6 || i == 9 then 0 else if i == 1 || i == 3 then 1 else 2;
    assert PATTERNS[i][k] == Last;
    LastShown(PATTERNS[i], k);
  }

  /** A template holding the `{last}` placeholder mentions `{last}` when written out. */
  lemma LastShown(p: Template, k: nat)
    requires k < |p| && p[k] == Last
    ensures NeedsLast(p)
  {
    assert p == p[..k] + ([Last] + p[k + 1..]);
    ShowAppend(p[..k], [Last] + p[k + 1..]);
    ContainsAt(Show(p), "{last}", |Show(p[..k])|);
  }

  /** Writing out is compositional. */
  lemma {:induction false} ShowAppend(a: Template, b: Template)
    ensures Show(a + b) == Show(a) + Show(b)
    decreases |a|
  {
    if a == [] {
      assert a + b == b;
    } else {
      assert (a + b)[1..] == a[1..] + b;
      ShowAppend(a[1..], b);
    }
  }

  /** A string without the letter `a` cannot contain `{last}`. */
  lemma {:induction false} NoLastIn(s: string)
    requires 'a' !in s
    ensures !Contains(s, "{last}")
    decreases |s|
  {
    if s != [] {
      NoLastIn(s[1..]);
      if |s| >= 6 {
        assert s[..6][2] == s[2];
      }
    }
  }

  /** What one template contributes: its address, or nothing when it needs a missing last name. */
  function Emit(p: Template, first: string, last: string, domain: string): (r: seq<string>)
    requires first != ""
    ensures |r| <= 1 && (last != "" ==> |r| == 1)
  {
    if last == "" && NeedsLast(p) then [] else [Render(p, FieldsFor(first, last)) + "@" + domain]
  }

  /** The addresses a run of templates gives, in template order. */
  function CandidatesOf(ps: seq<Template>, first: string, last: string, domain: string): (r: seq<string>)
    requires first != ""
    ensures |r| <= |ps| && (last != "" ==> |r| == |ps|)
    decreases |ps|
  {
    if ps == [] then []
    else CandidatesOf(ps[..|ps| - 1], first, last, domain) + Emit(ps[|ps| - 1], first, last, domain)
  }

  /** The candidate addresses for a person; none without a first name. */
  function Candidates(first: string, last: string, domain: string): (r: seq<string>)
    ensures first == "" ==> r == []
    ensures |r| <= |PATTERNS| && (first != "" && last != "" ==> |r| == |PATTERNS|)
  {
    if first == "" then [] else CandidatesOf(PATTERNS, first, last, domain)
  }

  /**
   * `generate_emails`: every template rendered with the person's names and
   * followed by `@domain`, skipping the templates that need a last name when
   * there is none.
   */
  method GenerateEmails(first: string, last: string, domain: string) returns (emails: seq<string>)
    ensures emails == Candidates(first, last, domain)
  {
    if first == "" {
      return [];
    }
    emails := [];
    for i := 0 to |PATTERNS|
      invariant emails == CandidatesOf(PATTERNS[..i], first, last, domain)
    {
      var pattern := PATTERNS[i];
      var email := Render(pattern, FieldsFor(first, last));
      CandidatesStep(PATTERNS, i, first, last, domain);
      if last == "" && Contains(Show(pattern), "{last}") {
        assert Emit(pattern, first, last, domain) == [];
        continue;
      }
      assert Emit(pattern, first, last, domain) == [email + "@" + domain];
      emails := emails + [email + "@" + domain];
    }
    assert PATTERNS[..|PATTERNS|] == PATTERNS;
  }

  /** With a last name every template contributes, in order, its rendering at the domain. */
  lemma {:induction false} CandidatesAll(ps: seq<Template>, first: string, last: string, domain: string)
    requires first != "" && last != ""
    ensures |CandidatesOf(ps, first, last, domain)| == |ps|
    ensures forall i :: 0 <= i < |ps| ==>
      CandidatesOf(ps, first, last, domain)[i] == Render(ps[i], FieldsFor(first, last)) + "@" + domain
    decreases |ps|
  {
    if ps != [] {
      var init, p := ps[..|ps| - 1], ps[|ps| - 1];
      CandidatesAll(init, first, last, domain);
      var c, e := CandidatesOf(init, first, last, domain), Render(p, FieldsFor(first, last)) + "@" + domain;
      assert Emit(p, first, last, domain) == [e];
      assert CandidatesOf(ps, first, last, domain) == c + [e];
      assert forall i :: 0 <= i < |init| ==> ps[i] == init[i];
    }
  }

  /** One more template appends what it contributes. */
  lemma CandidatesStep(ps: seq<Template>, k: nat, first: string, last: string, domain: string)
    requires first != "" && k < |ps|
    ensures CandidatesOf(ps[..k + 1], first, last, domain)
      == CandidatesOf(ps[..k], first, last, domain) + Emit(ps[k], first, last, domain)
  {
    assert ps[..k + 1][..k] == ps[..k];
  }

  /**
   * Without a last name only `{first}`, `{first}{l}` and `{first}.{l}` remain,
   * the last two with an empty initial: the first name twice, then the first name and a dot.
   */
  lemma CandidatesWithoutLast(first: string, domain: string)
    requires first != ""
    ensures Candidates(first, "", domain) == [first + "@" + domain, first + "@" + domain, first + ".@" + domain]
  {
    var e, d := first + "@" + domain, first + ".@" + domain;
    WithoutLastPrefix(|PATTERNS|, first, domain);
    assert PATTERNS[..|PATTERNS|] == PATTERNS;
    assert WithoutLastUpTo(|PATTERNS|, e, d) == [e, e, d];
  }

  /** What the first `k` templates give without a last name: `e` at 2 and 4, `d` at 8. */
  function WithoutLastUpTo(k: nat, e: string, d: string): seq<string> {
    (if k > 2 then [e] else []) + (if k > 4 then [e] else []) + (if k > 8 then [d] else [])
  }

  lemma WithoutLastUpToStep(k: nat, e: string, d: string)
    requires k > 0
    ensures WithoutLastUpTo(k, e, d) == WithoutLastUpTo(k - 1, e, d)
      + (if k - 1 == 2 || k - 1 == 4 then [e] else if k - 1 == 8 then [d] else [])
  {
    if k - 1 == 2 {
      assert WithoutLastUpTo(k, e, d) == [e] && WithoutLastUpTo(k - 1, e, d) == [];
    } else if k - 1 == 4 {
      assert WithoutLastUpTo(k, e, d) == [e, e] && WithoutLastUpTo(k - 1, e, d) == [e];
    } else if k - 1 == 8 {
      assert WithoutLastUpTo(k, e, d) == [e, e, d] && WithoutLastUpTo(k - 1, e, d) == [e, e];
    } else {
      assert WithoutLastUpTo(k, e, d) == WithoutLastUpTo(k - 1, e, d);
    }
  }

  lemma {:induction false} WithoutLastPrefix(k: nat, first: string, domain: string)
    requires k <= |PATTERNS| && first != ""
    ensures CandidatesOf(PATTERNS[..k], first, "", domain) == WithoutLastUpTo(k, first + "@" + domain, first + ".@" + domain)
    decreases k
  {
    if k > 0 {
      WithoutLastPrefix(k - 1, first, domain);
      CandidatesStep(PATTERNS, k - 1, first, "", domain);
      EmitWithoutLast(k - 1, first, domain);
      WithoutLastUpToStep(k, first + "@" + domain, first + ".@" + domain);
    }
  }

  lemma EmitWithoutLast(i: nat, first: string, domain: string)
    requires i < |PATTERNS| && first != ""
    ensures Emit(PATTERNS[i], first, "", domain) ==
      if i == 2 || i == 4 then [first + "@" + domain]
      else if i == 8 then [first + ".@" + domain]
      else []
  {
    NeedsLastAt(i);
    if i == 2 || i == 4 || i == 8 {
      EmitKept(PATTERNS[i], first, domain);
      RenderWithoutLast(i, first);
      assert first + "." + "@" + domain == first + ".@" + domain;
    } else {
      EmitDropped(PATTERNS[i], first, domain);
    }
  }

  lemma EmitKept(p: Template, first: string, domain: string)
    requires first != "" && !NeedsLast(p)
    ensures Emit(p, first, "", domain) == [Render(p, FieldsFor(first, "")) + "@" + domain]
  {
  }

  lemma EmitDropped(p: Template, first: string, domain: string)
    requires first != "" && NeedsLast(p)
    ensures Emit(p, first, "", domain) == []
  {
  }

  lemma RenderWithoutLast(i: nat, first: string)
    requires i == 2 || i == 4 || i == 8
    requires first != ""
    ensures Render(PATTERNS[i], FieldsFor(first, "")) == if i == 8 then first + "." else first
  {
    var v := FieldsFor(first, "");
    var p := PATTERNS[i];
    assert Render(p[|p|..], v) == "";
    assert Render(p[|p| - 1..], v) == (if i == 2 then first else "") by {
      assert p[|p| - 1..][1..] == p[|p|..];
    }
    if i == 8 {
      assert Render(p[1..], v) == "." + Render(p[2..], v);
    }
  }

  /** Every candidate is an address at the domain. */
  lemma EmitAtDomain(p: Template, first: string, last: string, domain: string)
    requires first != ""
    ensures forall e :: e in Emit(p, first, last, domain) ==> EndsWith(e, "@" + domain)
  {
    var tail := Emit(p, first, last, domain);
    if tail != [] {
      var local := Render(p, FieldsFor(first, last));
      assert tail == [local + "@" + domain];
      assert (local + "@" + domain)[|local|..] == "@" + domain;
    }
  }

  lemma {:induction false} CandidatesAtDomain(ps: seq<Template>, first: string, last: string, domain: string)
    requires first != ""
    ensures forall e :: e in CandidatesOf(ps, first, last, domain) ==> EndsWith(e, "@" + domain)
    decreases |ps|
  {
    if ps != [] {
      var init := ps[..|ps| - 1];
      CandidatesAtDomain(init, first, last, domain);
      var p := ps[|ps| - 1];
      EmitAtDomain(p, first, last, domain);
      assert CandidatesOf(ps, first, last, domain) == CandidatesOf(init, first, last, domain) + Emit(p, first, last, domain);
    }
  }

  /**
   * With a last name all eleven templates contribute. The verified addresses
   * the tests list rank in the top five: `first.last@` first (`xiao.li@`), the
   * bare first name third (`guillermo@`), initial and last name fourth
   * (`snadella@`) and first name with last initial fifth (`sama@`).
   */
  lemma CandidatesWithLast(first: string, last: string, domain: string)
    requires first != "" && last != ""
    ensures var c := Candidates(first, last, domain);
      |c| == |PATTERNS| && c[0] == first + "." + last + "@" + domain
      && c[2] == first + "@" + domain && c[3] == [first[0]] + last + "@" + domain
      && c[4] == first + [last[0]] + "@" + domain
  {
    CandidatesAll(PATTERNS, first, last, domain);
    RenderFirstDotLast(first, last);
    RenderFirst(first, last);
    RenderInitialLast(first, last);
    RenderFirstInitial(first, last);
  }

  lemma RenderFirstDotLast(first: string, last: string)
    requires first != "" && last != ""
    ensures Render(PATTERNS[0], FieldsFor(first, last)) == first + "." + last
  {
    var p := PATTERNS[0];
    assert Render(p[2..], FieldsFor(first, last)) == last + Render(p[3..], FieldsFor(first, last));
  }

  lemma RenderFirst(first: string, last: string)
    requires first != "" && last != ""
    ensures Render(PATTERNS[2], FieldsFor(first, last)) == first
  {
    assert PATTERNS[2][1..] == [];
  }

  lemma RenderInitialLast(first: string, last: string)
    requires first != "" && last != ""
    ensures Render(PATTERNS[3], FieldsFor(first, last)) == [first[0]] + last
  {
    var p := PATTERNS[3];
    assert Render(p[1..], FieldsFor(first, last)) == last + Render(p[2..], FieldsFor(first, last));
  }

  lemma RenderFirstInitial(first: string, last: string)
    requires first != "" && last != ""
    ensures Render(PATTERNS[4], FieldsFor(first, last)) == first + [last[0]]
  {
    var p := PATTERNS[4];
    assert Render(p[1..], FieldsFor(first, last)) == [last[0]] + Render(p[2..], FieldsFor(first, last));
  }

  // ================================================================ ranking

  /**
   * The address for a domain's known pattern:
   * `pattern.format(first=…, last=…, f=…, l=…) + "@" + domain`; a pattern that
   * is not a valid format string over those four names raises.
   */
  function PatternEmail(pattern: string, first: string, last: string, domain: string): (r: Result<string>)
    requires first != ""
    ensures r.Ok? <==> ParseTemplate(pattern).Ok?
    ensures r.Ok? ==> EndsWith(r.value, "@" + domain)
  {
    var t :- ParseTemplate(pattern);
    var local := Render(t, FieldsFor(first, last));
    assert (local + "@" + domain)[|local|..] == "@" + domain;
    Ok(local + "@" + domain)
  }

  /**
   * `emails.remove(x)` when present, then `emails.insert(0, x)`: the address
   * comes first, the others keep their order, and the list grows only when the
   * address was not already in it.
   */
  function Promote(emails: seq<string>, x: string): (r: seq<string>)
    ensures r != [] && r[0] == x && IsSubseq(r[1..], emails)
    ensures x in emails ==> |r| == |emails| && multiset(r) == multiset(emails)
    ensures x !in emails ==> r == [x] + emails
    ensures forall i :: 0 <= i < |emails| && emails[i] == x && x !in emails[..i] ==>
      r == [x] + (emails[..i] + emails[i + 1..])
  {
    RemoveFirstSpec(emails, x);
    RemoveFirstWhere(emails, x);
    var r := [x] + RemoveFirst(emails, x);
    assert r[1..] == RemoveFirst(emails, x);
    assert multiset(r) == multiset{x} + multiset(RemoveFirst(emails, x));
    r
  }

  /**
   * Lines 229-231 on the list in place: the first occurrence of the address,
   * if any, is found and removed, and the address is inserted at the front.
   */
  method PromoteCanonical(emails: seq<string>, x: string) returns (promoted: seq<string>)
    ensures promoted == Promote(emails, x)
  {
    var i := 0;
    while i < |emails| && emails[i] != x
      invariant i <= |emails| && x !in emails[..i]
    {
      i := i + 1;
    }
    promoted := emails;
    if i < |emails| {
      RemoveFirstAt(emails, x, i);
      promoted := emails[..i] + emails[i + 1..];
    } else {
      assert emails[..i] == emails;
      RemoveFirstSpec(emails, x);
    }
    promoted := [x] + promoted;
  }

  /** A promoted address that occurred at most once before occurs exactly once after. */
  lemma PromoteOnce(emails: seq<string>, x: string)
    requires multiset(emails)[x] <= 1
    ensures multiset(Promote(emails, x))[x] == 1
  {
    var r := Promote(emails, x);
    if x !in emails {
      assert multiset(r) == multiset{x} + multiset(emails);
    }
  }

  /** An address promoted a second time stays where it is. */
  lemma PromoteIdempotent(emails: seq<string>, x: string)
    ensures Promote(Promote(emails, x), x) == Promote(emails, x)
  {
    var r := Promote(emails, x);
    assert RemoveFirst(r, x) == r[1..];
  }

  /**
   * The candidates for a normalised name, with the known pattern's address
   * moved to the front when the pattern is a non-empty string.
   */
  function RankFor(first: string, last: string, domain: string, pattern: string): (r: Result<seq<string>>)
    requires first != ""
    ensures r.Ok? <==> pattern == "" || ParseTemplate(pattern).Ok?
    ensures pattern == "" ==> r == Ok(Candidates(first, last, domain))
    ensures r.Ok? && pattern != "" ==>
      PatternEmail(pattern, first, last, domain).Ok? &&
      r.value == Promote(Candidates(first, last, domain), PatternEmail(pattern, first, last, domain).value)
    ensures r.Ok? && pattern != "" ==> r.value != [] && r.value[0] == PatternEmail(pattern, first, last, domain).value
  {
    var emails := Candidates(first, last, domain);
    if pattern == "" then Ok(emails)
    else
      var x :- PatternEmail(pattern, first, last, domain);
      Ok(Promote(emails, x))
  }

  /**
   * The ranking of `main` end to end: a missing name or domain is a usage
   * error, a blank name and an unusable pattern raise, and otherwise the list
   * is the ranking for the normalised name.
   */
  function RankEmails(name: string, domain: string, pattern: string): (r: Result<seq<string>>)
    ensures name == "" || domain == "" ==> r == Err(UsageError)
    ensures r.Ok? <==> name != "" && domain != "" && Split(name) != [] && (pattern == "" || ParseTemplate(pattern).Ok?)
    ensures r.Ok? ==>
      NormalizeName(name).Ok? && NormalizeName(name).value.0 != "" &&
      r == RankFor(NormalizeName(name).value.0, NormalizeName(name).value.1, domain, pattern)
  {
    if name == "" || domain == "" then Err(UsageError)
    else
      var (first, last) :- NormalizeName(name);
      NormalizeStable(name);
      RankFor(first, last, domain, pattern)
  }

  /**
   * When the known pattern is one of the templates and the person has a last
   * name, ranking only reorders the candidates: that template's address comes first.
   */
  lemma RankKnownPattern(first: string, last: string, domain: string, i: nat)
    requires first != "" && last != "" && i < |PATTERNS|
    ensures var r := RankFor(first, last, domain, Show(PATTERNS[i]));
      var c := Candidates(first, last, domain);
      |c| == |PATTERNS| && r.Ok? && r.value[0] == c[i] && |r.value| == |c| && multiset(r.value) == multiset(c)
  {
    var c := Candidates(first, last, domain);
    CandidatesAll(PATTERNS, first, last, domain);
    ShowNonEmpty(PATTERNS[i]);
    PatternEmailShow(PATTERNS[i], first, last, domain);
    assert c[i] in c;
  }

  /** A template's own text renders as the template does. */
  lemma PatternEmailShow(t: Template, first: string, last: string, domain: string)
    requires first != ""
    ensures PatternEmail(Show(t), first, last, domain) == Ok(Render(t, FieldsFor(first, last)) + "@" + domain)
  {
    ParseShow(t);
  }

  lemma ShowNonEmpty(t: Template)
    requires t != []
    ensures Show(t) != ""
  {
    var h := ShowToken(t[0]);
    assert Show(t) == h + Show(t[1..]) && h != "";
  }

  // ================================================================ verification

  /**
   * What `verify_with_hunter` returned for an address: the message of a failed
   * request (`""` when there is none) and the verdict Hunter.io gave.
   */
  datatype Verification = Verification(error: string, result: Verdict)

  /**
   * The `result` of a reply: the key is missing (`get` falls back to
   * `"unknown"`), present as JSON null (formatted as `None`), or a text.
   */
  datatype Verdict = Missing | Null | Given(text: string)

  /** The marker printed after a verified address. */
  function StatusText(v: Verification): (s: string)
    ensures v.error != "" ==> s == " [Error: " + v.error + "]"
    ensures v.error == "" && v.result == Given("deliverable") ==> s == " \U{2713} VERIFIED"
    ensures v.error == "" && v.result == Given("undeliverable") ==> s == " \U{2717} Invalid"
    ensures v.error == "" && v.result.Given? && v.result.text != "deliverable" && v.result.text != "undeliverable"
      ==> s == " [" + v.result.text + "]"
    ensures v.error == "" && v.result == Missing ==> s == " [unknown]"
    ensures v.error == "" && v.result == Null ==> s == " [None]"
  {
    if v.error != "" then " [Error: " + v.error + "]"
    else match v.result
      case Given(text) =>
        if text == "deliverable" then " \U{2713} VERIFIED"
        else if text == "undeliverable" then " \U{2717} Invalid"
        else " [" + text + "]"
      case Missing => " [unknown]"
      case Null => " [None]"
  }

  /**
   * The check mark is shown exactly for a deliverable verdict without an error,
   * and the cross exactly for an undeliverable one.
   */
  lemma StatusMarks(v: Verification)
    ensures StatusText(v) == " \U{2713} VERIFIED" <==> v.error == "" && v.result == Given("deliverable")
    ensures StatusText(v) == " \U{2717} Invalid" <==> v.error == "" && v.result == Given("undeliverable")
  {
    var s := StatusText(v);
    if v.error != "" || (v.result != Given("deliverable") && v.result != Given("undeliverable")) {
      assert s[1] == '[';
    }
  }

  /**
   * Every other reply is shown in brackets: the error message, or the verdict
   * as Python formats it.
   */
  lemma StatusBracketed(v: Verification)
    ensures v.error != "" || (v.result != Given("deliverable") && v.result != Given("undeliverable"))
      <==> (StatusText(v)[..2] == " [" && StatusText(v)[|StatusText(v)| - 1] == ']')
  {
  }

  function Min(a: nat, b: nat): nat {
    if a < b then a else b
  }

  /** The dictionary after recording the replies to the first `|calls|` verification calls, in order. */
  function Recorded(calls: seq<string>, replies: seq<Verification>): (r: map<string, Verification>)
    requires |replies| >= |calls|
    ensures calls != [] ==> calls[|calls| - 1] in r && r[calls[|calls| - 1]] == replies[|calls| - 1]
    decreases |calls|
  {
    if calls == [] then map[]
    else
      var n := |calls| - 1;
      Recorded(calls[..n], replies)[calls[n] := replies[n]]
  }

  /**
   * Lines 242-244: only the first three addresses are verified, one call each;
   * `replies[i]` is what the `i`-th call returned.
   */
  method VerifyTop(emails: seq<string>, replies: seq<Verification>) returns (verified: map<string, Verification>)
    requires |replies| >= Min(3, |emails|)
    ensures verified == Recorded(emails[..Min(3, |emails|)], replies)
  {
    var top := emails[..Min(3, |emails|)];
    verified := map[];
    for i := 0 to |top|
      invariant verified == Recorded(top[..i], replies)
    {
      assert top[..i + 1][..i] == top[..i];
      verified := verified[top[i] := replies[i]];
    }
    assert top[..|top|] == top;
  }

  /** The recorded addresses are exactly the called ones. */
  lemma {:induction false} RecordedKeys(calls: seq<string>, replies: seq<Verification>)
    requires |replies| >= |calls|
    ensures Recorded(calls, replies).Keys == set e | e in calls
    decreases |calls|
  {
    if calls != [] {
      var n := |calls| - 1;
      RecordedKeys(calls[..n], replies);
      assert calls == calls[..n] + [calls[n]];
    }
  }

  /** An address called more than once keeps the reply of its last call. */
  lemma {:induction false} RecordedLastWins(calls: seq<string>, replies: seq<Verification>, i: nat)
    requires |replies| >= |calls| && i < |calls| && calls[i] !in calls[i + 1..]
    ensures calls[i] in Recorded(calls, replies) && Recorded(calls, replies)[calls[i]] == replies[i]
    decreases |calls|
  {
    var n := |calls| - 1;
    if i < n {
      assert calls[n] in calls[i + 1..];
      assert calls[..n][i + 1..] == calls[i + 1..n];
      RecordedLastWins(calls[..n], replies, i);
    }
  }

  // ================================================================ output

  /** The line for the `k`-th address (counting from 1), with its marker when it was verified. */
  function EntryLine(k: nat, email: string, verified: map<string, Verification>): (r: string)
    ensures StartsWith(r, "  " + NatToString(k) + ". " + email)
    ensures email in verified ==> EndsWith(r, StatusText(verified[email]))
  {
    "  " + NatToString(k) + ". " + email + (if email in verified then StatusText(verified[email]) else "")
  }

  /** The numbered lines for a run of addresses. */
  function EntryLines(emails: seq<string>, verified: map<string, Verification>): (r: seq<string>)
    ensures |r| == |emails|
    decreases |emails|
  {
    if emails == [] then []
    else EntryLines(emails[..|emails| - 1], verified) + [EntryLine(|emails|, emails[|emails| - 1], verified)]
  }

  /** The banner, the name and domain, the known pattern when there is one, and the list heading. */
  function HeaderLines(name: string, domain: string, pattern: string): (r: seq<string>)
    ensures |r| == (if pattern != "" then 8 else 7)
    ensures r[3] == "Name: " + name && r[4] == "Domain: " + domain && r[|r| - 1] == Repeat('-', 40)
    ensures pattern != "" ==> r[5] == "Known Pattern: " + pattern
  {
    ["\n" + Repeat('=', 60), "Email Finder Results", Repeat('=', 60), "Name: " + name, "Domain: " + domain]
    + (if pattern != "" then ["Known Pattern: " + pattern] else [])
    + ["\nLikely Email Addresses (in order of probability):", Repeat('-', 40)]
  }

  /** The lines of the report; at most ten addresses are listed. */
  function OutputLines(name: string, domain: string, emails: seq<string>,
                       verified: map<string, Verification>, pattern: string): seq<string>
  {
    HeaderLines(name, domain, pattern) + EntryLines(emails[..Min(10, |emails|)], verified) + [""]
  }

  /** `format_output`: the report's lines joined by newlines. */
  method FormatOutput(name: string, domain: string, emails: seq<string>,
                      verified: map<string, Verification>, pattern: string) returns (out: string)
    ensures out == Join(OutputLines(name, domain, emails, verified, pattern), "\n")
  {
    // the fixed lines come first, as `HeaderLines` lists them
    var header := HeaderLines(name, domain, pattern);
    var lines := header;
    var shown := emails[..Min(10, |emails|)];
    ghost var entries: seq<string> := [];
    for i := 0 to |shown|
      invariant entries == EntryLines(shown[..i], verified)
      invariant lines == header + entries
    {
      var email := shown[i];
      var status := "";
      if email in verified {
        status := StatusText(verified[email]);
      }
      var line := "  " + NatToString(i + 1) + ". " + email + status;
      assert shown[..i + 1][..i] == shown[..i];
      AppendAssoc(header, entries, [line]);
      lines := lines + [line];
      entries := entries + [line];
    }
    assert shown[..|shown|] == shown;
    lines := lines + [""];
    out := Join(lines, "\n");
  }

  /**
   * The report has eight fixed lines, one more for a known pattern, and one
   * per listed address; the `k`-th listed line shows the `k`-th address.
   */
  lemma OutputShape(name: string, domain: string, emails: seq<string>,
                    verified: map<string, Verification>, pattern: string)
    ensures var lines := OutputLines(name, domain, emails, verified, pattern);
      var h := if pattern != "" then 8 else 7;
      |lines| == h + 1 + Min(10, |emails|)
      && (forall k :: 0 <= k < Min(10, |emails|) ==> lines[h + k] == EntryLine(k + 1, emails[k], verified))
      && lines[|lines| - 1] == ""
  {
    var shown := emails[..Min(10, |emails|)];
    EntryLinesAt(shown, verified);
  }

  lemma {:induction false} EntryLinesAt(emails: seq<string>, verified: map<string, Verification>)
    ensures forall k :: 0 <= k < |emails| ==> EntryLines(emails, verified)[k] == EntryLine(k + 1, emails[k], verified)
    decreases |emails|
  {
    if emails != [] {
      EntryLinesAt(emails[..|emails| - 1], verified);
    }
  }

  // ================================================================ environment

  /**
   * One line of a `.env` file: stripped, a blank line, a comment or a line
   * without `=` gives nothing; otherwise the text before the first `=` is the
   * key and the rest the value, each stripped.
   */
  function ParseEnvLine(line: string): (r: Option<(string, string)>)
    ensures r.Some? <==> '=' in Strip(line) && Strip(line)[0] != '#'
    ensures r.Some? ==> '=' !in r.value.0
  {
    var t := Strip(line);
    if t == "" || t[0] == '#' || '=' !in t then None
    else
      var k := IndexOf(t, '=');
      Some((Strip(t[..k]), Strip(t[k + 1..])))
  }

  /**
   * A `key = value` line reads back as that pair whatever whitespace surrounds
   * the key and the value: the key is the text before the first `=` and the
   * value all the text after it, each stripped.
   */
  lemma ParseEnvLineRoundTrip(w1: string, key: string, w2: string, w3: string, value: string, w4: string)
    requires AllSpace(w1) && AllSpace(w2) && AllSpace(w3) && AllSpace(w4)
    requires key != "" && key[0] != '#' && '=' !in key
    requires !IsSpace(key[0]) && !IsSpace(key[|key| - 1])
    requires value == "" || (!IsSpace(value[0]) && !IsSpace(value[|value| - 1]))
    ensures ParseEnvLine(w1 + key + w2 + "=" + w3 + value + w4) == Some((key, value))
  {
    if value == [] {
      assert w1 + key + w2 + "=" + w3 + value + w4 == w1 + key + w2 + "=" + w3 + w4;
      EnvEmptyValue(w1, key, w2, w3, w4);
    } else {
      EnvValue(w1, key, w2, w3, value, w4);
    }
  }

  /** With an empty value, the spaces after `=` are trailing spaces of the line. */
  lemma EnvEmptyValue(w1: string, key: string, w2: string, w3: string, w4: string)
    requires AllSpace(w1) && AllSpace(w2) && AllSpace(w3) && AllSpace(w4)
    requires key != "" && key[0] != '#' && '=' !in key
    requires !IsSpace(key[0]) && !IsSpace(key[|key| - 1])
    ensures ParseEnvLine(w1 + key + w2 + "=" + w3 + w4) == Some((key, ""))
  {
    var line := w1 + key + w2 + "=" + w3 + w4;
    var m := key + w2 + "=";
    var tail := w3 + w4;
    assert line == w1 + m + tail;
    assert AllSpace(tail) by {
      forall i | 0 <= i < |tail|
        ensures IsSpace(tail[i])
      {
        if i >= |w3| {
          assert tail[i] == w4[i - |w3|];
        }
      }
    }
    StripPadded(w1, m, tail);
    assert m == key + w2 + "=" + [];
    ParseStripped(line, key, w2, []);
    StripPadded([], [], []);
  }

  /** With a value, the line strips to `key`, spaces, `=`, spaces and the value. */
  lemma EnvValue(w1: string, key: string, w2: string, w3: string, value: string, w4: string)
    requires AllSpace(w1) && AllSpace(w2) && AllSpace(w3) && AllSpace(w4)
    requires key != "" && key[0] != '#' && '=' !in key
    requires !IsSpace(key[0]) && !IsSpace(key[|key| - 1])
    requires value != "" && !IsSpace(value[0]) && !IsSpace(value[|value| - 1])
    ensures ParseEnvLine(w1 + key + w2 + "=" + w3 + value + w4) == Some((key, value))
  {
    var line := w1 + key + w2 + "=" + w3 + value + w4;
    var rest := w3 + value;
    var m := key + w2 + "=" + rest;
    assert line == w1 + m + w4;
    assert m[|m| - 1] == value[|value| - 1];
    StripPadded(w1, m, w4);
    ParseStripped(line, key, w2, rest);
    StripPadded(w3, value, []);
    assert w3 + value + [] == rest;
  }

  /** A line whose stripped text is `key`, spaces, `=` and `rest` gives the key and the stripped rest. */
  lemma ParseStripped(line: string, key: string, w: string, rest: string)
    requires Strip(line) == key + w + "=" + rest
    requires key != "" && key[0] != '#' && '=' !in key && !IsSpace(key[|key| - 1])
    requires AllSpace(w)
    ensures ParseEnvLine(line) == Some((key, Strip(rest)))
  {
    var t := Strip(line);
    NoEqualsInPadded(key, w);
    assert t == (key + w) + ("=" + rest);
    IndexOfConcat(key + w, '=', "=" + rest);
    var k := |key + w|;
    assert t[k] == '=';
    assert t[..k] == key + w;
    assert t[k + 1..] == rest;
    StripPadded([], key, w);
    assert [] + key + w == key + w;
    ParseEnvLineAt(line, k);
  }

  /** Whitespace after a key brings no `=` into it. */
  lemma NoEqualsInPadded(key: string, w: string)
    requires '=' !in key && AllSpace(w)
    ensures '=' !in key + w
  {
    forall i | 0 <= i < |key + w|
      ensures (key + w)[i] != '='
    {
      if i >= |key| {
        assert (key + w)[i] == w[i - |key|];
      } else {
        assert (key + w)[i] == key[i];
      }
    }
  }

  /** `ParseEnvLine` on a stripped line whose first `=` sits at `k`. */
  lemma ParseEnvLineAt(line: string, k: nat)
    requires var t := Strip(line); k < |t| && t[0] != '#' && t[k] == '=' && k == IndexOf(t, '=')
    ensures var t := Strip(line); ParseEnvLine(line) == Some((Strip(t[..k]), Strip(t[k + 1..])))
  {
  }

  /** The pairs read from the lines of a file, in order. */
  function EnvPairs(lines: seq<string>): (r: seq<(string, string)>)
    ensures |r| <= |lines|
    decreases |lines|
  {
    if lines == [] then []
    else
      EnvPairs(lines[..|lines| - 1])
      + match ParseEnvLine(lines[|lines| - 1]) case None => [] case Some(kv) => [kv]
  }

  /** One more line read adds the pair it holds, if any. */
  lemma EnvPairsStep(lines: seq<string>, i: nat)
    requires i < |lines|
    ensures EnvPairs(lines[..i + 1]) == EnvPairs(lines[..i])
      + match ParseEnvLine(lines[i]) case None => [] case Some(kv) => [kv]
  {
    assert lines[..i + 1][..i] == lines[..i];
  }

  /** `os.environ.setdefault(key, value)` for each pair, in order. */
  function SetDefaults(env: map<string, string>, pairs: seq<(string, string)>): (r: map<string, string>)
    ensures env.Keys <= r.Keys
    decreases |pairs|
  {
    if pairs == [] then env
    else
      var before := SetDefaults(env, pairs[..|pairs| - 1]);
      var (key, value) := pairs[|pairs| - 1];
      if key in before then before else before[key := value]
  }

  lemma SetDefaultsStep(env: map<string, string>, pairs: seq<(string, string)>, kv: (string, string))
    ensures var before := SetDefaults(env, pairs);
      SetDefaults(env, pairs + [kv]) == if kv.0 in before then before else before[kv.0 := kv.1]
  {
    assert (pairs + [kv])[..|pairs|] == pairs;
  }

  /** Loading never overwrites a variable that is already set. */
  lemma {:induction false} SetDefaultsKeeps(env: map<string, string>, pairs: seq<(string, string)>)
    ensures forall key :: key in env ==> key in SetDefaults(env, pairs) && SetDefaults(env, pairs)[key] == env[key]
    decreases |pairs|
  {
    if pairs != [] {
      SetDefaultsKeeps(env, pairs[..|pairs| - 1]);
    }
  }

  /** The variables afterwards are those set before and the keys of the pairs. */
  lemma {:induction false} SetDefaultsKeys(env: map<string, string>, pairs: seq<(string, string)>)
    ensures SetDefaults(env, pairs).Keys == env.Keys + set kv | kv in pairs :: kv.0
    decreases |pairs|
  {
    if pairs != [] {
      var n := |pairs| - 1;
      SetDefaultsKeys(env, pairs[..n]);
      assert pairs == pairs[..n] + [pairs[n]];
      assert (set kv | kv in pairs :: kv.0) == (set kv | kv in pairs[..n] :: kv.0) + {pairs[n].0};
    }
  }

  /** A variable that was not set takes the value of the first pair that sets it. */
  lemma {:induction false} SetDefaultsFirstWins(env: map<string, string>, pairs: seq<(string, string)>, i: nat)
    requires i < |pairs| && pairs[i].0 !in env
    requires forall j :: 0 <= j < i ==> pairs[j].0 != pairs[i].0
    ensures pairs[i].0 in SetDefaults(env, pairs) && SetDefaults(env, pairs)[pairs[i].0] == pairs[i].1
    decreases |pairs|
  {
    var n := |pairs| - 1;
    if i < n {
      SetDefaultsFirstWins(env, pairs[..n], i);
    } else {
      SetDefaultsAbsent(env, pairs[..n], pairs[i].0);
    }
  }

  /** A key no pair sets stays unset. */
  lemma {:induction false} SetDefaultsAbsent(env: map<string, string>, pairs: seq<(string, string)>, key: string)
    requires key !in env && forall j :: 0 <= j < |pairs| ==> pairs[j].0 != key
    ensures key !in SetDefaults(env, pairs)
    decreases |pairs|
  {
    if pairs != [] {
      SetDefaultsAbsent(env, pairs[..|pairs| - 1], key);
    }
  }

  /** The first of the candidate `.env` files that exists, as its lines; `None` for a missing file. */
  function FirstFile(files: seq<Option<seq<string>>>): (r: Option<seq<string>>)
    ensures r.Some? <==> exists i :: 0 <= i < |files| && files[i].Some?
    ensures r.Some? ==> exists i :: 0 <= i < |files| && files[i] == r && forall j :: 0 <= j < i ==> files[j].None?
    decreases |files|
  {
    if files == [] then None
    else if files[0].Some? then files[0]
    else FirstFile(files[1..])
  }

  /** `os.environ`, the process environment the scripts read their API keys from. */
  class Environment {
    var vars: map<string, string>

    constructor (initial: map<string, string>)
      ensures vars == initial
    {
      vars := initial;
    }

    /** `os.environ.setdefault(key, value)`. */
    method SetDefault(key: string, value: string)
      modifies this
      ensures vars == if key in old(vars) then old(vars) else old(vars)[key := value]
    {
      if key !in vars {
        vars := vars[key := value];
      }
    }

    /** Reading one `.env` file line by line. */
    method LoadLines(lines: seq<string>)
      modifies this
      ensures vars == SetDefaults(old(vars), EnvPairs(lines))
    {
      for i := 0 to |lines|
        invariant vars == SetDefaults(old(vars), EnvPairs(lines[..i]))
      {
        EnvPairsStep(lines, i);
        ghost var pairs := EnvPairs(lines[..i]);
        var line := Strip(lines[i]);
        if line != "" && line[0] != '#' && '=' in line {
          var k := IndexOf(line, '=');
          var kv := (Strip(line[..k]), Strip(line[k + 1..]));
          assert ParseEnvLine(lines[i]) == Some(kv);
          assert EnvPairs(lines[..i + 1]) == pairs + [kv];
          SetDefaultsStep(old(vars), pairs, kv);
          SetDefault(kv.0, kv.1);
        } else {
          assert ParseEnvLine(lines[i]) == None;
          assert EnvPairs(lines[..i + 1]) == pairs;
        }
      }
      assert lines[..|lines|] == lines;
    }

    /**
     * `load_env`: the candidate files in order (the toolkit directory, the
     * scripts directory, the working directory); only the first that exists is read.
     */
    method LoadEnv(files: seq<Option<seq<string>>>)
      modifies this
      ensures vars == match FirstFile(files) case None => old(vars) case Some(lines) => SetDefaults(old(vars), EnvPairs(lines))
    {
      var i := 0;
      while i < |files|
        invariant i <= |files|
        invariant vars == old(vars)
        invariant FirstFile(files) == FirstFile(files[i..])
      {
        assert files[i..][1..] == files[i + 1..];
        if files[i].Some? {
          LoadLines(files[i].value);
          return;
        }
        i := i + 1;
      }
    }
  }
}

=== FILE: greenhouse_search.dfy ===
/**
 * Greenhouse job-board search: company names resolve to board tokens, each
 * board's jobs (the fetch outcome is an input here) are filtered by keyword,
 * location and minimum salary, tagged with their company and formatted for
 * display. Salary ranges are read from the free-text description by a
 * scanner equivalent to the search's regular expression.
 */
module GreenhouseSearch {
  import opened Wrappers
  import opened Text
  import opened Seqs

  // ================================================================ board tokens

  /**
   * Known company names (normalised) and their Greenhouse board tokens, in
   * the groups the table lists them: AI/ML, Big Tech, Biotech/Science, and
   * CZ Initiative / Biohub.
   */
  const KNOWN_BOARDS: map<string, string> := map[
    // AI/ML
    "anthropic" := "anthropic",
    "openai" := "openai",
    "deepmind" := "deepmind",
    "cohere" := "cohere",
    "huggingface" := "huggingface",
    "scale" := "scaleai",
    "runway" := "runwayml",
    "stability" := "stability",
    "midjourney" := "midjourney",
    "replicate" := "replicate",
    // Big Tech
    "stripe" := "stripe",
    "databricks" := "databricks",
    "figma" := "figma",
    "notion" := "notion",
    "airtable" := "airtable",
    "linear" := "linear",
    "vercel" := "vercel",
    "supabase" := "supabase",
    "planetscale" := "planetscale",
    // Biotech/Science
    "insitro" := "insitro",
    "recursion" := "recursionpharma",
    "tempus" := "tempus",
    "grail" := "grail",
    "color" := "color",
    "benchling" := "benchling",
    // CZ Initiative / Biohub
    "chanzuckerberg" := "chanzuckerberginitiative",
    "czi" := "chanzuckerberginitiative",
    "biohub" := "biohub",
    "czbiohub" := "biohub"
  ]

  /** A company name with no space, no hyphen and no upper-case letter. */
  predicate Normalized(key: string) {
    ' ' !in key && '-' !in key && IsLower(key)
  }

  /** `company.lower().replace(" ", "").replace("-", "")`. */
  function NormalizeCompany(company: string): (r: string)
    ensures Normalized(r)
  {
    var lowered := Lower(company);
    var noSpace := ReplaceAll(lowered, " ", "");
    var r := ReplaceAll(noSpace, "-", "");
    LowerIsLower(company);
    RemoveCharGone(lowered, ' ');
    RemoveCharGone(noSpace, '-');
    RemoveCharKeepsLower(lowered, ' ');
    RemoveCharKeepsLower(noSpace, '-');
    r
  }

  lemma {:induction false} RemoveCharKeepsLower(s: string, c: char)
    requires IsLower(s)
    ensures IsLower(ReplaceAll(s, [c], ""))
    decreases |s|
  {
    if s != [] {
      RemoveCharKeepsLower(s[1..], c);
    }
  }

  /** `get_board_token`: the table's token for a known name, else the normalised name itself. */
  function GetBoardToken(company: string): (token: string)
    ensures Normalized(token)
  {
    var key := NormalizeCompany(company);
    if key in KNOWN_BOARDS then
      TokenNormalized(key);
      KNOWN_BOARDS[key]
    else key
  }

  /** Each name in the table maps to itself or to one of five tokens. */
  lemma TokenKinds(key: string)
    requires key in KNOWN_BOARDS
    ensures var token := KNOWN_BOARDS[key];
      token == key || token == "biohub" || token == "scaleai" || token == "runwayml"
      || token == "recursionpharma" || token == "chanzuckerberginitiative"
  {
  }

  /** The tokens that are not their own names are written in lower-case letters only. */
  lemma AliasTokensNormalized()
    ensures Normalized("biohub") && Normalized("scaleai") && Normalized("runwayml")
    ensures Normalized("recursionpharma") && Normalized("chanzuckerberginitiative")
  {
    LettersNormalized("biohub");
    LettersNormalized("scaleai");
    LettersNormalized("runwayml");
    LettersNormalized("recursionpharma");
    LettersNormalized("chanzuckerberginitiative");
  }

  /** A string of lower-case ASCII letters. */
  predicate Letters(s: string) {
    forall i :: 0 <= i < |s| ==> 'a' <= s[i] <= 'z'
  }

  lemma LettersNormalized(s: string)
    requires Letters(s)
    ensures Normalized(s)
  {
  }

  /** Every token in the table is a normalised name. */
  lemma TokenNormalized(key: string)
    requires key in KNOWN_BOARDS && Normalized(key)
    ensures Normalized(KNOWN_BOARDS[key])
  {
    TokenKinds(key);
    AliasTokensNormalized();
  }

  /** The alias tokens other than `biohub` are not names in the table. */
  lemma AliasTokensUnknown(token: string)
    requires token == "scaleai" || token == "runwayml" || token == "recursionpharma" || token == "chanzuckerberginitiative"
    ensures token !in KNOWN_BOARDS
  {
  }

  /** A token that is also a name in the table maps to itself. */
  lemma TokenStable(key: string)
    requires key in KNOWN_BOARDS
    ensures var token := KNOWN_BOARDS[key];
      token in KNOWN_BOARDS ==> KNOWN_BOARDS[token] == token
  {
    TokenKinds(key);
    var token := KNOWN_BOARDS[key];
    if token != key && token != "biohub" {
      AliasTokensUnknown(token);
    }
    assert KNOWN_BOARDS["biohub"] == "biohub";
  }

  /** A normalised name is its own normal form. */
  lemma NormalizeCompanyIdempotent(key: string)
    requires Normalized(key)
    ensures NormalizeCompany(key) == key
  {
    LowerOfLower(key);
    RemoveCharAbsent(key, ' ');
    RemoveCharAbsent(key, '-');
  }

  /** Resolving a board token again gives the same token. */
  lemma BoardTokenIdempotent(company: string)
    ensures GetBoardToken(GetBoardToken(company)) == GetBoardToken(company)
  {
    var token := GetBoardToken(company);
    NormalizeCompanyIdempotent(token);
    var key := NormalizeCompany(company);
    if key in KNOWN_BOARDS {
      TokenStable(key);
    }
  }

  /** A name whose lower-case form is all letters normalises to that form. */
  lemma NormalizeLetters(company: string)
    requires Letters(Lower(company))
    ensures NormalizeCompany(company) == Lower(company)
  {
    var lowered := Lower(company);
    LettersNormalized(lowered);
    RemoveCharAbsent(lowered, ' ');
    RemoveCharAbsent(lowered, '-');
  }

  /** Two aliases: `"Scale"` resolves to the board `scaleai`, `"CZI"` to the initiative's board. */
  lemma AliasExamples(company: string)
    requires company == "Scale" || company == "CZI"
    ensures GetBoardToken(company) == if company == "Scale" then "scaleai" else "chanzuckerberginitiative"
  {
    var key := if company == "Scale" then "scale" else "czi";
    assert Lower(company) == key;
    NormalizeLetters(company);
    AliasKeys();
    BoardTokenIn(company, key);
  }

  lemma AliasKeys()
    ensures "scale" in KNOWN_BOARDS && KNOWN_BOARDS["scale"] == "scaleai"
    ensures "czi" in KNOWN_BOARDS && KNOWN_BOARDS["czi"] == "chanzuckerberginitiative"
  {
  }

  /** A name that normalises to a key of the table resolves to that key's token. */
  lemma BoardTokenIn(company: string, key: string)
    requires NormalizeCompany(company) == key && key in KNOWN_BOARDS
    ensures GetBoardToken(company) == KNOWN_BOARDS[key]
  {
  }

  /** Removing the spaces from two space-free words joined by one space concatenates them. */
  lemma RemoveOneSpace(a: string, b: string)
    requires ' ' !in a && ' ' !in b
    ensures ReplaceAll(a + " " + b, " ", "") == a + b
  {
    var sp: string := [' '];
    assert sp == " ";
    assert ReplaceAll(sp, sp, "") == "" by {
      assert sp[..1] == sp && sp[1..] == [];
    }
    RemoveCharAppend(a + sp, b, ' ');
    RemoveCharAppend(a, sp, ' ');
    RemoveCharAbsent(a, ' ');
    RemoveCharAbsent(b, ' ');
    assert ReplaceAll(a + sp, sp, "") == a;
  }

  /** A name of two words of letters normalises to the two words run together. */
  lemma NormalizeTwoWords(company: string, a: string, b: string)
    requires Lower(company) == a + " " + b && Letters(a) && Letters(b)
    ensures NormalizeCompany(company) == a + b
  {
    LettersNormalized(a);
    LettersNormalized(b);
    RemoveOneSpace(a, b);
    LettersNormalized(a + b);
    RemoveCharAbsent(a + b, '-');
  }

  /** Spaces go before the lookup: `"Hugging Face"` resolves to the board `huggingface`. */
  lemma SpacedExample(company: string)
    requires company == "Hugging Face"
    ensures GetBoardToken(company) == "huggingface"
  {
    assert Lower(company) == "hugging" + " " + "face";
    NormalizeTwoWords(company, "hugging", "face");
    assert "hugging" + "face" == "huggingface";
  }

  /** An unknown name passes through normalised: `"Acme Robotics"` gives `acmerobotics`. */
  lemma UnknownExample(company: string)
    requires company == "Acme Robotics"
    ensures GetBoardToken(company) == "acmerobotics"
  {
    assert Lower(company) == "acme" + " " + "robotics";
    NormalizeTwoWords(company, "acme", "robotics");
    assert "acme" + "robotics" == "acmerobotics";
    assert |"acmerobotics"| == 12;
  }

  // ================================================================ salary

  /** `[\d,]`: a character of an amount (ASCII digits). */
  predicate IsAmountChar(c: char) {
    IsDigit(c) || c == ','
  }

  /** `k` under IGNORECASE: both cases and the Kelvin sign, which folds to `k`. */
  predicate IsK(c: char) {
    c == 'k' || c == 'K' || c == '\U{212A}'
  }

  /** `[-–to]` under IGNORECASE: hyphen, en dash, `t` and `o` in either case. */
  predicate IsSepChar(c: char) {
    c == '-' || c == '\U{2013}' || c == 't' || c == 'T' || c == 'o' || c == 'O'
  }

  predicate Amount(s: string) {
    forall i :: 0 <= i < |s| ==> IsAmountChar(s[i])
  }

  predicate AllSep(s: string) {
    forall i :: 0 <= i < |s| ==> IsSepChar(s[i])
  }

  /** The character classes the pattern repeats: `[\d,]`, `\s` and `[-–to]`. */
  datatype CharClass = AmountClass | SpaceClass | SepClass

  predicate InClass(c: char, k: CharClass) {
    match k
    case AmountClass => IsAmountChar(c)
    case SpaceClass => IsSpace(c)
    case SepClass => IsSepChar(c)
  }

  /** The length of the longest run of characters of class `k` that starts at `p`. */
  function Run(t: string, p: nat, k: CharClass): (n: nat)
    requires p <= |t|
    ensures p + n <= |t|
    decreases |t| - p
  {
    if p == |t| || !InClass(t[p], k) then 0 else 1 + Run(t, p + 1, k)
  }

  /** The run holds only characters of its class and stops before one of another class or at the end. */
  lemma {:induction false} RunMaximal(t: string, p: nat, k: CharClass)
    requires p <= |t|
    ensures forall i :: p <= i < p + Run(t, p, k) ==> InClass(t[i], k)
    ensures p + Run(t, p, k) < |t| ==> !InClass(t[p + Run(t, p, k)], k)
    decreases |t| - p
  {
    if p < |t| && InClass(t[p], k) {
      RunMaximal(t, p + 1, k);
    }
  }

  /** Every character of `t[lo..hi]` is of class `k`. */
  predicate ClassAt(t: string, lo: nat, hi: nat, k: CharClass)
    requires lo <= hi <= |t|
  {
    forall i :: lo <= i < hi ==> InClass(t[i], k)
  }

  /** A maximal run is determined by where it stops. */
  lemma RunIs(t: string, p: nat, k: CharClass, n: nat)
    requires p + n <= |t| && ClassAt(t, p, p + n, k)
    requires p + n == |t| || !InClass(t[p + n], k)
    ensures Run(t, p, k) == n
  {
    RunMaximal(t, p, k);
  }

  /** `\$?`: the position after an optional dollar sign at `p`. */
  function SkipDollar(t: string, p: nat): nat
    requires p <= |t|
  {
    if p < |t| && t[p] == '$' then p + 1 else p
  }

  /** `([\d,]+)` tried at `q`: the longest amount starting there (empty when there is none). */
  function AmountAt(t: string, q: nat): (g: string)
    requires q <= |t|
    ensures Amount(g) && q + |g| <= |t| && g == t[q..q + |g|]
    ensures q + |g| < |t| ==> !IsAmountChar(t[q + |g|])
  {
    var n := Run(t, q, AmountClass);
    RunMaximal(t, q, AmountClass);
    t[q..q + n]
  }

  /** `k?`: the position after an optional `k` at `q`. */
  function SkipK(t: string, q: nat): nat
    requires q <= |t|
  {
    if q < |t| && IsK(t[q]) then q + 1 else q
  }

  /** `\s*\$?([\d,]+)` tried at `q`: the second amount, if there is one. */
  function HighPart(t: string, q: nat): (r: Option<string>)
    requires q <= |t|
    ensures r.Some? ==> r.value != [] && Amount(r.value)
  {
    var high := AmountAt(t, SkipDollar(t, q + Run(t, q, SpaceClass)));
    if high == [] then None else Some(high)
  }

  /** `\s*[-–to]+` tried at `q`, then the second amount. */
  function SepPart(t: string, q: nat): (r: Option<string>)
    requires q <= |t|
    ensures r.Some? ==> r.value != [] && Amount(r.value)
  {
    var q3 := q + Run(t, q, SpaceClass);
    var ns := Run(t, q3, SepClass);
    if ns == 0 then None else HighPart(t, q3 + ns)
  }

  /**
   * One attempt of the first salary pattern at position `p`:
   * `\$?([\d,]+)k?\s*[-–to]+\s*\$?([\d,]+)k?`, followed by an optional
   * currency or period suffix that changes neither the groups nor whether
   * the attempt succeeds. Each repetition is greedy, and giving back any
   * character would leave the next item facing a character it cannot
   * start with, so a single left-to-right pass decides the attempt.
   * The result is the pair of groups.
   */
  function MatchAt(t: string, p: nat): (r: Option<(string, string)>)
    requires p <= |t|
    ensures r.Some? ==> r.value.0 != [] && Amount(r.value.0) && r.value.1 != [] && Amount(r.value.1)
  {
    var q0 := SkipDollar(t, p);
    var low := AmountAt(t, q0);
    if low == [] then None
    else
      match SepPart(t, SkipK(t, q0 + |low|))
      case None => None
      case Some(high) => Some((low, high))
  }

  /** Whether the attempt at each position `0..|t|` succeeds. */
  function Attempts(t: string): (hits: seq<bool>)
    ensures |hits| == |t| + 1
    ensures forall q :: 0 <= q <= |t| ==> (hits[q] <==> MatchAt(t, q).Some?)
  {
    seq(|t| + 1, q requires 0 <= q <= |t| => MatchAt(t, q).Some?)
  }

  /** `re.search` over the attempts: the leftmost position at or after `p` whose attempt succeeds. */
  function FirstHit(hits: seq<bool>, p: nat): (r: Option<nat>)
    requires p <= |hits|
    ensures r.Some? ==> p <= r.value < |hits| && hits[r.value]
    ensures r.Some? ==> forall q :: p <= q < r.value ==> !hits[q]
    ensures r.None? ==> forall q :: p <= q < |hits| ==> !hits[q]
    decreases |hits| - p
  {
    if p == |hits| then None
    else if hits[p] then Some(p)
    else FirstHit(hits, p + 1)
  }

  /** A salary bound as returned: missing, or at least 1000 after the `k` scaling. */
  predicate Scaled(x: int) {
    x == 0 || x >= 1000
  }

  /**
   * `sys.get_int_max_str_digits()` by default: `int()` refuses, with
   * `ValueError`, a decimal string of more digits than this.
   */
  const MAX_STR_DIGITS: nat := 4300

  /** An amount whose decimal digits `int()` accepts: fewer than 4301 of them. */
  predicate Convertible(n: nat) {
    n < Pow10(MAX_STR_DIGITS)
  }

  /** `int(group.replace(",", ""))`, multiplied by 1000 when below 1000. */
  function ToAmount(g: string): (r: Result<int>)
    requires Amount(g)
    ensures r.Ok? <==> (exists i :: 0 <= i < |g| && IsDigit(g[i])) && |ReplaceAll(g, [','], "")| <= MAX_STR_DIGITS
    ensures r.Err? ==> r.error == ValueError
    ensures r.Ok? ==> Scaled(r.value) && Convertible(r.value)
  {
    var digits := ReplaceAll(g, [','], "");
    CommasRemoved(g);
    if digits == [] || |digits| > MAX_STR_DIGITS then Err(ValueError)
    else
      DigitsBelowLimit(digits);
      var v := DigitsValue(digits);
      Ok(if v < 1000 then v * 1000 else v)
  }

  /** A value read from at most `MAX_STR_DIGITS` digits, or scaled from under 1000, is `Convertible`. */
  lemma DigitsBelowLimit(digits: string)
    requires AllDigits(digits) && |digits| <= MAX_STR_DIGITS
    ensures var v := DigitsValue(digits); Convertible(v) && (v < 1000 ==> Convertible(v * 1000))
  {
    DigitsValueUpper(digits);
    Pow10Mono(|digits|, MAX_STR_DIGITS);
    var v := DigitsValue(digits);
    if v < 1000 {
      SmallConvertible(v * 1000);
    }
  }

  /** Removing the commas of an amount leaves its digits, and nothing exactly when it had none. */
  lemma CommasRemoved(g: string)
    requires Amount(g)
    ensures var digits := ReplaceAll(g, [','], "");
      AllDigits(digits) && (digits == [] <==> forall i :: 0 <= i < |g| ==> !IsDigit(g[i]))
  {
    var digits := ReplaceAll(g, [','], "");
    RemoveCharGone(g, ',');
    forall i | 0 <= i < |digits|
      ensures IsDigit(digits[i])
    {
      assert digits[i] in digits;
      var j :| 0 <= j < |g| && g[j] == digits[i];
    }
    if digits == [] {
      forall i | 0 <= i < |g|
        ensures !IsDigit(g[i])
      {
        assert g[i] in g;
      }
    } else {
      assert digits[0] in digits;
      var j :| 0 <= j < |g| && g[j] == digits[0];
      assert IsDigit(g[j]);
    }
  }

  /**
   * `extract_salary_from_description`; `None` stands for `(None, None)` and
   * an amount group made only of commas makes `int("")` raise.
   */
  function ExtractSalary(description: string): (r: Result<Option<(int, int)>>)
    ensures description == [] ==> r == Ok(None)
    ensures r == Ok(None) <==> forall q :: 0 <= q <= |description| ==> MatchAt(description, q).None?
    ensures r.Err? ==> r.error == ValueError
    ensures r.Ok? && r.value.Some? ==> Scaled(r.value.value.0) && Scaled(r.value.value.1)
  {
    if description == [] then Ok(None)
    else
      var hits := Attempts(description);
      match FirstHit(hits, 0)
      case None => Ok(None)
      case Some(p) =>
        var (low, high) := MatchAt(description, p).value;
        var lo :- ToAmount(low);
        var hi :- ToAmount(high);
        Ok(Some((lo, hi)))
  }

  // ---------------------------------------------------------------- what the pattern matches

  /** `\s*\$?([\d,]+)` at `q`: spaces up to `a`, an optional dollar up to `b`, the amount `t[b..c]`. */
  lemma HighPartAt(t: string, q: nat, a: nat, b: nat, c: nat)
    requires q <= a <= b < c <= |t|
    requires ClassAt(t, q, a, SpaceClass)
    requires b == a || (b == a + 1 && t[a] == '$')
    requires ClassAt(t, b, c, AmountClass) && (c == |t| || !IsAmountChar(t[c]))
    ensures Run(t, q, SpaceClass) == a - q && SkipDollar(t, a) == b && AmountAt(t, b) == t[b..c]
  {
    assert InClass(t[b], AmountClass);
    RunIs(t, q, SpaceClass, a - q);
    RunIs(t, b, AmountClass, c - b);
  }

  /** `\s*[-–to]+` at `q`: spaces up to `a`, then separators up to `b`. */
  lemma SepPartAt(t: string, q: nat, a: nat, b: nat)
    requires q <= a < b <= |t|
    requires ClassAt(t, q, a, SpaceClass) && ClassAt(t, a, b, SepClass)
    requires b == |t| || !IsSepChar(t[b])
    ensures Run(t, q, SpaceClass) == a - q && Run(t, a, SepClass) == b - a
  {
    assert InClass(t[a], SepClass);
    RunIs(t, q, SpaceClass, a - q);
    RunIs(t, a, SepClass, b - a);
  }

  /** `\$?([\d,]+)k?` at `p`: an optional dollar up to `q0`, the amount `t[q0..q1]`, an optional `k` up to `q2`. */
  lemma LowPartAt(t: string, p: nat, q0: nat, q1: nat, q2: nat)
    requires p <= q0 < q1 <= q2 <= |t|
    requires q0 == p || (q0 == p + 1 && t[p] == '$')
    requires ClassAt(t, q0, q1, AmountClass) && (q1 == |t| || !IsAmountChar(t[q1]))
    requires q2 == q1 || (q2 == q1 + 1 && IsK(t[q1]))
    requires q2 == q1 && q1 < |t| ==> !IsK(t[q1])
    ensures SkipDollar(t, p) == q0 && AmountAt(t, q0) == t[q0..q1] && SkipK(t, q1) == q2
  {
    assert InClass(t[q0], AmountClass);
    RunIs(t, q0, AmountClass, q1 - q0);
  }

  lemma HighPartIs(t: string, q: nat, a: nat, b: nat, c: nat, high: string)
    requires q <= a <= b < c <= |t|
    requires ClassAt(t, q, a, SpaceClass)
    requires b == a || (b == a + 1 && t[a] == '$')
    requires ClassAt(t, b, c, AmountClass) && (c == |t| || !IsAmountChar(t[c]))
    requires t[b..c] == high
    ensures HighPart(t, q) == Some(high)
  {
    HighPartAt(t, q, a, b, c);
  }

  lemma SepPartIs(t: string, q: nat, a1: nat, b1: nat, high: string)
    requires q <= a1 < b1 <= |t|
    requires ClassAt(t, q, a1, SpaceClass) && ClassAt(t, a1, b1, SepClass)
    requires b1 == |t| || !IsSepChar(t[b1])
    requires HighPart(t, b1) == Some(high)
    ensures SepPart(t, q) == Some(high)
  {
    SepPartAt(t, q, a1, b1);
  }

  lemma MatchAtIs(t: string, p: nat, q0: nat, q1: nat, q2: nat, low: string, high: string)
    requires p <= q0 < q1 <= q2 <= |t|
    requires q0 == p || (q0 == p + 1 && t[p] == '$')
    requires ClassAt(t, q0, q1, AmountClass) && (q1 == |t| || !IsAmountChar(t[q1]))
    requires q2 == q1 || (q2 == q1 + 1 && IsK(t[q1]))
    requires q2 == q1 && q1 < |t| ==> !IsK(t[q1])
    requires t[q0..q1] == low && SepPart(t, q2) == Some(high)
    ensures MatchAt(t, p) == Some((low, high))
  {
    LowPartAt(t, p, q0, q1, q2);
    assert q0 + |low| == q1;
    MatchAtFrom(t, p, low, high);
  }

  /** The attempt at `p` succeeds with the amount found after the optional `$` and the second part after it. */
  lemma MatchAtFrom(t: string, p: nat, low: string, high: string)
    requires p <= |t| && low != []
    requires AmountAt(t, SkipDollar(t, p)) == low
    requires SepPart(t, SkipK(t, SkipDollar(t, p) + |low|)) == Some(high)
    ensures MatchAt(t, p) == Some((low, high))
  {
    var q0 := SkipDollar(t, p);
    assert AmountAt(t, q0) == low;
    assert SepPart(t, SkipK(t, q0 + |low|)) == Some(high);
  }

  /** The attempt at `p` with every item of the pattern placed: it yields `t[q0..q1]` and `t[b2..c2]`. */
  lemma MatchAtPositions(t: string, p: nat, q0: nat, q1: nat, q2: nat, a1: nat, b1: nat,
                         a2: nat, b2: nat, c2: nat, low: string, high: string)
    requires p <= q0 < q1 <= q2 <= a1 < b1 <= a2 <= b2 < c2 <= |t|
    requires q0 == p || (q0 == p + 1 && t[p] == '$')
    requires ClassAt(t, q0, q1, AmountClass) && !IsAmountChar(t[q1])
    requires q2 == q1 || (q2 == q1 + 1 && IsK(t[q1]))
    requires q2 == q1 ==> !IsK(t[q1])
    requires ClassAt(t, q2, a1, SpaceClass) && ClassAt(t, a1, b1, SepClass) && !IsSepChar(t[b1])
    requires ClassAt(t, b1, a2, SpaceClass)
    requires b2 == a2 || (b2 == a2 + 1 && t[a2] == '$')
    requires ClassAt(t, b2, c2, AmountClass) && (c2 == |t| || !IsAmountChar(t[c2]))
    requires t[q0..q1] == low && t[b2..c2] == high
    ensures MatchAt(t, p) == Some((low, high))
  {
    HighPartIs(t, b1, a2, b2, c2, high);
    SepPartIs(t, q2, a1, b1, high);
    MatchAtIs(t, p, q0, q1, q2, low, high);
  }

  /** The pieces of a text the first salary pattern matches, in the order of its items. */
  predicate Layout(d1: string, low: string, k1: string, s1: string, sep: string,
                   s2: string, d2: string, high: string)
  {
    (d1 == [] || d1 == "$") && low != [] && Amount(low)
    && (k1 == [] || (|k1| == 1 && IsK(k1[0])))
    && AllSpace(s1) && sep != [] && AllSep(sep) && AllSpace(s2)
    && (d2 == [] || d2 == "$") && high != [] && Amount(high)
  }

  /** What may follow the first amount cannot be read as part of it, nor as a `k` unless it is one. */
  lemma AfterLowHead(k1: string, s1: string, sep: string, u: string)
    requires (k1 == [] || (|k1| == 1 && IsK(k1[0]))) && AllSpace(s1) && sep != [] && AllSep(sep)
    ensures var w := k1 + (s1 + (sep + u));
      !IsAmountChar(w[0]) && (IsK(w[0]) <==> k1 != [])
  {
    var w := k1 + (s1 + (sep + u));
    if k1 != [] {
      assert w[0] == k1[0];
    } else if s1 != [] {
      assert w[0] == s1[0];
    } else {
      assert w[0] == sep[0];
    }
  }

  /** What may follow the separator cannot be read as part of it. */
  lemma AfterSepHead(s2: string, d2: string, high: string, rest: string)
    requires AllSpace(s2) && (d2 == [] || d2 == "$") && high != [] && Amount(high)
    ensures !IsSepChar((s2 + (d2 + (high + rest)))[0])
  {
    var u := s2 + (d2 + (high + rest));
    if s2 != [] {
      assert u[0] == s2[0];
    } else if d2 != [] {
      assert u[0] == '$';
    } else {
      assert u[0] == high[0];
    }
  }

  /** The text of a layout, between `pre` and `rest`. */
  function LayoutText(pre: string, d1: string, low: string, k1: string, s1: string, sep: string,
                      s2: string, d2: string, high: string, rest: string): string
  {
    pre + d1 + low + k1 + s1 + sep + s2 + d2 + high + rest
  }

  /** The layout's text up to the end of the first amount. */
  lemma LowFacts(pre: string, d1: string, low: string, k1: string, s1: string, sep: string,
                 s2: string, d2: string, high: string, rest: string, p: nat, q0: nat, q1: nat)
    requires (d1 == [] || d1 == "$") && Amount(low)
    requires p == |pre| && q0 == p + |d1| && q1 == q0 + |low|
    ensures var t := LayoutText(pre, d1, low, k1, s1, sep, s2, d2, high, rest);
      q1 <= |t| && (d1 != [] ==> t[p] == '$') && ClassAt(t, q0, q1, AmountClass) && t[q0..q1] == low
  {
    var t := LayoutText(pre, d1, low, k1, s1, sep, s2, d2, high, rest);
    var tail := k1 + s1 + sep + s2 + d2 + high + rest;
    assert t == pre + d1 + low + tail;
    assert t[q0..q1] == low;
  }

  /** The layout's text from the end of the first amount to the end of the separator. */
  lemma SepFacts(pre: string, d1: string, low: string, k1: string, s1: string, sep: string,
                 s2: string, d2: string, high: string, rest: string, q1: nat, q2: nat, a1: nat, b1: nat)
    requires (k1 == [] || (|k1| == 1 && IsK(k1[0]))) && AllSpace(s1) && sep != [] && AllSep(sep)
    requires q1 == |pre| + |d1| + |low| && q2 == q1 + |k1| && a1 == q2 + |s1| && b1 == a1 + |sep|
    ensures var t := LayoutText(pre, d1, low, k1, s1, sep, s2, d2, high, rest);
      b1 <= |t| && !IsAmountChar(t[q1]) && (IsK(t[q1]) <==> k1 != [])
      && ClassAt(t, q2, a1, SpaceClass) && ClassAt(t, a1, b1, SepClass)
  {
    var t := LayoutText(pre, d1, low, k1, s1, sep, s2, d2, high, rest);
    var head := pre + d1 + low;
    var tail := s2 + d2 + high + rest;
    assert t == head + (k1 + s1 + sep) + tail;
    AfterLowHead(k1, s1, sep, tail);
    assert t[q1] == (k1 + (s1 + (sep + tail)))[0];
  }

  /** The layout's text after the separator. */
  lemma HighFacts(pre: string, d1: string, low: string, k1: string, s1: string, sep: string,
                  s2: string, d2: string, high: string, rest: string, b1: nat, a2: nat, b2: nat, c2: nat)
    requires AllSpace(s2) && (d2 == [] || d2 == "$") && high != [] && Amount(high)
    requires rest == [] || !IsAmountChar(rest[0])
    requires b1 == |pre| + |d1| + |low| + |k1| + |s1| + |sep| && a2 == b1 + |s2| && b2 == a2 + |d2|
    requires c2 == b2 + |high|
    ensures var t := LayoutText(pre, d1, low, k1, s1, sep, s2, d2, high, rest);
      c2 <= |t| && !IsSepChar(t[b1]) && ClassAt(t, b1, a2, SpaceClass) && (d2 != [] ==> t[a2] == '$')
      && ClassAt(t, b2, c2, AmountClass) && t[b2..c2] == high && (c2 == |t| || !IsAmountChar(t[c2]))
  {
    var t := LayoutText(pre, d1, low, k1, s1, sep, s2, d2, high, rest);
    var head := pre + d1 + low + k1 + s1 + sep;
    assert t == head + (s2 + d2 + high) + rest;
    AfterSepHead(s2, d2, high, rest);
    assert t[b1] == (s2 + (d2 + (high + rest)))[0];
    assert t[b2..c2] == high;
  }

  /**
   * Completeness of the attempt: on any text that continues, after `pre`, with
   * the pieces the pattern describes and then something that does not extend
   * the second amount, the attempt at that point yields exactly the two amounts.
   */
  lemma MatchAtLayout(pre: string, d1: string, low: string, k1: string, s1: string, sep: string,
                      s2: string, d2: string, high: string, rest: string)
    requires Layout(d1, low, k1, s1, sep, s2, d2, high)
    requires rest == [] || !IsAmountChar(rest[0])
    ensures MatchAt(LayoutText(pre, d1, low, k1, s1, sep, s2, d2, high, rest), |pre|) == Some((low, high))
  {
    var t := LayoutText(pre, d1, low, k1, s1, sep, s2, d2, high, rest);
    var p := |pre|;
    var q0 := p + |d1|;
    var q1 := q0 + |low|;
    var q2 := q1 + |k1|;
    var a1 := q2 + |s1|;
    var b1 := a1 + |sep|;
    var a2 := b1 + |s2|;
    var b2 := a2 + |d2|;
    var c2 := b2 + |high|;
    LowFacts(pre, d1, low, k1, s1, sep, s2, d2, high, rest, p, q0, q1);
    SepFacts(pre, d1, low, k1, s1, sep, s2, d2, high, rest, q1, q2, a1, b1);
    HighFacts(pre, d1, low, k1, s1, sep, s2, d2, high, rest, b1, a2, b2, c2);
    MatchAtPositions(t, p, q0, q1, q2, a1, b1, a2, b2, c2, low, high);
  }

  // ---------------------------------------------------------------- what the search returns

  /** `re.search` finds the attempt at `p` when it succeeds and every earlier one fails. */
  lemma {:induction false} FirstHitIs(hits: seq<bool>, s: nat, p: nat)
    requires s <= p < |hits| && hits[p]
    requires forall q :: s <= q < p ==> !hits[q]
    ensures FirstHit(hits, s) == Some(p)
    decreases p - s
  {
    if s < p {
      FirstHitIs(hits, s + 1, p);
    }
  }

  /** No attempt can succeed before `n` when no amount character occurs before `n` nor at `n`. */
  lemma NoMatchBefore(t: string, n: nat)
    requires n <= |t|
    requires forall i :: 0 <= i < n ==> !IsAmountChar(t[i])
    requires n == 0 || n == |t| || !IsAmountChar(t[n])
    ensures forall q :: 0 <= q < n ==> MatchAt(t, q).None?
  {
    forall q | 0 <= q < n
      ensures MatchAt(t, q).None?
    {
      var q0 := SkipDollar(t, q);
      assert q0 <= n;
      assert q0 == |t| || !IsAmountChar(t[q0]);
      assert Run(t, q0, AmountClass) == 0;
    }
  }

  /** Reading back `f"{n:,}"` gives `n` for any amount of at least 1000. */
  lemma ToAmountThousands(n: nat)
    requires n >= 1000 && Convertible(n)
    ensures Amount(Thousands(n)) && ToAmount(Thousands(n)) == Ok(n)
  {
    ThousandsValue(n);
    ThousandsLength(n, MAX_STR_DIGITS);
  }

  /** Every amount below a million has few enough digits for `int()`. */
  lemma SmallConvertible(n: nat)
    requires n < 1000000
    ensures Convertible(n)
  {
    assert Pow10(6) == 1000000;
    Pow10Mono(6, MAX_STR_DIGITS);
  }

  /** The search settles on the first attempt that succeeds, and reads its two amounts. */
  lemma ExtractAt(t: string, p: nat, low: string, high: string, lo: int, hi: int)
    requires p <= |t| && MatchAt(t, p) == Some((low, high))
    requires forall q :: 0 <= q < p ==> MatchAt(t, q).None?
    requires Amount(low) && Amount(high) && ToAmount(low) == Ok(lo) && ToAmount(high) == Ok(hi)
    ensures ExtractSalary(t) == Ok(Some((lo, hi)))
  {
    FirstHitIs(Attempts(t), 0, p);
  }

  /** A prefix without digits or commas, followed by a dollar sign when it is not empty. */
  lemma PrefixFacts(pre: string, d1: string, low: string, k1: string, s1: string, sep: string,
                    s2: string, d2: string, high: string, rest: string)
    requires forall i :: 0 <= i < |pre| ==> !IsAmountChar(pre[i])
    requires pre == [] || d1 == "$"
    ensures var t := LayoutText(pre, d1, low, k1, s1, sep, s2, d2, high, rest);
      |pre| <= |t| && (forall i :: 0 <= i < |pre| ==> !IsAmountChar(t[i]))
      && (|pre| == 0 || |pre| == |t| || !IsAmountChar(t[|pre|]))
  {
    var t := LayoutText(pre, d1, low, k1, s1, sep, s2, d2, high, rest);
    assert t == pre + (d1 + low + k1 + s1 + sep + s2 + d2 + high + rest);
  }

  /**
   * On a text holding a layout after a prefix without digits or commas, the
   * extraction reads the layout's two amounts (when the prefix is not empty,
   * the layout starts with its dollar sign, so no attempt starts inside the prefix).
   */
  lemma ExtractLayout(pre: string, d1: string, low: string, k1: string, s1: string, sep: string,
                      s2: string, d2: string, high: string, rest: string, lo: int, hi: int)
    requires Layout(d1, low, k1, s1, sep, s2, d2, high)
    requires rest == [] || !IsAmountChar(rest[0])
    requires forall i :: 0 <= i < |pre| ==> !IsAmountChar(pre[i])
    requires pre == [] || d1 == "$"
    requires ToAmount(low) == Ok(lo) && ToAmount(high) == Ok(hi)
    ensures ExtractSalary(LayoutText(pre, d1, low, k1, s1, sep, s2, d2, high, rest)) == Ok(Some((lo, hi)))
  {
    var t := LayoutText(pre, d1, low, k1, s1, sep, s2, d2, high, rest);
    MatchAtLayout(pre, d1, low, k1, s1, sep, s2, d2, high, rest);
    PrefixFacts(pre, d1, low, k1, s1, sep, s2, d2, high, rest);
    NoMatchBefore(t, |pre|);
    ExtractAt(t, |pre|, low, high, lo, hi);
  }

  /**
   * The salary text `format_job` prints, `$lo - $hi` with grouped digits, is read
   * back as `(lo, hi)` wherever it appears after text holding no digit or comma,
   * for every pair of bounds the extraction itself can produce.
   */
  lemma SalaryRoundTrip(pre: string, lo: nat, hi: nat, rest: string)
    requires forall i :: 0 <= i < |pre| ==> !IsAmountChar(pre[i])
    requires lo >= 1000 && hi >= 1000 && Convertible(lo) && Convertible(hi)
    requires rest == [] || !IsAmountChar(rest[0])
    ensures ExtractSalary(pre + SalaryText(lo, hi) + rest) == Ok(Some((lo, hi)))
  {
    var low, high := Thousands(lo), Thousands(hi);
    assert SalaryText(lo, hi) == "$" + low + " - $" + high;
    SalaryLayout(pre, low, high, rest);
    ToAmountThousands(lo);
    ToAmountThousands(hi);
    assert AllSpace(" ") && AllSep("-");
    ExtractLayout(pre, "$", low, "", " ", "-", " ", "$", high, rest, lo, hi);
  }

  /** The printed range `$low - $high` is a layout: dollar, amount, space, dash, space, dollar, amount. */
  lemma SalaryLayout(pre: string, low: string, high: string, rest: string)
    ensures pre + ("$" + low + " - $" + high) + rest == LayoutText(pre, "$", low, "", " ", "-", " ", "$", high, rest)
  {
    assert " - $" == " " + "-" + " " + "$";
  }

  lemma Thousands150000()
    ensures Thousands(150000) == "150,000" && Thousands(200000) == "200,000"
  {
    assert NatToString(150) == "150" && NatToString(200) == "200";
    assert Pad3(0) == "000";
  }

  lemma GroupedAmounts()
    ensures Amount("150,000") && ToAmount("150,000") == Ok(150000)
    ensures Amount("200,000") && ToAmount("200,000") == Ok(200000)
  {
    Thousands150000();
    SmallConvertible(150000);
    SmallConvertible(200000);
    ToAmountThousands(150000);
    ToAmountThousands(200000);
  }

  /** `"$150,000 - $200,000"` gives `(150000, 200000)`. */
  lemma DollarRangeExample(d: string)
    requires d == "$150,000 - $200,000"
    ensures ExtractSalary(d) == Ok(Some((150000, 200000)))
  {
    DollarRangeText();
    assert d == "" + SalaryText(150000, 200000) + "";
    SmallConvertible(150000);
    SmallConvertible(200000);
    SalaryRoundTrip("", 150000, 200000, "");
  }

  lemma DollarRangeText()
    ensures SalaryText(150000, 200000) == "$150,000 - $200,000"
  {
    Thousands150000();
    assert "$" + "150,000" + " - $" + "200,000" == "$150,000 - $200,000";
  }

  /** Amounts below 1000 count in thousands. */
  lemma ToAmountSmall(g: string, v: nat)
    requires (g == "150" && v == 150) || (g == "200" && v == 200)
    ensures Amount(g) && ToAmount(g) == Ok(v * 1000)
  {
    RemoveCharAbsent(g, ',');
    assert NatToString(v) == g;
    NatToStringValue(v);
  }

  lemma KRangeText()
    ensures LayoutText("", "$", "150", "k", "", "-", "", "", "200", "k") == "$150k-200k"
  {
    assert "$" + "150" + "k" + "-" + "200" + "k" == "$150k-200k";
  }

  /** `"$150k-200k"` gives `(150000, 200000)`. */
  lemma KRangeExample(d: string)
    requires d == "$150k-200k"
    ensures ExtractSalary(d) == Ok(Some((150000, 200000)))
  {
    ToAmountSmall("150", 150);
    ToAmountSmall("200", 200);
    assert AllSep("-");
    KRangeText();
    ExtractLayout("", "$", "150", "k", "", "-", "", "", "200", "k", 150000, 200000);
  }

  lemma ToRangeText()
    ensures LayoutText("", "", "150,000", "", " ", "to", " ", "", "200,000", "") == "150,000 to 200,000"
  {
    assert "150,000" + " " + "to" + " " + "200,000" == "150,000 to 200,000";
  }

  /** `"150,000 to 200,000"` gives `(150000, 200000)`: `to` separates like a dash. */
  lemma ToRangeExample(d: string)
    requires d == "150,000 to 200,000"
    ensures ExtractSalary(d) == Ok(Some((150000, 200000)))
  {
    GroupedAmounts();
    assert AllSpace(" ") && AllSep("to");
    ToRangeText();
    ExtractLayout("", "", "150,000", "", " ", "to", " ", "", "200,000", "", 150000, 200000);
  }

  lemma CommaText()
    ensures LayoutText("", "", ",", "", " ", "to", " ", "", "5", "") == ", to 5"
  {
    assert "," + " " + "to" + " " + "5" == ", to 5";
  }

  /**
   * When either group of the leftmost match has no digit, wherever that match
   * starts, the conversion raises: `int("")` is a `ValueError`.
   */
  lemma ExtractErrAt(t: string, p: nat, low: string, high: string)
    requires p <= |t| && MatchAt(t, p) == Some((low, high))
    requires forall q :: 0 <= q < p ==> MatchAt(t, q).None?
    requires ToAmount(low).Err? || ToAmount(high).Err?
    ensures ExtractSalary(t) == Err(ValueError)
  {
    FirstHitIs(Attempts(t), 0, p);
  }

  /** A first group made only of commas makes the conversion raise: `", to 5"` is a `ValueError`. */
  lemma CommaOnlyExample(d: string)
    requires d == ", to 5"
    ensures ExtractSalary(d) == Err(ValueError)
  {
    CommaText();
    assert Amount(",") && Amount("5") && AllSpace(" ") && AllSep("to");
    MatchAtLayout("", "", ",", "", " ", "to", " ", "", "5", "");
    assert !IsDigit(","[0]);
    ExtractErrAt(d, 0, ",", "5");
  }

  lemma HighCommaText()
    ensures LayoutText("", "", "5", "", " ", "-", " ", "", ",", "") == "5 - ,"
  {
    assert "5" + " " + "-" + " " + "," == "5 - ,";
  }

  /** A second group made only of commas raises too: `"5 - ,"` is a `ValueError`. */
  lemma HighCommaExample(d: string)
    requires d == "5 - ,"
    ensures ExtractSalary(d) == Err(ValueError)
  {
    HighCommaText();
    assert Amount("5") && Amount(",") && AllSpace(" ") && AllSep("-");
    MatchAtLayout("", "", "5", "", " ", "-", " ", "", ",", "");
    assert !IsDigit(","[0]);
    ExtractErrAt(d, 0, "5", ",");
  }

  // ================================================================ jobs and filters

  /**
   * A job of a board's listing, with the fields the script reads:
   * `title` and `location` are `None` when the key is missing; `content` is
   * the description, empty when missing or null; a department whose `name`
   * key is missing is `None`; `company` is the `_company` tag the search adds.
   */
  datatype Job = Job(
    title: Option<string>,
    content: string,
    location: Option<string>,
    departments: seq<Option<string>>,
    url: string,
    company: Option<string>)

  /** The filter arguments; an empty string or 0 stands for an argument not given. */
  datatype Filters = Filters(keyword: string, minSalary: int, location: string, department: string)

  function OrEmpty(s: Option<string>): string {
    match s
    case None => ""
    case Some(v) => v
  }

  /** The keyword, ignoring case, occurs in the title or in the description. */
  predicate KeywordMatch(job: Job, keyword: string)
    ensures keyword == "" ==> KeywordMatch(job, keyword)
  {
    keyword == ""
    || Contains(Lower(OrEmpty(job.title)), Lower(keyword))
    || Contains(Lower(job.content), Lower(keyword))
  }

  /** The location filter, ignoring case, occurs in the location's name. */
  predicate LocationMatch(job: Job, location: string)
    ensures location == "" ==> LocationMatch(job, location)
  {
    location == "" || Contains(Lower(OrEmpty(job.location)), Lower(location))
  }

  /** The department filter, ignoring case, occurs in the name of one of the departments. */
  predicate DepartmentMatch(job: Job, department: string)
    ensures department == "" ==> DepartmentMatch(job, department)
  {
    department == ""
    || exists i :: 0 <= i < |job.departments| && Contains(Lower(OrEmpty(job.departments[i])), Lower(department))
  }

  /**
   * The salary filter: a job whose description yields a non-zero minimum below
   * `minSalary` fails it; a job without salary information passes.
   */
  predicate SalaryMatch(salary: Option<(int, int)>, minSalary: int)
    ensures salary.None? ==> SalaryMatch(salary, minSalary)
    ensures salary.Some? && salary.value.0 >= minSalary ==> SalaryMatch(salary, minSalary)
  {
    match salary
    case None => true
    case Some((lo, _)) => !(lo != 0 && lo < minSalary)
  }

  /** The three text filters ignore the case of the filter text. */
  lemma MatchesIgnoreCase(job: Job, text: string)
    ensures KeywordMatch(job, Lower(text)) == KeywordMatch(job, text)
    ensures LocationMatch(job, Lower(text)) == LocationMatch(job, text)
    ensures DepartmentMatch(job, Lower(text)) == DepartmentMatch(job, text)
  {
    LowerIsLower(text);
  }

  /** Whether `filter_jobs` keeps `job`, in the order it checks the filters. */
  function Keep(job: Job, f: Filters): (r: Result<bool>)
    ensures r.Err? ==> f.minSalary != 0 && ExtractSalary(job.content).Err?
  {
    if !KeywordMatch(job, f.keyword) || !LocationMatch(job, f.location) || !DepartmentMatch(job, f.department) then
      Ok(false)
    else if f.minSalary == 0 then Ok(true)
    else
      var salary :- ExtractSalary(job.content);
      Ok(SalaryMatch(salary, f.minSalary))
  }

  function Kept(f: Filters): Job -> bool {
    job => Keep(job, f) == Ok(true)
  }

  /** The verdict of `Keep` on each job. */
  function Verdicts(jobs: seq<Job>, f: Filters): (vs: seq<Result<bool>>)
    ensures |vs| == |jobs| && forall i :: 0 <= i < |jobs| ==> vs[i] == Keep(jobs[i], f)
  {
    seq(|jobs|, i requires 0 <= i < |jobs| => Keep(jobs[i], f))
  }

  /**
   * A pass over `xs` that keeps the elements whose verdict is `true`, in order,
   * and stops with the exception of the first verdict that raises.
   */
  function Select<T>(xs: seq<T>, vs: seq<Result<bool>>): (r: Result<seq<T>>)
    requires |vs| == |xs|
    ensures r.Ok? ==> |r.value| <= |xs|
    decreases |xs|
  {
    if xs == [] then Ok([])
    else
      var kept :- Select(xs[..|xs| - 1], vs[..|vs| - 1]);
      var keep :- vs[|vs| - 1];
      Ok(if keep then kept + [xs[|xs| - 1]] else kept)
  }

  /** What `filter_jobs` returns, or the exception it raises. */
  function Filtered(jobs: seq<Job>, f: Filters): (r: Result<seq<Job>>)
    ensures r.Ok? ==> |r.value| <= |jobs|
  {
    Select(jobs, Verdicts(jobs, f))
  }

  /** Once a verdict raises, the rest of the list is not looked at. */
  lemma {:induction false} SelectErrSticks<T>(xs: seq<T>, vs: seq<Result<bool>>, n: nat)
    requires |vs| == |xs| && n <= |xs| && Select(xs[..n], vs[..n]).Err?
    ensures Select(xs, vs) == Select(xs[..n], vs[..n])
    decreases |xs| - n
  {
    if n < |xs| {
      assert xs[..n + 1][..n] == xs[..n] && vs[..n + 1][..n] == vs[..n];
      SelectErrSticks(xs, vs, n + 1);
    } else {
      assert xs[..n] == xs && vs[..n] == vs;
    }
  }

  /** One more element for the pass. */
  lemma SelectStep<T>(xs: seq<T>, vs: seq<Result<bool>>, i: nat, kept: seq<T>)
    requires |vs| == |xs| && i < |xs| && Select(xs[..i], vs[..i]) == Ok(kept) && vs[i].Ok?
    ensures Select(xs[..i + 1], vs[..i + 1]) == Ok(if vs[i].value then kept + [xs[i]] else kept)
  {
    assert xs[..i + 1][..i] == xs[..i] && vs[..i + 1][..i] == vs[..i];
  }

  /** The first verdict that raises is the outcome of the whole pass. */
  lemma SelectErrAt<T>(xs: seq<T>, vs: seq<Result<bool>>, i: nat, kept: seq<T>)
    requires |vs| == |xs| && i < |xs| && Select(xs[..i], vs[..i]) == Ok(kept) && vs[i].Err?
    ensures Select(xs, vs) == Err(vs[i].error)
  {
    assert xs[..i + 1][..i] == xs[..i] && vs[..i + 1][..i] == vs[..i];
    SelectErrSticks(xs, vs, i + 1);
  }

  /** `filter_jobs`: the jobs that pass every filter given, in their order. */
  method FilterJobs(jobs: seq<Job>, f: Filters) returns (r: Result<seq<Job>>)
    ensures r == Filtered(jobs, f)
  {
    ghost var vs := Verdicts(jobs, f);
    var filtered: seq<Job> := [];
    var i := 0;
    while i < |jobs|
      invariant i <= |jobs|
      invariant Select(jobs[..i], vs[..i]) == Ok(filtered)
    {
      var keep := Keep(jobs[i], f);
      if keep.Err? {
        SelectErrAt(jobs, vs, i, filtered);
        return Err(keep.error);
      }
      SelectStep(jobs, vs, i, filtered);
      if keep.value {
        filtered := filtered + [jobs[i]];
      }
      i := i + 1;
    }
    assert jobs[..i] == jobs && vs[..i] == vs;
    return Ok(filtered);
  }

  /** The pass raises exactly when some verdict does. */
  lemma {:induction false} SelectErr<T>(xs: seq<T>, vs: seq<Result<bool>>)
    requires |vs| == |xs|
    ensures Select(xs, vs).Err? <==> exists i :: 0 <= i < |vs| && vs[i].Err?
    decreases |xs|
  {
    if xs != [] {
      var init := vs[..|vs| - 1];
      SelectErr(xs[..|xs| - 1], init);
      if exists i :: 0 <= i < |vs| && vs[i].Err? {
        var i :| 0 <= i < |vs| && vs[i].Err?;
        if i < |init| {
          assert init[i] == vs[i];
        }
      } else {
        assert forall i :: 0 <= i < |init| ==> init[i] == vs[i];
      }
    }
  }

  /** When the pass does not raise, it keeps exactly the elements satisfying `p`, if the verdicts are `p`'s. */
  lemma {:induction false} SelectIsFilter<T>(xs: seq<T>, vs: seq<Result<bool>>, p: T -> bool)
    requires |vs| == |xs| && Select(xs, vs).Ok?
    requires forall i :: 0 <= i < |xs| && vs[i].Ok? ==> (vs[i].value <==> p(xs[i]))
    ensures Select(xs, vs).value == Filter(xs, p)
    decreases |xs|
  {
    if xs != [] {
      var n := |xs| - 1;
      var init, last := Select(xs[..n], vs[..n]), vs[n];
      assert init.Ok? && last.Ok?;
      assert forall i :: 0 <= i < n ==> xs[..n][i] == xs[i] && vs[..n][i] == vs[i];
      SelectIsFilter(xs[..n], vs[..n], p);
      assert last.value <==> p(xs[n]);
      assert Select(xs, vs).value == init.value + (if last.value then [xs[n]] else []);
    }
  }

  /** `filter_jobs` raises exactly when some job reaches the salary filter with an amount that cannot be read. */
  lemma FilteredErr(jobs: seq<Job>, f: Filters)
    ensures Filtered(jobs, f).Err? <==> exists i :: 0 <= i < |jobs| && Keep(jobs[i], f).Err?
  {
    SelectErr(jobs, Verdicts(jobs, f));
  }

  /** When it does not raise, `filter_jobs` returns the jobs the filters keep, in order. */
  lemma FilteredIsFilter(jobs: seq<Job>, f: Filters)
    requires Filtered(jobs, f).Ok?
    ensures Filtered(jobs, f).value == Filter(jobs, Kept(f))
  {
    SelectIsFilter(jobs, Verdicts(jobs, f), Kept(f));
  }

  /**
   * Every job `filter_jobs` returns passes the keyword, location and department
   * filters and the salary rule, and the result keeps the input's order.
   */
  lemma FilteredKeeps(jobs: seq<Job>, f: Filters)
    requires Filtered(jobs, f).Ok?
    ensures IsSubseq(Filtered(jobs, f).value, jobs)
    ensures forall job :: job in Filtered(jobs, f).value ==>
      KeywordMatch(job, f.keyword) && LocationMatch(job, f.location) && DepartmentMatch(job, f.department)
      && (f.minSalary != 0 ==> ExtractSalary(job.content).Ok? && SalaryMatch(ExtractSalary(job.content).value, f.minSalary))
  {
    FilteredIsFilter(jobs, f);
    FilterSelects(jobs, Kept(f));
  }

  /** Each job that passes every filter is returned, as often as it occurs. */
  lemma FilteredComplete(jobs: seq<Job>, f: Filters, job: Job)
    requires Filtered(jobs, f).Ok? && Keep(job, f) == Ok(true)
    ensures multiset(Filtered(jobs, f).value)[job] == multiset(jobs)[job]
  {
    FilteredIsFilter(jobs, f);
    assert Kept(f)(job);
    FilterSelects(jobs, Kept(f));
  }

  /** Without any filter, `filter_jobs` returns its input. */
  lemma NoFiltersKeepAll(jobs: seq<Job>)
    ensures Filtered(jobs, Filters("", 0, "", "")) == Ok(jobs)
  {
    var f := Filters("", 0, "", "");
    FilteredErr(jobs, f);
    FilteredIsFilter(jobs, f);
    FilterAll(jobs, Kept(f));
  }

  /**
   * The salary filter drops a job that passes the other filters exactly when its
   * description yields a non-zero minimum below `minSalary`, and raises exactly
   * when the description's amount cannot be read.
   */
  lemma SalaryRule(job: Job, f: Filters)
    requires KeywordMatch(job, f.keyword) && LocationMatch(job, f.location) && DepartmentMatch(job, f.department)
    requires f.minSalary != 0
    ensures Keep(job, f).Err? <==> ExtractSalary(job.content).Err?
    ensures Keep(job, f) == Ok(false) <==>
      (ExtractSalary(job.content).Ok? && ExtractSalary(job.content).value.Some?
       && ExtractSalary(job.content).value.value.0 != 0 && ExtractSalary(job.content).value.value.0 < f.minSalary)
  {
  }

  // ================================================================ formatting

  /** A tag `<[^>]+>` starts at `i`: a `<`, at least one other character, then a `>`. */
  predicate TagAt(s: string, i: nat)
    requires i < |s|
  {
    s[i] == '<' && i + 1 < |s| && s[i + 1] != '>' && '>' in s[i + 2..]
  }

  /** `re.sub(r'<[^>]+>', ' ', s)`: each tag, leftmost first, becomes a space. */
  function StripTags(s: string): (r: string)
    ensures |r| <= |s|
    ensures '<' !in s ==> r == s
    decreases |s|
  {
    if s == [] then []
    else if TagAt(s, 0) then
      var close := 1 + IndexOf(s[1..], '>');
      " " + StripTags(s[close + 1..])
    else [s[0]] + StripTags(s[1..])
  }

  /** A text without `>` keeps none. */
  lemma {:induction false} StripTagsNoClose(s: string)
    requires '>' !in s
    ensures '>' !in StripTags(s)
    decreases |s|
  {
    if s != [] {
      assert !TagAt(s, 0);
      assert forall c :: c in s[1..] ==> c in s;
      StripTagsNoClose(s[1..]);
    }
  }

  /** The text keeps its first character when no tag starts there. */
  lemma StripTagsHead(s: string)
    requires s != [] && !TagAt(s, 0)
    ensures StripTags(s) != [] && StripTags(s)[0] == s[0]
  {
  }

  /** No tag `<[^>]+>` starts anywhere in `r`. */
  predicate TagFree(r: string) {
    forall i :: 0 <= i < |r| ==> !TagAt(r, i)
  }

  /** No tag is left once the tags are replaced. */
  lemma {:induction false} StripTagsClean(s: string)
    ensures TagFree(StripTags(s))
    decreases |s|
  {
    if s != [] {
      if TagAt(s, 0) {
        var close := 1 + IndexOf(s[1..], '>');
        StripTagsClean(s[close + 1..]);
        CleanAfterTag(s, close);
      } else {
        StripTagsClean(s[1..]);
        CleanAfterChar(s);
      }
    }
  }

  /** A tag at the front becomes one space. */
  lemma StripTagsAtTag(s: string)
    requires s != [] && TagAt(s, 0)
    ensures StripTags(s) == " " + StripTags(s[1 + IndexOf(s[1..], '>') + 1..])
  {
  }

  /** A tag becomes a space, which starts no tag, in front of text already clean. */
  lemma CleanAfterTag(s: string, close: nat)
    requires s != [] && TagAt(s, 0) && close == 1 + IndexOf(s[1..], '>')
    requires TagFree(StripTags(s[close + 1..]))
    ensures TagFree(StripTags(s))
  {
    StripTagsAtTag(s);
    SpaceThenClean(StripTags(s[close + 1..]));
  }

  lemma SpaceThenClean(rest: string)
    requires TagFree(rest)
    ensures TagFree(" " + rest)
  {
    var r := " " + rest;
    forall i | 0 <= i < |r|
      ensures !TagAt(r, i)
    {
      if i > 0 {
        assert r[i..] == rest[i - 1..];
        assert !TagAt(rest, i - 1);
      }
    }
  }

  /** A character that starts no tag stays in front of text already clean, and starts none there either. */
  lemma CleanAfterChar(s: string)
    requires s != [] && !TagAt(s, 0)
    requires TagFree(StripTags(s[1..]))
    ensures TagFree(StripTags(s))
  {
    var r := StripTags(s);
    var rest := StripTags(s[1..]);
    assert r == [s[0]] + rest;
    NoTagAtFront(s);
    forall i | 0 < i < |r|
      ensures !TagAt(r, i)
    {
      assert r[i..] == rest[i - 1..];
      assert !TagAt(rest, i - 1);
    }
  }

  /** A character that starts no tag starts none once the rest is stripped either. */
  lemma NoTagAtFront(s: string)
    requires s != [] && !TagAt(s, 0)
    ensures StripTags(s) != [] && !TagAt(StripTags(s), 0)
  {
    var r := StripTags(s);
    var rest := StripTags(s[1..]);
    assert r == [s[0]] + rest;
    if s[0] == '<' && |s| > 1 {
      if s[1] == '>' {
        StripTagsHead(s[1..]);
        assert r[1] == '>';
      } else {
        OpenWithoutClose(s);
        assert r[2..] == rest[1..];
      }
    }
  }

  /** After a `<` that opens no tag, the rest keeps its first character and gains no `>`. */
  lemma OpenWithoutClose(s: string)
    requires |s| > 1 && s[1] != '>' && '>' !in s[2..]
    ensures StripTags(s[1..]) != [] && '>' !in StripTags(s[1..])[1..]
  {
    var t := s[1..];
    assert t[1..] == s[2..];
    if |t| > 1 {
      assert t[2..] == s[2..][1..];
    }
    assert !TagAt(t, 0);
    assert StripTags(t) == [t[0]] + StripTags(t[1..]);
    StripTagsNoClose(t[1..]);
    assert StripTags(t)[1..] == StripTags(t[1..]);
  }

  /** `re.sub(r'\s+', ' ', s)`: each run of whitespace becomes one space. */
  function CollapseSpace(s: string): (r: string)
    ensures |r| <= |s|
    ensures NoSpace(s) ==> r == s
    decreases |s|
  {
    if s == [] then []
    else if IsSpace(s[0]) then " " + CollapseSpace(s[LeadLen(s)..])
    else [s[0]] + CollapseSpace(s[1..])
  }

  /** Whitespace in `s` is single spaces only. */
  predicate SingleSpaced(s: string) {
    (forall i :: 0 <= i < |s| && IsSpace(s[i]) ==> s[i] == ' ')
    && (forall i :: 0 <= i < |s| - 1 ==> !(IsSpace(s[i]) && IsSpace(s[i + 1])))
  }

  /** After the collapse, whitespace is single spaces, and the text starts with a space exactly when it did before. */
  lemma {:induction false} CollapseSpaceSingle(s: string)
    ensures SingleSpaced(CollapseSpace(s))
    ensures CollapseSpace(s) != [] <==> s != []
    ensures s != [] ==> (IsSpace(CollapseSpace(s)[0]) <==> IsSpace(s[0]))
    decreases |s|
  {
    if s != [] {
      var r := CollapseSpace(s);
      var n := if IsSpace(s[0]) then LeadLen(s) else 1;
      var t := s[n..];
      CollapseSpaceSingle(t);
      var rest := CollapseSpace(t);
      assert r == [r[0]] + rest;
      assert IsSpace(s[0]) ==> t == [] || !IsSpace(t[0]);
      forall i | 0 <= i < |r| - 1
        ensures !(IsSpace(r[i]) && IsSpace(r[i + 1]))
      {
        if i > 0 {
          assert r[i] == rest[i - 1] && r[i + 1] == rest[i];
        }
      }
    }
  }

  /** The description `format_job` prints in verbose mode: tags replaced, whitespace collapsed, stripped, cut at 300. */
  function Description(content: string): (r: string)
    ensures |r| <= 303
    ensures content == [] ==> r == []
  {
    Truncate(Strip(CollapseSpace(StripTags(content))), 300)
  }

  /**
   * The printed description is at most 303 characters: the cleaned text when it
   * is at most 300 long, else its first 300 characters and `...`; the cleaned
   * text holds no tag and no whitespace other than single inner spaces.
   */
  lemma DescriptionClean(content: string)
    ensures var clean := Strip(CollapseSpace(StripTags(content)));
      |Description(content)| <= 303
      && (|clean| <= 300 ==> Description(content) == clean)
      && (|clean| > 300 ==> Description(content) == clean[..300] + "...")
      && SingleSpaced(clean)
      && (clean == [] || (!IsSpace(clean[0]) && !IsSpace(clean[|clean| - 1])))
  {
    var c := CollapseSpace(StripTags(content));
    CollapseSpaceSingle(StripTags(content));
    StripSingleSpaced(c);
  }

  /** Stripping single-spaced text keeps it single-spaced. */
  lemma StripSingleSpaced(s: string)
    requires SingleSpaced(s)
    ensures SingleSpaced(Strip(s))
  {
    var a := LeadLen(s);
    var b := a + |s[a..]| - TrailLen(s[a..]);
    assert Strip(s) == s[a..b];
    SingleSpacedSlice(s, a, b);
  }

  /** A slice of single-spaced text is single-spaced. */
  lemma SingleSpacedSlice(s: string, a: nat, b: nat)
    requires a <= b <= |s| && SingleSpaced(s)
    ensures SingleSpaced(s[a..b])
  {
    var t := s[a..b];
    assert forall i :: 0 <= i < |t| ==> t[i] == s[a + i];
  }

  /** `s.strip()` is a slice of `s`. */
  lemma StripSlice(s: string)
    ensures exists a, b :: 0 <= a <= b <= |s| && Strip(s) == s[a..b]
  {
    var t := s[LeadLen(s)..];
    var b := LeadLen(s) + |t| - TrailLen(t);
    assert Strip(s) == s[LeadLen(s)..b];
  }

  /** The department names for `', '.join`, which raises on a department without a name. */
  function DepartmentNames(departments: seq<Option<string>>): (r: Result<seq<string>>)
    ensures r.Err? <==> exists i :: 0 <= i < |departments| && departments[i].None?
    ensures r.Err? ==> r.error == TypeError
    ensures r.Ok? ==> |r.value| == |departments| && forall i :: 0 <= i < |departments| ==> departments[i] == Some(r.value[i])
    decreases |departments|
  {
    if departments == [] then Ok([])
    else
      var init :- DepartmentNames(departments[..|departments| - 1]);
      match departments[|departments| - 1]
      case None => Err(TypeError)
      case Some(name) => Ok(init + [name])
  }

  /** The salary text of a job listing: `$lo - $hi` with grouped digits. */
  function SalaryText(lo: int, hi: int): string {
    "$" + FormatInt(lo) + " - $" + FormatInt(hi)
  }

  /** The salary line `format_job` prints for an extracted pair: only when both bounds are non-zero. */
  function SalaryLines(salary: Option<(int, int)>): seq<string> {
    match salary
    case Some((lo, hi)) => if lo != 0 && hi != 0 then ["  Salary: " + SalaryText(lo, hi)] else []
    case None => []
  }

  /** The lines of `format_job` for a job whose department names and salary have been read. */
  function JobLines(job: Job, company: string, names: seq<string>, salary: Option<(int, int)>, verbose: bool): seq<string> {
    JobHead(job, company, names, salary) + JobTail(job, verbose)
  }

  /** Title, company, location, then the department and salary lines when there are any. */
  function JobHead(job: Job, company: string, names: seq<string>, salary: Option<(int, int)>): seq<string> {
    var title := match job.title case None => "Unknown" case Some(t) => t;
    var location := match job.location case None => "Unknown Location" case Some(l) => l;
    var department := if names == [] then [] else ["  Department: " + Join(names, ", ")];
    ["\n[GREENHOUSE] " + title, "  Company: " + company, "  Location: " + location] + department + SalaryLines(salary)
  }

  /** The URL, the description in verbose mode when there is one, and the closing rule. */
  function JobTail(job: Job, verbose: bool): seq<string> {
    var description := if verbose && job.content != "" then ["  Description: " + Description(job.content)] else [];
    ["  URL: " + job.url] + description + [Repeat('-', 40)]
  }

  /** The lines of `format_job`, or the exception it raises. */
  function FormatJobLines(job: Job, company: string, verbose: bool): (r: Result<seq<string>>)
    ensures r.Err? <==>
      (exists i :: 0 <= i < |job.departments| && job.departments[i].None?) || ExtractSalary(job.content).Err?
  {
    var names :- DepartmentNames(job.departments);
    var salary :- ExtractSalary(job.content);
    Ok(JobLines(job, company, names, salary, verbose))
  }

  /** `format_job`: the lines joined by newlines. */
  function FormatJob(job: Job, company: string, verbose: bool): (r: Result<string>)
    ensures r.Err? <==> FormatJobLines(job, company, verbose).Err?
  {
    var lines :- FormatJobLines(job, company, verbose);
    Ok(Join(lines, "\n"))
  }

  /** A formatted job always ends with the 40-dash rule. */
  lemma FormatJobEnds(job: Job, company: string, verbose: bool)
    requires FormatJob(job, company, verbose).Ok?
    ensures EndsWith(FormatJob(job, company, verbose).value, Repeat('-', 40))
  {
    JoinLast(FormatJobLines(job, company, verbose).value, "\n");
  }

  /** The number of lines `format_job` prints: five, plus the optional department, salary and description lines. */
  function LineCount(names: seq<string>, salary: Option<(int, int)>, verbose: bool, content: string): nat {
    5 + (if names == [] then 0 else 1) + |SalaryLines(salary)| + (if verbose && content != "" then 1 else 0)
  }

  /**
   * The layout of a formatted job, first part: title (`Unknown` when missing),
   * company and location (`Unknown Location` when missing) first, the 40-dash
   * rule last, and as many lines in between as the optional lines present.
   */
  lemma JobLinesFrame(job: Job, company: string, names: seq<string>, salary: Option<(int, int)>, verbose: bool)
    ensures var lines := JobLines(job, company, names, salary, verbose);
      |lines| == LineCount(names, salary, verbose, job.content)
      && lines[0] == "\n[GREENHOUSE] " + (if job.title.Some? then job.title.value else "Unknown")
      && lines[1] == "  Company: " + company
      && lines[2] == "  Location: " + (if job.location.Some? then job.location.value else "Unknown Location")
      && lines[|lines| - 1] == Repeat('-', 40)
  {
  }

  /** A salary line is printed exactly when both bounds are non-zero, as `$lo - $hi` with grouped digits. */
  lemma SalaryLinesSpec(salary: Option<(int, int)>)
    requires salary.Some? ==> Scaled(salary.value.0) && Scaled(salary.value.1)
    ensures |SalaryLines(salary)| == (if salary.Some? && salary.value.0 != 0 && salary.value.1 != 0 then 1 else 0)
    ensures |SalaryLines(salary)| == 1 ==>
      SalaryLines(salary)[0] == "  Salary: $" + Thousands(salary.value.0) + " - $" + Thousands(salary.value.1)
  {
  }

  /**
   * The layout of a formatted job, second part: after the location, the
   * department line when the job lists departments, then the salary line when
   * there is one, the URL, and in verbose mode with a description the cleaned
   * description.
   */
  lemma JobLinesMiddle(job: Job, company: string, names: seq<string>, salary: Option<(int, int)>, verbose: bool)
    ensures var lines := JobLines(job, company, names, salary, verbose);
      var d := if names == [] then 0 else 1;
      var s := |SalaryLines(salary)|;
      |lines| >= 4 + d + s
      && (d == 1 ==> lines[3] == "  Department: " + Join(names, ", "))
      && (s == 1 ==> lines[3 + d] == SalaryLines(salary)[0])
      && lines[3 + d + s] == "  URL: " + job.url
      && (verbose && job.content != "" ==> lines[4 + d + s] == "  Description: " + Description(job.content))
  {
    var head := JobHead(job, company, names, salary);
    var tail := JobTail(job, verbose);
    var lines := head + tail;
    JobHeadShape(job, company, names, salary);
    JobTailShape(job, verbose);
    assert lines[|head|] == tail[0];
    if verbose && job.content != "" {
      assert lines[|head| + 1] == tail[1];
    }
    if names != [] {
      assert lines[3] == head[3];
    }
    if SalaryLines(salary) != [] {
      assert lines[|head| - 1] == head[|head| - 1];
    }
  }

  lemma JobHeadShape(job: Job, company: string, names: seq<string>, salary: Option<(int, int)>)
    ensures var head := JobHead(job, company, names, salary);
      var d := if names == [] then 0 else 1;
      var s := |SalaryLines(salary)|;
      s <= 1 && |head| == 3 + d + s
      && (d == 1 ==> head[3] == "  Department: " + Join(names, ", "))
      && (s == 1 ==> head[3 + d] == SalaryLines(salary)[0])
  {
  }

  lemma JobTailShape(job: Job, verbose: bool)
    ensures var tail := JobTail(job, verbose);
      |tail| >= 2 && tail[0] == "  URL: " + job.url
      && (verbose && job.content != "" ==> tail[1] == "  Description: " + Description(job.content))
  {
  }

  /** `format_job` on a job whose departments all have names and whose salary can be read. */
  lemma FormatJobLayout(job: Job, company: string, verbose: bool)
    requires FormatJobLines(job, company, verbose).Ok?
    ensures var names := DepartmentNames(job.departments);
      var salary := ExtractSalary(job.content);
      names.Ok? && salary.Ok?
      && FormatJobLines(job, company, verbose).value == JobLines(job, company, names.value, salary.value, verbose)
      && (names.value == [] <==> job.departments == [])
  {
  }

  // ================================================================ searching boards

  /**
   * What the board request for a company came back with: the board's jobs,
   * an HTTP error status, or a failure of the request itself with its message.
   */
  datatype Response = Fetched(jobs: seq<Job>) | HttpFailure(status: int) | RequestFailure(message: string)

  /** What `fetch_greenhouse_jobs` returns: an error message (empty when none) and the jobs. */
  datatype BoardData = BoardData(error: string, jobs: seq<Job>)

  /**
   * `fetch_greenhouse_jobs`: a missing board (404) and a failed request become an
   * error message with no jobs; any other HTTP error is raised again.
   */
  function FetchJobs(token: string, response: Response): (r: Result<BoardData>)
    ensures r.Err? <==> response.HttpFailure? && response.status != 404
    ensures r.Err? ==> r.error == HttpError(response.status)
    ensures r.Ok? && r.value.error != "" ==> r.value.jobs == []
    ensures response.Fetched? ==> r == Ok(BoardData("", response.jobs))
  {
    match response
    case Fetched(jobs) => Ok(BoardData("", jobs))
    case HttpFailure(status) =>
      if status == 404 then Ok(BoardData("Board '" + token + "' not found", [])) else Err(HttpError(status))
    case RequestFailure(message) => Ok(BoardData(message, []))
  }

  /** The arguments of `search_companies`; an empty string or 0 stands for an argument not given. */
  datatype SearchOptions = SearchOptions(keyword: string, minSalary: int, location: string, verbose: bool)

  /** `search_companies` passes no department to `filter_jobs`. */
  function SearchFilters(o: SearchOptions): Filters {
    Filters(o.keyword, o.minSalary, o.location, "")
  }

  /** `job["_company"] = company` on each job. */
  function Tag(jobs: seq<Job>, company: string): (r: seq<Job>)
    ensures |r| == |jobs|
    ensures forall i :: 0 <= i < |jobs| ==> r[i] == jobs[i].(company := Some(company))
  {
    seq(|jobs|, i requires 0 <= i < |jobs| => jobs[i].(company := Some(company)))
  }

  /** `format_job` on each job in turn, or the first exception it raises. */
  function FormatAll(jobs: seq<Job>, company: string, verbose: bool): (r: Result<seq<string>>)
    ensures r.Ok? ==> |r.value| == |jobs|
    decreases |jobs|
  {
    if jobs == [] then Ok([])
    else
      var init :- FormatAll(jobs[..|jobs| - 1], company, verbose);
      var text :- FormatJob(jobs[|jobs| - 1], company, verbose);
      Ok(init + [text])
  }

  function SearchingLine(company: string): string {
    "\nSearching " + company + " (board: " + GetBoardToken(company) + ")..."
  }

  /** What one turn of the loop of `search_companies` adds to `all_jobs` and to the output lines. */
  function CompanyStep(company: string, response: Response, o: SearchOptions): (r: Result<(seq<Job>, seq<string>)>)
    ensures r.Ok? ==> |r.value.1| >= 2 && r.value.1[0] == SearchingLine(company)
    ensures r.Ok? ==> forall i :: 0 <= i < |r.value.0| ==> r.value.0[i].company == Some(company)
  {
    var data :- FetchJobs(GetBoardToken(company), response);
    if data.error != "" then Ok(([], [SearchingLine(company), "  Error: " + data.error]))
    else
      var filtered :- Filtered(data.jobs, SearchFilters(o));
      var tagged := Tag(filtered, company);
      var count := if o.keyword != "" || o.minSalary != 0 || o.location != "" then
        ["  " + NatToString(|filtered|) + " jobs match filters"] else [];
      var texts :- FormatAll(tagged, company, o.verbose);
      Ok((tagged, [SearchingLine(company), "  Found " + NatToString(|data.jobs|) + " total jobs"] + count + texts))
  }

  /** What `search_companies` returns on the first `|companies|` companies, or the exception it raises. */
  function Searched(companies: seq<string>, responses: seq<Response>, o: SearchOptions): (r: Result<(seq<Job>, seq<string>)>)
    requires |responses| == |companies|
    ensures r.Ok? ==> |r.value.1| >= 2 * |companies|
    ensures r.Ok? ==> forall i :: 0 <= i < |r.value.0| ==> r.value.0[i].company.Some?
    decreases |companies|
  {
    if companies == [] then Ok(([], []))
    else
      var n := |companies| - 1;
      var before :- Searched(companies[..n], responses[..n], o);
      var step :- CompanyStep(companies[n], responses[n], o);
      Ok((before.0 + step.0, before.1 + step.1))
  }

  /** One more company for the search. */
  lemma SearchedStep(companies: seq<string>, responses: seq<Response>, o: SearchOptions, i: nat,
                     jobs: seq<Job>, lines: seq<string>, step: (seq<Job>, seq<string>))
    requires |responses| == |companies| && i < |companies|
    requires Searched(companies[..i], responses[..i], o) == Ok((jobs, lines))
    requires CompanyStep(companies[i], responses[i], o) == Ok(step)
    ensures Searched(companies[..i + 1], responses[..i + 1], o) == Ok((jobs + step.0, lines + step.1))
  {
    assert companies[..i + 1][..i] == companies[..i] && responses[..i + 1][..i] == responses[..i];
  }

  /** An exception in the turn of one company ends the search with it. */
  lemma {:induction false} SearchedStops(companies: seq<string>, responses: seq<Response>, o: SearchOptions, n: nat)
    requires |responses| == |companies| && n <= |companies|
    requires Searched(companies[..n], responses[..n], o).Err?
    ensures Searched(companies, responses, o) == Searched(companies[..n], responses[..n], o)
    decreases |companies| - n
  {
    if n < |companies| {
      assert companies[..n + 1][..n] == companies[..n] && responses[..n + 1][..n] == responses[..n];
      SearchedStops(companies, responses, o, n + 1);
    } else {
      assert companies[..n] == companies && responses[..n] == responses;
    }
  }

  lemma TakeOneMore<T>(s: seq<T>, k: nat)
    requires k < |s|
    ensures s[..k + 1] == s[..k] + [s[k]]
  {
  }

  /** One more job formatted. */
  lemma FormatAllStep(jobs: seq<Job>, company: string, verbose: bool, k: nat, texts: seq<string>)
    requires k < |jobs| && FormatAll(jobs[..k], company, verbose) == Ok(texts)
    ensures var text := FormatJob(jobs[k], company, verbose);
      FormatAll(jobs[..k + 1], company, verbose) == if text.Err? then Err(text.error) else Ok(texts + [text.value])
  {
    assert jobs[..k + 1][..k] == jobs[..k];
  }

  /** An exception while formatting one job ends the formatting with it. */
  lemma {:induction false} FormatAllStops(jobs: seq<Job>, company: string, verbose: bool, n: nat)
    requires n <= |jobs| && FormatAll(jobs[..n], company, verbose).Err?
    ensures FormatAll(jobs, company, verbose) == FormatAll(jobs[..n], company, verbose)
    decreases |jobs|
  {
    if n < |jobs| {
      var init := jobs[..|jobs| - 1];
      assert init[..n] == jobs[..n];
      FormatAllStops(init, company, verbose, n);
    } else {
      assert jobs[..n] == jobs;
    }
  }

  /** When the turn of company `i` raises, so does the search. */
  lemma SearchedStopsAt(companies: seq<string>, responses: seq<Response>, o: SearchOptions, i: nat,
                        jobs: seq<Job>, lines: seq<string>)
    requires |responses| == |companies| && i < |companies|
    requires Searched(companies[..i], responses[..i], o) == Ok((jobs, lines))
    requires CompanyStep(companies[i], responses[i], o).Err?
    ensures Searched(companies, responses, o) == Err(CompanyStep(companies[i], responses[i], o).error)
  {
    SearchedFailsAt(companies, responses, o, i, jobs, lines);
    SearchedStops(companies, responses, o, i + 1);
  }

  lemma SearchedFailsAt(companies: seq<string>, responses: seq<Response>, o: SearchOptions, i: nat,
                        jobs: seq<Job>, lines: seq<string>)
    requires |responses| == |companies| && i < |companies|
    requires Searched(companies[..i], responses[..i], o) == Ok((jobs, lines))
    requires CompanyStep(companies[i], responses[i], o).Err?
    ensures Searched(companies[..i + 1], responses[..i + 1], o) == Err(CompanyStep(companies[i], responses[i], o).error)
  {
    var c, r := companies[..i + 1], responses[..i + 1];
    assert c[..i] == companies[..i] && r[..i] == responses[..i];
    assert c[i] == companies[i] && r[i] == responses[i];
  }

  /** The turn of a company whose board reports an error adds that error line and no job. */
  lemma CompanyStepBoardError(company: string, response: Response, o: SearchOptions)
    requires FetchJobs(GetBoardToken(company), response).Ok?
    requires FetchJobs(GetBoardToken(company), response).value.error != ""
    ensures CompanyStep(company, response, o)
      == Ok(([], [SearchingLine(company), "  Error: " + FetchJobs(GetBoardToken(company), response).value.error]))
  {
  }

  /** The turn of a company whose board answered, in terms of the filtered jobs and their formatting. */
  lemma CompanyStepFetched(company: string, response: Response, o: SearchOptions, jobs: seq<Job>)
    requires FetchJobs(GetBoardToken(company), response) == Ok(BoardData("", jobs))
    ensures var filtered := Filtered(jobs, SearchFilters(o));
      CompanyStep(company, response, o) ==
      if filtered.Err? then Err(filtered.error)
      else
        var tagged := Tag(filtered.value, company);
        var count := if o.keyword != "" || o.minSalary != 0 || o.location != "" then
          ["  " + NatToString(|filtered.value|) + " jobs match filters"] else [];
        var texts := FormatAll(tagged, company, o.verbose);
        if texts.Err? then Err(texts.error)
        else Ok((tagged, [SearchingLine(company), "  Found " + NatToString(|jobs|) + " total jobs"] + count + texts.value))
  {
  }

  /**
   * One turn of the loop of `search_companies`: fetch the company's board, report
   * an error, or filter its jobs, tag them with the company and format them.
   */
  method SearchCompany(company: string, response: Response, o: SearchOptions)
    returns (r: Result<(seq<Job>, seq<string>)>)
    ensures r == CompanyStep(company, response, o)
  {
    var token := GetBoardToken(company);
    var lines := ["\nSearching " + company + " (board: " + token + ")..."];
    var data := FetchJobs(token, response);
    if data.Err? {
      return Err(data.error);
    }
    if data.value.error != "" {
      lines := lines + ["  Error: " + data.value.error];
      assert lines == [SearchingLine(company), "  Error: " + data.value.error];
      CompanyStepBoardError(company, response, o);
      return Ok(([], lines));
    }
    var jobs := data.value.jobs;
    CompanyStepFetched(company, response, o, jobs);
    lines := lines + ["  Found " + NatToString(|jobs|) + " total jobs"];
    var filtered := FilterJobs(jobs, SearchFilters(o));
    if filtered.Err? {
      return Err(filtered.error);
    }
    if o.keyword != "" || o.minSalary != 0 || o.location != "" {
      lines := lines + ["  " + NatToString(|filtered.value|) + " jobs match filters"];
    }
    assert lines == [SearchingLine(company), "  Found " + NatToString(|jobs|) + " total jobs"]
      + (if o.keyword != "" || o.minSalary != 0 || o.location != "" then
           ["  " + NatToString(|filtered.value|) + " jobs match filters"] else []);
    var matches := TagAndFormat(filtered.value, company, o.verbose);
    if matches.Err? {
      return Err(matches.error);
    }
    return Ok((matches.value.0, lines + matches.value.1));
  }

  /** The inner loop of `search_companies`: each job tagged with the company, kept, and formatted. */
  method TagAndFormat(filtered: seq<Job>, company: string, verbose: bool)
    returns (r: Result<(seq<Job>, seq<string>)>)
    ensures var texts := FormatAll(Tag(filtered, company), company, verbose);
      r == if texts.Err? then Err(texts.error) else Ok((Tag(filtered, company), texts.value))
  {
    ghost var tagged := Tag(filtered, company);
    var companyJobs: seq<Job> := [];
    var texts: seq<string> := [];
    var k := 0;
    while k < |filtered|
      invariant k <= |filtered|
      invariant companyJobs == tagged[..k]
      invariant FormatAll(tagged[..k], company, verbose) == Ok(texts)
    {
      var job := filtered[k].(company := Some(company));
      assert tagged[k] == job;
      TakeOneMore(tagged, k);
      companyJobs := companyJobs + [job];
      FormatAllStep(tagged, company, verbose, k, texts);
      var text := FormatJob(job, company, verbose);
      if text.Err? {
        FormatAllStops(tagged, company, verbose, k + 1);
        return Err(text.error);
      }
      texts := texts + [text.value];
      k := k + 1;
    }
    assert tagged[..k] == tagged;
    return Ok((companyJobs, texts));
  }

  /**
   * `search_companies`: for each company in turn, the board's jobs filtered by
   * keyword, salary and location, tagged with the company and formatted, with
   * the progress lines before them.
   */
  method SearchCompanies(companies: seq<string>, responses: seq<Response>, o: SearchOptions)
    returns (r: Result<(seq<Job>, seq<string>)>)
    requires |responses| == |companies|
    ensures r == Searched(companies, responses, o)
  {
    var allJobs: seq<Job> := [];
    var outputLines: seq<string> := [];
    var i := 0;
    while i < |companies|
      invariant i <= |companies|
      invariant Searched(companies[..i], responses[..i], o) == Ok((allJobs, outputLines))
    {
      var step := SearchCompany(companies[i], responses[i], o);
      if step.Err? {
        SearchedStopsAt(companies, responses, o, i, allJobs, outputLines);
        return Err(step.error);
      }
      SearchedStep(companies, responses, o, i, allJobs, outputLines, step.value);
      allJobs := allJobs + step.value.0;
      outputLines := outputLines + step.value.1;
      i := i + 1;
    }
    assert companies[..i] == companies && responses[..i] == responses;
    return Ok((allJobs, outputLines));
  }

  // ---------------------------------------------------------------- what the search collects

  /** What one company adds to `all_jobs`: its board's jobs that pass the filters, tagged; nothing for a board that failed. */
  function Contribution(company: string, response: Response, o: SearchOptions): seq<Job> {
    match response
    case Fetched(jobs) => Tag(Filter(jobs, Kept(SearchFilters(o))), company)
    case _ => []
  }

  /** The jobs of the companies, in company order. */
  function AllJobs(companies: seq<string>, responses: seq<Response>, o: SearchOptions): (r: seq<Job>)
    requires |responses| == |companies|
    ensures forall i :: 0 <= i < |r| ==> r[i].company.Some?
    decreases |companies|
  {
    if companies == [] then []
    else
      var n := |companies| - 1;
      AllJobs(companies[..n], responses[..n], o) + Contribution(companies[n], responses[n], o)
  }

  /** A company whose board is missing or whose request failed contributes no job, only its error line. */
  lemma ErroredCompany(company: string, response: Response, o: SearchOptions)
    requires (response.HttpFailure? && response.status == 404) || (response.RequestFailure? && response.message != "")
    ensures CompanyStep(company, response, o).Ok?
    ensures CompanyStep(company, response, o).value.0 == []
    ensures CompanyStep(company, response, o).value.1 == [SearchingLine(company),
      "  Error: " + (if response.RequestFailure? then response.message
                     else "Board '" + GetBoardToken(company) + "' not found")]
  {
  }

  /** What a company's turn adds to `all_jobs`, when it does not raise, is its contribution. */
  lemma CompanyStepJobs(company: string, response: Response, o: SearchOptions)
    requires CompanyStep(company, response, o).Ok?
    ensures CompanyStep(company, response, o).value.0 == Contribution(company, response, o)
  {
    var data := FetchJobs(GetBoardToken(company), response).value;
    if data.error == "" {
      CompanyStepFetched(company, response, o, data.jobs);
      FilteredIsFilter(data.jobs, SearchFilters(o));
      if response.RequestFailure? {
        assert Filter(data.jobs, Kept(SearchFilters(o))) == [];
      }
    }
  }

  /**
   * When `search_companies` does not raise, `all_jobs` is the concatenation, in
   * company order, of each company's jobs that pass the keyword, salary and
   * location filters, tagged with the company; a board that failed adds nothing.
   */
  lemma {:induction false} SearchedAllJobs(companies: seq<string>, responses: seq<Response>, o: SearchOptions)
    requires |responses| == |companies| && Searched(companies, responses, o).Ok?
    ensures Searched(companies, responses, o).value.0 == AllJobs(companies, responses, o)
    decreases |companies|
  {
    if companies != [] {
      var n := |companies| - 1;
      SearchedAllJobs(companies[..n], responses[..n], o);
      CompanyStepJobs(companies[n], responses[n], o);
    }
  }

  /** Each job a company contributes carries its tag and passes the keyword, location and salary filters. */
  lemma ContributionFiltered(company: string, response: Response, o: SearchOptions)
    ensures forall job :: job in Contribution(company, response, o) ==>
      job.company == Some(company) && KeywordMatch(job, o.keyword) && LocationMatch(job, o.location)
      && (o.minSalary != 0 ==> ExtractSalary(job.content).Ok? && SalaryMatch(ExtractSalary(job.content).value, o.minSalary))
  {
    if response.Fetched? {
      var kept := Filter(response.jobs, Kept(SearchFilters(o)));
      FilterSelects(response.jobs, Kept(SearchFilters(o)));
      forall job | job in Contribution(company, response, o)
        ensures job.company == Some(company) && KeywordMatch(job, o.keyword) && LocationMatch(job, o.location)
        ensures o.minSalary != 0 ==> ExtractSalary(job.content).Ok? && SalaryMatch(ExtractSalary(job.content).value, o.minSalary)
      {
        var i :| 0 <= i < |kept| && job == Tag(kept, company)[i];
        assert kept[i] in kept;
      }
    }
  }

  /** The search applies no department filter: a job's departments do not change whether it is kept. */
  lemma KeepIgnoresDepartments(job: Job, o: SearchOptions, departments: seq<Option<string>>)
    ensures Keep(job.(departments := departments), SearchFilters(o)) == Keep(job, SearchFilters(o))
  {
  }
}

=== FILE: job_search.dfy ===
/**
 * The job-board search script: the minimum-salary mask applied to scraped rows,
 * the text report of the results, the CSV/JSON output paths and the merge of
 * command-line arguments with the search profile.
 */
module JobSearch {
  import opened Wrappers
  import opened Text
  import opened Seqs
  import GreenhouseSearch

  // ---------------------------------------------------------------- rows

  /**
   * One scraped job. `title` and `company` are `None` when the column is
   * missing (the report then shows a placeholder); a missing location, URL,
   * site or description reads as "". The salary bounds are `None` where the
   * board gave no amount.
   */
  datatype Row = Row(
    site: string,
    title: Option<string>,
    company: Option<string>,
    location: string,
    jobUrl: string,
    description: string,
    minAmount: Option<int>,
    maxAmount: Option<int>)

  /** A result table: its rows and whether it has a `min_amount` column at all. */
  datatype Table = Table(hasMinAmount: bool, rows: seq<Row>)

  /** A table without a `min_amount` column has no minimum amount in any row. */
  predicate ColumnsAgree(t: Table) {
    !t.hasMinAmount ==> forall i :: 0 <= i < |t.rows| ==> t.rows[i].minAmount.None?
  }

  // ---------------------------------------------------------------- salary mask

  /** The mask keeps a row with no minimum amount or one at least `minSalary`. */
  predicate MeetsMinimum(row: Row, minSalary: int) {
    row.minAmount.None? || row.minAmount.value >= minSalary
  }

  function Meets(minSalary: int): Row -> bool {
    row => MeetsMinimum(row, minSalary)
  }

  function FallsShort(minSalary: int): Row -> bool {
    row => !MeetsMinimum(row, minSalary)
  }

  /** A masked table and the line the search prints about the rows it dropped, if any. */
  datatype Masked = Masked(table: Table, note: Option<string>)

  /** The message about `dropped` rows under the minimum. */
  function DroppedNote(dropped: nat, minSalary: int): string {
    "Filtered " + NatToString(dropped) + " jobs below $" + FormatInt(minSalary) + " salary"
  }

  /**
   * A predicate and its negation split a sequence: the elements one keeps and
   * the elements the other keeps add up to the whole.
   */
  lemma {:induction false} FilterSplit<T>(s: seq<T>, p: T -> bool, q: T -> bool)
    requires forall x :: q(x) <==> !p(x)
    ensures |Filter(s, p)| + |Filter(s, q)| == |s|
    decreases |s|
  {
    if s != [] {
      FilterSplit(s[..|s| - 1], p, q);
    }
  }

  /**
   * The minimum-salary mask of `search_jobs`: applied only when the minimum is
   * non-zero and the table has a `min_amount` column; the number of dropped rows
   * is reported only when it is not zero.
   */
  function SalaryMask(t: Table, minSalary: int): (r: Masked)
    ensures r.table.hasMinAmount == t.hasMinAmount
    ensures |r.table.rows| <= |t.rows|
    ensures r.note.Some? <==> |r.table.rows| != |t.rows|
    ensures r.note.Some? ==> r.note.value == DroppedNote(|t.rows| - |r.table.rows|, minSalary)
  {
    if minSalary != 0 && t.hasMinAmount then
      var kept := Filter(t.rows, Meets(minSalary));
      FilterSplit(t.rows, Meets(minSalary), FallsShort(minSalary));
      Masked(Table(t.hasMinAmount, kept),
        if |t.rows| != |kept| then Some(DroppedNote(|t.rows| - |kept|, minSalary)) else None)
    else
      Masked(t, None)
  }

  /**
   * The mask only removes rows and keeps the order of the rest. When it applies,
   * it keeps exactly the rows that have no minimum amount or meet the minimum,
   * each as often as it occurs; otherwise the table is unchanged.
   */
  lemma SalaryMaskSelects(t: Table, minSalary: int)
    ensures IsSubseq(SalaryMask(t, minSalary).table.rows, t.rows)
    ensures minSalary != 0 && t.hasMinAmount ==>
      (forall row :: row in SalaryMask(t, minSalary).table.rows ==> MeetsMinimum(row, minSalary)) &&
      (forall row :: MeetsMinimum(row, minSalary) ==>
        multiset(SalaryMask(t, minSalary).table.rows)[row] == multiset(t.rows)[row])
    ensures minSalary == 0 || !t.hasMinAmount ==> SalaryMask(t, minSalary).table == t
  {
    if minSalary != 0 && t.hasMinAmount {
      FilterSelects(t.rows, Meets(minSalary));
    } else {
      SubseqRefl(t.rows);
    }
  }

  /** The reported count is the number of rows below the minimum. */
  lemma {:induction false} SalaryMaskCount(t: Table, minSalary: int)
    requires minSalary != 0 && t.hasMinAmount
    ensures |t.rows| - |SalaryMask(t, minSalary).table.rows| == |Filter(t.rows, FallsShort(minSalary))|
  {
    FilterSplit(t.rows, Meets(minSalary), FallsShort(minSalary));
  }

  /**
   * The column test never changes the outcome: a table without the column has
   * no minimum amounts, and the mask would keep all of its rows anyway.
   */
  lemma {:induction false} ColumnGuardRedundant(t: Table, minSalary: int)
    requires ColumnsAgree(t) && minSalary != 0
    ensures SalaryMask(t, minSalary).table.rows == Filter(t.rows, Meets(minSalary))
  {
    if !t.hasMinAmount {
      FilterAll(t.rows, Meets(minSalary));
    }
  }

  /** What the job-board scraper gave back: a table, or an exception it raised. */
  datatype Scrape = Scraped(table: Table) | ScrapeFailed(message: string)

  /**
   * `search_jobs` after the scrape: a failed scrape gives an empty table with no
   * columns, otherwise the salary mask is applied.
   */
  function SearchJobs(scrape: Scrape, minSalary: int): (r: Masked)
    ensures scrape.ScrapeFailed? ==> r.table.rows == [] && r.note.None?
    ensures scrape.Scraped? ==> IsSubseq(r.table.rows, scrape.table.rows)
  {
    match scrape
    case Scraped(t) =>
      SalaryMaskSelects(t, minSalary);
      SalaryMask(t, minSalary)
    case ScrapeFailed(_) => Masked(Table(false, []), None)
  }

  // ---------------------------------------------------------------- salary display

  /**
   * The salary shown for a row: a range when both bounds are known, "$min+" or
   * "Up to $max" when only one is, and nothing when neither is.
   */
  function SalaryString(lo: Option<int>, hi: Option<int>): (r: string)
    ensures r == "" <==> lo.None? && hi.None?
    ensures lo.Some? ==> StartsWith(r, "$")
    ensures lo.None? && hi.Some? ==> StartsWith(r, "Up to $")
    ensures lo.Some? && hi.None? ==> EndsWith(r, "+")
  {
    if lo.Some? && hi.Some? then "$" + FormatInt(lo.value) + " - $" + FormatInt(hi.value)
    else if lo.Some? then "$" + FormatInt(lo.value) + "+"
    else if hi.Some? then "Up to $" + FormatInt(hi.value)
    else ""
  }

  /** Text read with nothing before and nothing after it is the text itself. */
  lemma Unpadded(t: string)
    ensures [] + t + [] == t
  {
  }

  /**
   * A displayed range is the form the Greenhouse salary scanner reads: for bounds
   * of at least 1000, with few enough digits for `int()`, it reads back exactly
   * the two amounts.
   */
  lemma SalaryRangeReadsBack(lo: nat, hi: nat)
    requires lo >= 1000 && hi >= 1000 && GreenhouseSearch.Convertible(lo) && GreenhouseSearch.Convertible(hi)
    ensures GreenhouseSearch.ExtractSalary(SalaryString(Some(lo), Some(hi))) == Ok(Some((lo, hi)))
  {
    var t := GreenhouseSearch.SalaryText(lo, hi);
    GreenhouseSearch.SalaryRoundTrip([], lo, hi, []);
    Unpadded(t);
    assert SalaryString(Some(lo), Some(hi)) == t;
  }

  /** A displayed minimum alone is "$", its amount with thousands commas, and "+". */
  lemma SalaryFromReadsBack(lo: nat)
    ensures var s := SalaryString(Some(lo), None);
      |s| >= 3 && s[0] == '$' && s[|s| - 1] == '+' &&
      var d := ReplaceAll(s[1..|s| - 1], [','], ""); AllDigits(d) && DigitsValue(d) == lo
  {
    var s := SalaryString(Some(lo), None);
    assert s[1..|s| - 1] == Thousands(lo);
    ThousandsValue(lo);
  }

  /** A displayed maximum alone is "Up to $" and its amount with thousands commas. */
  lemma SalaryUpToReadsBack(hi: nat)
    ensures var s := SalaryString(None, Some(hi));
      |s| >= 8 && s[..7] == "Up to $" &&
      var d := ReplaceAll(s[7..], [','], ""); AllDigits(d) && DigitsValue(d) == hi
  {
    var s := SalaryString(None, Some(hi));
    assert s[7..] == Thousands(hi);
    ThousandsValue(hi);
  }

  // ---------------------------------------------------------------- report

  /** The report text when there are no rows. */
  const NO_JOBS := "No jobs found matching criteria."

  /** The two header lines: the row count and a rule of 80 '='. */
  function Header(n: nat): seq<string> {
    ["Found " + NatToString(n) + " jobs:\n", Repeat('=', 80)]
  }

  /** The title shown for a row, with a placeholder when the column is missing. */
  function TitleOf(row: Row): string {
    match row.title
    case Some(t) => t
    case None => "Unknown Title"
  }

  /** The company shown for a row, with a placeholder when the column is missing. */
  function CompanyOf(row: Row): string {
    match row.company
    case Some(c) => c
    case None => "Unknown Company"
  }

  /** A line that appears only under a condition. */
  function When(c: bool, line: string): seq<string> {
    if c then [line] else []
  }

  function TitleLine(row: Row): string {
    "\n[" + Upper(row.site) + "] " + TitleOf(row)
  }

  function CompanyLine(row: Row): string {
    "  Company: " + CompanyOf(row)
  }

  function LocationLines(row: Row): seq<string> {
    When(row.location != "", "  Location: " + row.location)
  }

  function SalaryLines(row: Row): seq<string> {
    var salary := SalaryString(row.minAmount, row.maxAmount);
    When(salary != "", "  Salary: " + salary)
  }

  function UrlLine(row: Row): string {
    "  URL: " + row.jobUrl
  }

  function DescriptionLines(row: Row, verbose: bool): seq<string> {
    When(verbose && row.description != "", "  Description: " + Truncate(row.description, 300))
  }

  /** The rule of 40 '-' that closes each row. */
  function Rule(): string {
    Repeat('-', 40)
  }

  /**
   * The lines of one row: site and title, company, location when known, salary
   * when either bound is known, URL, the description in verbose mode when there
   * is one (cut to 300 characters plus "..."), and the closing rule.
   */
  function RowLines(row: Row, verbose: bool): (r: seq<string>)
  {
    [TitleLine(row), CompanyLine(row)] + LocationLines(row) + SalaryLines(row)
      + [UrlLine(row)] + DescriptionLines(row, verbose) + [Rule()]
  }

  /** The lines of all rows, in row order. */
  function AllRowLines(rows: seq<Row>, verbose: bool): seq<string>
    decreases |rows|
  {
    if rows == [] then [] else AllRowLines(rows[..|rows| - 1], verbose) + RowLines(rows[|rows| - 1], verbose)
  }

  /** The report `format_results` returns. */
  function Report(rows: seq<Row>, verbose: bool): string {
    if rows == [] then NO_JOBS else Join(Header(|rows|) + AllRowLines(rows, verbose), "\n")
  }

  /** The fixed message is given exactly when there are no rows. */
  lemma ReportEmpty(rows: seq<Row>, verbose: bool)
    ensures rows == [] <==> Report(rows, verbose) == NO_JOBS
  {
    if rows != [] {
      var lines := Header(|rows|) + AllRowLines(rows, verbose);
      JoinFirst(lines, "\n");
      assert Report(rows, verbose)[0] == lines[0][0] == 'F';
    }
  }

  /**
   * `format_results`: the header lines, then the lines of each row appended in
   * row order, joined with newlines; no rows give the fixed message.
   */
  method FormatResults(rows: seq<Row>, verbose: bool) returns (text: string)
    ensures text == Report(rows, verbose)
    ensures rows == [] ==> text == "No jobs found matching criteria."
  {
    if rows == [] {
      return NO_JOBS;
    }
    var lines := ["Found " + NatToString(|rows|) + " jobs:\n"];
    lines := lines + [Repeat('=', 80)];
    ghost var header := lines;
    var i := 0;
    while i < |rows|
      invariant 0 <= i <= |rows|
      invariant lines == header + AllRowLines(rows[..i], verbose)
    {
      ghost var done := AllRowLines(rows[..i], verbose);
      lines := AppendRow(lines, rows[i], verbose);
      AppendAssoc(header, done, RowLines(rows[i], verbose));
      AllRowLinesStep(rows, i, verbose);
      i := i + 1;
    }
    assert rows[..|rows|] == rows;
    assert header == Header(|rows|);
    text := Join(lines, "\n");
  }

  lemma AllRowLinesStep(rows: seq<Row>, i: nat, verbose: bool)
    requires i < |rows|
    ensures AllRowLines(rows[..i + 1], verbose) == AllRowLines(rows[..i], verbose) + RowLines(rows[i], verbose)
  {
    assert rows[..i + 1][..i] == rows[..i];
  }

  /** The body of the loop in `format_results`: the lines of one row appended one by one. */
  method AppendRow(lines0: seq<string>, row: Row, verbose: bool) returns (lines: seq<string>)
    ensures lines == lines0 + RowLines(row, verbose)
  {
    var title := TitleOf(row);
    var company := CompanyOf(row);
    var salary := SalaryString(row.minAmount, row.maxAmount);
    // `added` holds the lines of this row so far; `shown` is what they stand for
    var added := ["\n[" + Upper(row.site) + "] " + title];
    added := added + ["  Company: " + company];
    ghost var shown := [TitleLine(row), CompanyLine(row)];
    assert added == shown;
    if row.location != "" {
      added := added + ["  Location: " + row.location];
    }
    shown := shown + LocationLines(row);
    assert added == shown;
    if salary != "" {
      added := added + ["  Salary: " + salary];
    }
    shown := shown + SalaryLines(row);
    assert added == shown;
    added := added + ["  URL: " + row.jobUrl];
    shown := shown + [UrlLine(row)];
    if verbose && row.description != "" {
      var desc := if |row.description| > 300 then row.description[..300] + "..." else row.description;
      added := added + ["  Description: " + desc];
    }
    shown := shown + DescriptionLines(row, verbose);
    assert added == shown;
    added := added + [Repeat('-', 40)];
    shown := shown + [Rule()];
    assert shown == RowLines(row, verbose);
    lines := lines0 + added;
  }

  /** Every row contributes between 4 and 7 lines: the optional ones are location, salary and description. */
  lemma RowLinesCount(row: Row, verbose: bool)
    ensures |RowLines(row, verbose)| ==
      4 + (if row.location != "" then 1 else 0)
        + (if row.minAmount.Some? || row.maxAmount.Some? then 1 else 0)
        + (if verbose && row.description != "" then 1 else 0)
  {
  }

  /** A line that shows a salary. */
  predicate IsSalaryLine(line: string) {
    StartsWith(line, "  Salary: ")
  }

  /** A line that shows a description. */
  predicate IsDescriptionLine(line: string) {
    StartsWith(line, "  Description: ")
  }

  /** Each line of a row comes from one of its parts. */
  lemma RowLineParts(row: Row, verbose: bool, line: string)
    requires line in RowLines(row, verbose)
    ensures line == TitleLine(row) || line == CompanyLine(row) || line in LocationLines(row) ||
      line in SalaryLines(row) || line == UrlLine(row) || line in DescriptionLines(row, verbose) || line == Rule()
  {
  }

  /** The character that tells the parts apart: '\n' and '-' first, or 'C', 'L', 'S', 'U', 'D' third. */
  lemma RowLineTags(row: Row, verbose: bool)
    ensures TitleLine(row)[0] == '\n' && Rule()[0] == '-'
    ensures |CompanyLine(row)| > 2 && CompanyLine(row)[2] == 'C'
    ensures |UrlLine(row)| > 2 && UrlLine(row)[2] == 'U'
    ensures forall l :: l in LocationLines(row) ==> |l| > 2 && l[2] == 'L'
    ensures forall l :: l in SalaryLines(row) ==> |l| > 2 && l[2] == 'S'
    ensures forall l :: l in DescriptionLines(row, verbose) ==> |l| > 2 && l[2] == 'D'
  {
  }

  /** A salary line of a row comes from its salary part. */
  lemma SalaryLineSource(row: Row, verbose: bool, line: string)
    requires line in RowLines(row, verbose) && IsSalaryLine(line)
    ensures line in SalaryLines(row)
  {
    assert line[0] == line[..10][0] == ' ' && line[2] == line[..10][2] == 'S';
    RowLineParts(row, verbose, line);
    RowLineTags(row, verbose);
  }

  /** A description line of a row comes from its description part. */
  lemma DescriptionLineSource(row: Row, verbose: bool, line: string)
    requires line in RowLines(row, verbose) && IsDescriptionLine(line)
    ensures line in DescriptionLines(row, verbose)
  {
    assert line[0] == line[..15][0] == ' ' && line[2] == line[..15][2] == 'D';
    RowLineParts(row, verbose, line);
    RowLineTags(row, verbose);
  }

  /**
   * A row shows a salary line exactly when either bound is known, and the only
   * salary line it shows is its salary string.
   */
  lemma RowSalaryLine(row: Row, verbose: bool)
    ensures (exists line :: line in RowLines(row, verbose) && IsSalaryLine(line)) <==>
      row.minAmount.Some? || row.maxAmount.Some?
    ensures forall line :: line in RowLines(row, verbose) && IsSalaryLine(line) ==>
      line == "  Salary: " + SalaryString(row.minAmount, row.maxAmount)
  {
    forall line | line in RowLines(row, verbose) && IsSalaryLine(line)
      ensures line in SalaryLines(row)
    {
      SalaryLineSource(row, verbose, line);
    }
    if row.minAmount.Some? || row.maxAmount.Some? {
      var l := "  Salary: " + SalaryString(row.minAmount, row.maxAmount);
      assert l in SalaryLines(row);
      assert l[..10] == "  Salary: ";
      assert l in RowLines(row, verbose) && IsSalaryLine(l);
    }
  }

  /**
   * A row shows a description line exactly in verbose mode when it has a
   * description, and that line carries the description cut to at most 303
   * characters: unchanged up to 300, otherwise its first 300 plus "...".
   */
  lemma RowDescriptionLine(row: Row, verbose: bool)
    ensures (exists line :: line in RowLines(row, verbose) && IsDescriptionLine(line)) <==>
      verbose && row.description != ""
    ensures forall line :: line in RowLines(row, verbose) && IsDescriptionLine(line) ==>
      line == "  Description: " + Truncate(row.description, 300)
  {
    forall line | line in RowLines(row, verbose) && IsDescriptionLine(line)
      ensures line in DescriptionLines(row, verbose)
    {
      DescriptionLineSource(row, verbose, line);
    }
    if verbose && row.description != "" {
      var l := "  Description: " + Truncate(row.description, 300);
      assert l in DescriptionLines(row, verbose);
      assert l[..15] == "  Description: ";
      assert l in RowLines(row, verbose) && IsDescriptionLine(l);
    }
  }

  /** Each row's lines start with its site and title and end with the 40-dash rule. */
  lemma RowLinesEnds(row: Row, verbose: bool)
    ensures var lines := RowLines(row, verbose);
      |lines| >= 4 &&
      lines[0] == "\n[" + Upper(row.site) + "] " + (if row.title.Some? then row.title.value else "Unknown Title") &&
      lines[|lines| - 1] == Repeat('-', 40)
  {
  }

  /** A non-empty report starts with the number of rows and ends with a row's closing rule. */
  lemma {:induction false} ReportShape(rows: seq<Row>, verbose: bool)
    requires rows != []
    ensures StartsWith(Report(rows, verbose), "Found " + NatToString(|rows|) + " jobs:\n")
    ensures EndsWith(Report(rows, verbose), Repeat('-', 40))
  {
    var lines := Header(|rows|) + AllRowLines(rows, verbose);
    var last := RowLines(rows[|rows| - 1], verbose);
    RowLinesEnds(rows[|rows| - 1], verbose);
    assert lines[|lines| - 1] == last[|last| - 1];
    JoinLast(lines, "\n");
    JoinFirst(lines, "\n");
  }

  // ---------------------------------------------------------------- output paths

  /** The CSV path: every ".json" in the output path becomes ".csv". */
  function CsvPath(outputPath: string): (r: string)
    ensures |r| <= |outputPath|
  {
    ReplaceAll(outputPath, ".json", ".csv")
  }

  /** The JSON path: the output path, with ".json" appended unless it already ends in it. */
  function JsonPath(outputPath: string): (r: string)
    ensures EndsWith(r, ".json")
    ensures StartsWith(r, outputPath) && |r| <= |outputPath| + 5
    ensures EndsWith(outputPath, ".json") ==> r == outputPath
    ensures !EndsWith(outputPath, ".json") ==> r == outputPath + ".json"
  {
    if EndsWith(outputPath, ".json") then outputPath else outputPath + ".json"
  }

  /** A path that ends in ".json" is its own JSON path. */
  lemma JsonPathIdempotent(outputPath: string)
    ensures JsonPath(JsonPath(outputPath)) == JsonPath(outputPath)
  {
  }

  /** A replacement of ".json" by ".csv" cannot start with a letter of "json" when the original did not. */
  lemma {:induction false} CsvPathPrefix(s: string, w: string)
    requires '.' !in w
    ensures StartsWith(CsvPath(s), w) ==> StartsWith(s, w)
    decreases |s|
  {
    if w != [] && |s| >= 5 {
      if s[..5] == ".json" {
        assert CsvPath(s)[0] == '.';
      } else {
        assert CsvPath(s) == [s[0]] + CsvPath(s[1..]);
        CsvPathPrefix(s[1..], w[1..]);
        if StartsWith(CsvPath(s), w) {
          assert CsvPath(s[1..])[..|w| - 1] == CsvPath(s)[1..|w|];
          assert s[..|w|] == [s[0]] + s[1..][..|w| - 1];
        }
      }
    }
  }

  /** The text ".csv" followed by a string without ".json" holds no ".json" either. */
  lemma CsvHead(rest: string)
    requires !Contains(rest, ".json")
    ensures !Contains(".csv" + rest, ".json")
  {
    var s3 := "v" + rest;
    assert s3[1..] == rest && s3[0] != '.';
    assert !Contains(s3, ".json");
    var s2 := "sv" + rest;
    assert s2[1..] == s3 && s2[0] != '.';
    assert !Contains(s2, ".json");
    var s1 := "csv" + rest;
    assert s1[1..] == s2 && s1[0] != '.';
    assert !Contains(s1, ".json");
    var s0 := ".csv" + rest;
    assert s0[1..] == s1 && s0[1] != 'j';
  }

  /** The CSV path holds no ".json": the replacement cannot create a new one. */
  lemma {:induction false} CsvPathNoJson(s: string)
    ensures !Contains(CsvPath(s), ".json")
    decreases |s|
  {
    if |s| < 5 {
      ShortNoContains(s, ".json");
    } else if s[..5] == ".json" {
      CsvPathNoJson(s[5..]);
      CsvHead(CsvPath(s[5..]));
    } else {
      CsvPathNoJson(s[1..]);
      var t := CsvPath(s[1..]);
      var u := [s[0]] + t;
      assert CsvPath(s) == u && u[1..] == t;
      if s[0] == '.' {
        DotHead(s);
        CsvPathPrefix(s[1..], "json");
      }
      ConsNoJsonHead(s[0], t);
    }
  }

  /** A path starting with '.' but not with ".json" does not continue with "json". */
  lemma DotHead(s: string)
    requires |s| >= 5 && s[0] == '.' && s[..5] != ".json"
    ensures !StartsWith(s[1..], "json")
  {
    assert s[..5] == ['.'] + s[1..][..4];
    assert ".json" == ['.'] + "json";
  }

  /** A character other than '.', or a tail not starting with "json", does not start ".json". */
  lemma ConsNoJsonHead(c: char, t: string)
    requires c != '.' || !StartsWith(t, "json")
    ensures !StartsWith([c] + t, ".json")
  {
    var u := [c] + t;
    if |u| >= 5 {
      assert u[..5][0] == c && u[..5][1..] == t[..4];
      assert ".json"[0] == '.' && ".json"[1..] == "json";
    }
  }

  /** A path ending in ".json" gets the same stem with ".csv" as its CSV path ending. */
  lemma CsvPathOfJson(stem: string)
    ensures CsvPath(stem + ".json") == CsvPath(stem) + ".csv"
  {
    ReplaceAtEnd(stem, ".json", ".csv");
  }

  /** A path with no ".json" is its own CSV path: "results" is used for both files' stem and for the CSV file itself. */
  lemma CsvPathPlain(outputPath: string)
    requires !Contains(outputPath, ".json")
    ensures CsvPath(outputPath) == outputPath
    ensures JsonPath(outputPath) == outputPath + ".json"
  {
    ReplaceAbsent(outputPath, ".json", ".csv");
    if EndsWith(outputPath, ".json") {
      ContainsAt(outputPath, ".json", |outputPath| - 5);
    }
  }

  /** The two files `save_results` writes. */
  datatype Saved = Saved(csvPath: string, jsonPath: string)

  /** `save_results`: nothing is saved for an empty table. */
  function SaveResults(rows: seq<Row>, outputPath: string): (r: Option<Saved>)
    ensures r.None? <==> rows == []
    ensures r.Some? ==> EndsWith(r.value.jsonPath, ".json") && !Contains(r.value.csvPath, ".json")
    ensures r.Some? ==> r.value == Saved(CsvPath(outputPath), JsonPath(outputPath))
  {
    if rows == [] then None
    else
      CsvPathNoJson(outputPath);
      Some(Saved(CsvPath(outputPath), JsonPath(outputPath)))
  }

  /**
   * Where `main` saves: to the given output path, or, for a non-empty table
   * without one, to "job_search_<timestamp>.json".
   */
  function SaveTarget(rows: seq<Row>, output: string, timestamp: string): (r: Option<Saved>)
    ensures r.None? <==> rows == []
    ensures output != "" ==> r == SaveResults(rows, output)
    ensures output == "" ==> r == SaveResults(rows, "job_search_" + timestamp + ".json")
  {
    if output != "" then SaveResults(rows, output)
    else if rows != [] then SaveResults(rows, "job_search_" + timestamp + ".json")
    else None
  }

  /** A string without a '.' holds no ".json". */
  lemma {:induction false} NoDotNoJson(s: string)
    requires '.' !in s
    ensures !Contains(s, ".json")
    decreases |s|
  {
    if s != [] {
      assert s[0] != '.';
      NoDotNoJson(s[1..]);
    }
  }

  /** Without an output path the files are "job_search_<timestamp>.csv" and ".json". */
  lemma DefaultSaveTarget(rows: seq<Row>, timestamp: string)
    requires rows != [] && '.' !in timestamp
    ensures SaveTarget(rows, "", timestamp) ==
      Some(Saved("job_search_" + timestamp + ".csv", "job_search_" + timestamp + ".json"))
  {
    var stem := "job_search_" + timestamp;
    assert "job_search_" + timestamp + ".json" == stem + ".json";
    assert '.' !in stem;
    NoDotNoJson(stem);
    ReplaceAbsent(stem, ".json", ".csv");
    CsvPathOfJson(stem);
  }

  // ---------------------------------------------------------------- profile merge

  /**
   * The `job_search` part of a profile. A missing list reads as empty and a
   * missing or null minimum salary as 0; an absent `job_search` section is the
   * profile with everything missing.
   */
  datatype Profile = Profile(targetTitles: seq<string>, preferredLocations: seq<string>, minSalary: int)

  /** The search parameters `main` settles on. "" and 0 stand for "not given". */
  datatype Params = Params(searchTerm: string, location: string, minSalary: int)

  /**
   * The merge in `main`: start from the command line and, when a profile is
   * given, fill each parameter the command line left empty from it; without a
   * search term at the end, argparse reports a usage error.
   */
  method MergeProfile(searchTermArg: string, locationArg: string, minSalaryArg: int, profile: Option<Profile>)
    returns (r: Result<Params>)
    ensures r.Err? ==> r.error == UsageError
    ensures r.Ok? ==> r.value.searchTerm != ""
    // a value given on the command line always wins
    ensures searchTermArg != "" ==> r.Ok? && r.value.searchTerm == searchTermArg
    ensures r.Ok? && locationArg != "" ==> r.value.location == locationArg
    ensures r.Ok? && minSalaryArg != 0 ==> r.value.minSalary == minSalaryArg
    // without a profile nothing is filled in
    ensures profile.None? ==> r == if searchTermArg == "" then Err(UsageError)
      else Ok(Params(searchTermArg, locationArg, minSalaryArg))
    // with one, the gaps are filled from it
    ensures profile.Some? && searchTermArg == "" ==>
      (r.Ok? <==> Join(profile.value.targetTitles, " OR ") != "") &&
      (r.Ok? ==> r.value.searchTerm == Join(profile.value.targetTitles, " OR "))
    ensures profile.Some? && r.Ok? && locationArg == "" ==>
      r.value.location == if profile.value.preferredLocations != [] then profile.value.preferredLocations[0] else ""
    ensures profile.Some? && r.Ok? && minSalaryArg == 0 ==> r.value.minSalary == profile.value.minSalary
  {
    var searchTerm := searchTermArg;
    var location := locationArg;
    var minSalary := minSalaryArg;
    if profile.Some? {
      var jobSearch := profile.value;
      if searchTerm == "" && jobSearch.targetTitles != [] {
        searchTerm := Join(jobSearch.targetTitles, " OR ");
      }
      if location == "" && jobSearch.preferredLocations != [] {
        location := jobSearch.preferredLocations[0];
      }
      if minSalary == 0 {
        minSalary := jobSearch.minSalary;
      }
    }
    if searchTerm == "" {
      return Err(UsageError);
    }
    return Ok(Params(searchTerm, location, minSalary));
  }

  /**
   * The joined titles are empty exactly for no titles or a single empty title:
   * with two or more, the " OR " separator is there.
   */
  lemma JoinedTitlesEmpty(titles: seq<string>)
    ensures Join(titles, " OR ") == "" <==> titles == [] || titles == [""]
  {
    if |titles| >= 2 {
      assert |Join(titles, " OR ")| >= 4;
    }
  }
}

=== FILE: seqs.dfy ===
/** Order-preserving subsequences, filtering and `list.remove`. */
module Seqs {

  /** `r` is what remains of `s` after deleting some of its elements: the order is kept. */
  predicate IsSubseq<T(==)>(r: seq<T>, s: seq<T>)
    decreases |s|
  {
    if r == [] then true
    else if s == [] then false
    else (r[0] == s[0] && IsSubseq(r[1..], s[1..])) || IsSubseq(r, s[1..])
  }

  lemma {:induction false} SubseqRefl<T>(s: seq<T>)
    ensures IsSubseq(s, s)
    decreases |s|
  {
    if s != [] {
      SubseqRefl(s[1..]);
    }
  }

  lemma {:induction false} SubseqExtend<T>(r: seq<T>, s: seq<T>, x: T)
    requires IsSubseq(r, s)
    ensures IsSubseq(r, s + [x])
    decreases |s|
  {
    if r != [] && s != [] {
      assert (s + [x])[1..] == s[1..] + [x];
      if r[0] == s[0] && IsSubseq(r[1..], s[1..]) {
        SubseqExtend(r[1..], s[1..], x);
      } else {
        SubseqExtend(r, s[1..], x);
      }
    }
  }

  lemma {:induction false} SubseqSnoc<T>(r: seq<T>, s: seq<T>, x: T)
    requires IsSubseq(r, s)
    ensures IsSubseq(r + [x], s + [x])
    decreases |s|
  {
    if r == [] {
      SubseqRefl([x]);
      SubseqPrefixEmpty(s, [x]);
      assert r + [x] == [x];
    } else {
      assert s != [];
      assert (s + [x])[1..] == s[1..] + [x];
      assert (r + [x])[1..] == r[1..] + [x];
      if r[0] == s[0] && IsSubseq(r[1..], s[1..]) {
        SubseqSnoc(r[1..], s[1..], x);
      } else {
        SubseqSnoc(r, s[1..], x);
      }
    }
  }

  /** Prepending elements to the whole sequence keeps a subsequence one. */
  lemma {:induction false} SubseqPrefixEmpty<T>(s: seq<T>, r: seq<T>)
    requires IsSubseq(r, r)
    ensures IsSubseq(r, s + r)
    decreases |s|
  {
    if s == [] {
      assert s + r == r;
    } else {
      assert (s + r)[1..] == s[1..] + r;
      SubseqPrefixEmpty(s[1..], r);
    }
  }

  lemma {:induction false} SubseqConcat<T>(r1: seq<T>, s1: seq<T>, r2: seq<T>, s2: seq<T>)
    requires IsSubseq(r1, s1) && IsSubseq(r2, s2)
    ensures IsSubseq(r1 + r2, s1 + s2)
    decreases |s2|
  {
    if s2 == [] {
      assert r2 == [];
      assert r1 + r2 == r1 && s1 + s2 == s1;
    } else {
      var s2' := s2[..|s2| - 1];
      var x := s2[|s2| - 1];
      assert s2 == s2' + [x];
      assert s1 + s2 == (s1 + s2') + [x];
      SubseqSplitLast(r2, s2', x);
      if r2 != [] && r2[|r2| - 1] == x && IsSubseq(r2[..|r2| - 1], s2') {
        SubseqConcat(r1, s1, r2[..|r2| - 1], s2');
        assert r1 + r2 == (r1 + r2[..|r2| - 1]) + [x];
        SubseqSnoc(r1 + r2[..|r2| - 1], s1 + s2', x);
      } else {
        SubseqConcat(r1, s1, r2, s2');
        SubseqExtend(r1 + r2, s1 + s2', x);
      }
    }
  }

  /** A subsequence of `s + [x]` either ends with that `x` or is already one of `s`. */
  lemma {:induction false} SubseqSplitLast<T>(r: seq<T>, s: seq<T>, x: T)
    requires IsSubseq(r, s + [x])
    ensures (r != [] && r[|r| - 1] == x && IsSubseq(r[..|r| - 1], s)) || IsSubseq(r, s)
    decreases |s|
  {
    if r == [] {
    } else if s == [] {
      assert (s + [x])[1..] == [];
      if r[0] == x && IsSubseq(r[1..], []) {
        assert r[1..] == [];
        assert r[..|r| - 1] == [];
      }
    } else {
      assert (s + [x])[1..] == s[1..] + [x];
      if r[0] == s[0] && IsSubseq(r[1..], s[1..] + [x]) {
        SubseqSplitLast(r[1..], s[1..], x);
        if r[1..] != [] && r[1..][|r[1..]| - 1] == x && IsSubseq(r[1..][..|r[1..]| - 1], s[1..]) {
          assert r[..|r| - 1][1..] == r[1..][..|r[1..]| - 1];
        }
        if r[1..] == [] {
          assert r[..|r| - 1] == [];
        }
      } else {
        SubseqSplitLast(r, s[1..], x);
      }
    }
  }

  lemma {:induction false} SubseqElems<T>(r: seq<T>, s: seq<T>)
    requires IsSubseq(r, s)
    ensures |r| <= |s| && forall x :: x in r ==> x in s
    decreases |s|
  {
    if r != [] {
      if r[0] == s[0] && IsSubseq(r[1..], s[1..]) {
        SubseqElems(r[1..], s[1..]);
        assert forall x :: x in r ==> x == r[0] || x in r[1..];
      } else {
        SubseqElems(r, s[1..]);
      }
    }
  }

  lemma AppendAssoc<T>(a: seq<T>, b: seq<T>, c: seq<T>)
    ensures (a + b) + c == a + (b + c)
  {
  }

  // ---------------------------------------------------------------- filter

  /** The elements of `s` that satisfy `p`, in their order. */
  function Filter<T>(s: seq<T>, p: T -> bool): seq<T>
    decreases |s|
  {
    if s == [] then []
    else Filter(s[..|s| - 1], p) + (if p(s[|s| - 1]) then [s[|s| - 1]] else [])
  }

  /**
   * `Filter` keeps exactly the elements satisfying `p`: what it returns is a
   * subsequence, each element of it satisfies `p`, and every element of `s`
   * satisfying `p` is kept as often as it occurs.
   */
  lemma {:induction false} FilterSelects<T>(s: seq<T>, p: T -> bool)
    ensures IsSubseq(Filter(s, p), s)
    ensures forall x :: x in Filter(s, p) ==> p(x)
    ensures forall x :: p(x) ==> multiset(Filter(s, p))[x] == multiset(s)[x]
    decreases |s|
  {
    if s != [] {
      var s', x := s[..|s| - 1], s[|s| - 1];
      assert s == s' + [x];
      FilterSelects(s', p);
      var f' := Filter(s', p);
      if p(x) {
        assert Filter(s, p) == f' + [x];
        SubseqSnoc(f', s', x);
      } else {
        assert Filter(s, p) == f';
        SubseqExtend(f', s', x);
      }
      assert multiset(s) == multiset(s') + multiset{x};
    }
  }

  /** Filtering with a predicate that holds everywhere changes nothing. */
  lemma {:induction false} FilterAll<T>(s: seq<T>, p: T -> bool)
    requires forall x :: x in s ==> p(x)
    ensures Filter(s, p) == s
    decreases |s|
  {
    if s != [] {
      assert s == s[..|s| - 1] + [s[|s| - 1]];
      FilterAll(s[..|s| - 1], p);
    }
  }

  lemma {:induction false} FilterAppend<T>(a: seq<T>, b: seq<T>, p: T -> bool)
    ensures Filter(a + b, p) == Filter(a, p) + Filter(b, p)
    decreases |b|
  {
    if b == [] {
      assert a + b == a;
    } else {
      var b', x := b[..|b| - 1], b[|b| - 1];
      assert a + b == (a + b') + [x];
      assert (a + b)[..|a + b| - 1] == a + b';
      FilterAppend(a, b', p);
    }
  }

  /** Filtering with a predicate that holds nowhere leaves nothing. */
  lemma {:induction false} FilterNone<T>(s: seq<T>, p: T -> bool)
    requires forall k :: 0 <= k < |s| ==> !p(s[k])
    ensures Filter(s, p) == []
    decreases |s|
  {
    if s != [] {
      var s' := s[..|s| - 1];
      assert forall k :: 0 <= k < |s'| ==> s'[k] == s[k];
      FilterNone(s', p);
    }
  }

  /** An element satisfying `p` leaves something after filtering. */
  lemma {:induction false} FilterHas<T>(s: seq<T>, p: T -> bool, i: nat)
    requires i < |s| && p(s[i])
    ensures Filter(s, p) != []
    decreases |s|
  {
    var s', x := s[..|s| - 1], s[|s| - 1];
    assert Filter(s, p) == Filter(s', p) + (if p(x) then [x] else []);
    if i < |s| - 1 {
      assert s'[i] == s[i];
      FilterHas(s', p, i);
    }
  }

  /** The first element satisfying `p` is the first element kept. */
  lemma {:induction false} FilterFirstAt<T>(s: seq<T>, p: T -> bool, i: nat)
    requires i < |s| && p(s[i]) && forall k :: 0 <= k < i ==> !p(s[k])
    ensures Filter(s, p) != [] && Filter(s, p)[0] == s[i]
    decreases |s|
  {
    var s', x := s[..|s| - 1], s[|s| - 1];
    assert Filter(s, p) == Filter(s', p) + (if p(x) then [x] else []);
    assert forall k :: 0 <= k < |s'| ==> s'[k] == s[k];
    if i < |s| - 1 {
      FilterFirstAt(s', p, i);
    } else {
      FilterNone(s', p);
    }
  }

  /** The last element satisfying `p` is the last element kept. */
  lemma {:induction false} FilterLastAt<T>(s: seq<T>, p: T -> bool, j: nat)
    requires j < |s| && p(s[j]) && forall k :: j < k < |s| ==> !p(s[k])
    ensures Filter(s, p) != [] && Filter(s, p)[|Filter(s, p)| - 1] == s[j]
    decreases |s|
  {
    var s', x := s[..|s| - 1], s[|s| - 1];
    assert Filter(s, p) == Filter(s', p) + (if p(x) then [x] else []);
    if j < |s| - 1 {
      assert Filter(s, p) == Filter(s', p);
      assert forall k :: j < k < |s'| ==> s'[k] == s[k];
      FilterLastAt(s', p, j);
    }
  }

  /** Two elements satisfying `p` leave at least two after filtering. */
  lemma {:induction false} FilterTwo<T>(s: seq<T>, p: T -> bool, i: nat, j: nat)
    requires i < j < |s| && p(s[i]) && p(s[j])
    ensures |Filter(s, p)| >= 2
    decreases |s|
  {
    var s', x := s[..|s| - 1], s[|s| - 1];
    assert Filter(s, p) == Filter(s', p) + (if p(x) then [x] else []);
    assert s'[i] == s[i];
    if j < |s| - 1 {
      assert s'[j] == s[j];
      FilterTwo(s', p, i, j);
    } else {
      FilterHas(s', p, i);
    }
  }

  /** When only the element at `i` satisfies `p`, it is all that is kept. */
  lemma {:induction false} FilterOnly<T>(s: seq<T>, p: T -> bool, i: nat)
    requires i < |s| && p(s[i]) && forall k :: 0 <= k < |s| && k != i ==> !p(s[k])
    ensures Filter(s, p) == [s[i]]
    decreases |s|
  {
    var s', x := s[..|s| - 1], s[|s| - 1];
    assert Filter(s, p) == Filter(s', p) + (if p(x) then [x] else []);
    assert forall k :: 0 <= k < |s'| ==> s'[k] == s[k];
    if i < |s| - 1 {
      FilterOnly(s', p, i);
    } else {
      FilterNone(s', p);
    }
  }

  /** Each element `Filter` keeps is an element of `s`, at some index `j`, that satisfies `p`. */
  lemma {:induction false} FilterElem<T>(s: seq<T>, p: T -> bool, i: nat) returns (j: nat)
    requires i < |Filter(s, p)|
    ensures j < |s| && s[j] == Filter(s, p)[i] && p(s[j])
    decreases |s|
  {
    var s', x := s[..|s| - 1], s[|s| - 1];
    var f' := Filter(s', p);
    assert Filter(s, p) == f' + (if p(x) then [x] else []);
    if i < |f'| {
      j := FilterElem(s', p, i);
      assert s[j] == s'[j];
    } else {
      j := |s| - 1;
    }
  }

  /** When `Filter` keeps nothing, no element of `s` satisfies `p`. */
  lemma {:induction false} FilterEmptyAt<T>(s: seq<T>, p: T -> bool, i: nat)
    requires i < |s| && Filter(s, p) == []
    ensures !p(s[i])
    decreases |s|
  {
    var s', x := s[..|s| - 1], s[|s| - 1];
    assert Filter(s, p) == Filter(s', p) + (if p(x) then [x] else []);
    if i < |s| - 1 {
      FilterEmptyAt(s', p, i);
      assert s[i] == s'[i];
    }
  }

  // ---------------------------------------------------------------- remove

  /** `list.remove(x)` on a list that may not hold `x`: the first occurrence goes, if any. */
  function RemoveFirst<T(==)>(s: seq<T>, x: T): seq<T>
    decreases |s|
  {
    if s == [] then []
    else if s[0] == x then s[1..]
    else [s[0]] + RemoveFirst(s[1..], x)
  }

  /**
   * Removing the first `x` deletes exactly one copy of `x` when there is one and
   * nothing otherwise, and keeps every other element in its order.
   */
  lemma RemoveFirstSpec<T>(s: seq<T>, x: T)
    ensures IsSubseq(RemoveFirst(s, x), s)
    ensures x in s ==> |RemoveFirst(s, x)| == |s| - 1 && multiset(RemoveFirst(s, x)) == multiset(s) - multiset{x}
    ensures x !in s ==> RemoveFirst(s, x) == s
  {
    RemoveFirstSubseq(s, x);
    RemoveFirstCounts(s, x);
  }

  lemma {:induction false} RemoveFirstSubseq<T>(s: seq<T>, x: T)
    ensures IsSubseq(RemoveFirst(s, x), s)
    decreases |s|
  {
    if s != [] {
      if s[0] == x {
        SubseqRefl(s[1..]);
        SubseqPrefixEmpty([s[0]], s[1..]);
        assert [s[0]] + s[1..] == s;
      } else {
        RemoveFirstSubseq(s[1..], x);
        var r := RemoveFirst(s, x);
        assert r[0] == s[0] && r[1..] == RemoveFirst(s[1..], x);
      }
    }
  }

  lemma {:induction false} RemoveFirstCounts<T>(s: seq<T>, x: T)
    ensures x in s ==> |RemoveFirst(s, x)| == |s| - 1 && multiset(RemoveFirst(s, x)) == multiset(s) - multiset{x}
    ensures x !in s ==> RemoveFirst(s, x) == s
    decreases |s|
  {
    if s != [] {
      assert s == [s[0]] + s[1..];
      assert multiset(s) == multiset{s[0]} + multiset(s[1..]);
      if s[0] != x {
        RemoveFirstCounts(s[1..], x);
        assert x in s <==> x in s[1..];
        assert multiset(RemoveFirst(s, x)) == multiset{s[0]} + multiset(RemoveFirst(s[1..], x));
      }
    }
  }

  /** Removing `x` removes its first occurrence, wherever that is. */
  lemma RemoveFirstWhere<T>(s: seq<T>, x: T)
    ensures forall i :: 0 <= i < |s| && s[i] == x && x !in s[..i] ==> RemoveFirst(s, x) == s[..i] + s[i + 1..]
  {
    forall i | 0 <= i < |s| && s[i] == x && x !in s[..i]
      ensures RemoveFirst(s, x) == s[..i] + s[i + 1..]
    {
      RemoveFirstAt(s, x, i);
    }
  }

  /** `list.remove(x)` at the index of the first `x`. */
  lemma {:induction false} RemoveFirstAt<T>(s: seq<T>, x: T, i: nat)
    requires i < |s| && s[i] == x && x !in s[..i]
    ensures RemoveFirst(s, x) == s[..i] + s[i + 1..]
    decreases i
  {
    if i > 0 {
      assert s[1..][..i - 1] == s[1..i];
      RemoveFirstAt(s[1..], x, i - 1);
      assert s[..i] == [s[0]] + s[1..i];
      assert s[i + 1..] == s[1..][i..];
    }
  }
}

=== FILE: text.dfy ===
/**
 * The slice of Python's `str` the toolkit scripts rely on: `isspace`, `split()`,
 * `strip()`, ASCII `lower()`/`upper()`, `in`, `startswith`/`endswith`, `replace`,
 * `join`, `int()` of a digit string and the `{:,}` thousands format.
 */
module Text {

  /** Python's `str.isspace()`: what `split()`, `strip()` and the regex class `\s` treat as whitespace. */
  predicate IsSpace(c: char) {
    ('\t' <= c <= '\r') || ('\U{1C}' <= c <= ' ') || c == '\U{85}' || c == '\U{A0}'
    || c == '\U{1680}' || ('\U{2000}' <= c <= '\U{200A}') || c == '\U{2028}' || c == '\U{2029}'
    || c == '\U{202F}' || c == '\U{205F}' || c == '\U{3000}'
  }

  predicate NoSpace(s: string) {
    forall i :: 0 <= i < |s| ==> !IsSpace(s[i])
  }

  predicate AllSpace(s: string) {
    forall i :: 0 <= i < |s| ==> IsSpace(s[i])
  }

  predicate IsDigit(c: char) {
    '0' <= c <= '9'
  }

  predicate AllDigits(s: string) {
    forall i :: 0 <= i < |s| ==> IsDigit(s[i])
  }

  // ---------------------------------------------------------------- case

  function LowerChar(c: char): char {
    if 'A' <= c <= 'Z' then (c as int + 32) as char else c
  }

  function UpperChar(c: char): char {
    if 'a' <= c <= 'z' then (c as int - 32) as char else c
  }

  /** `s.lower()`, restricted to ASCII letters. */
  function Lower(s: string): string {
    seq(|s|, i requires 0 <= i < |s| => LowerChar(s[i]))
  }

  /** `s.upper()`, restricted to ASCII letters. */
  function Upper(s: string): string {
    seq(|s|, i requires 0 <= i < |s| => UpperChar(s[i]))
  }

  predicate IsLower(s: string) {
    forall i :: 0 <= i < |s| ==> !('A' <= s[i] <= 'Z')
  }

  lemma LowerIsLower(s: string)
    ensures IsLower(Lower(s)) && Lower(Lower(s)) == Lower(s)
  {
  }

  lemma LowerOfLower(s: string)
    requires IsLower(s)
    ensures Lower(s) == s
  {
  }

  // ---------------------------------------------------------------- split

  /** The length of the longest whitespace-free prefix of `s`. */
  function WordLen(s: string): (n: nat)
    ensures n <= |s| && NoSpace(s[..n]) && (n < |s| ==> IsSpace(s[n]))
  {
    if s == [] || IsSpace(s[0]) then 0 else 1 + WordLen(s[1..])
  }

  /** `s.split()`: the maximal runs of non-whitespace characters, in order. */
  function Split(s: string): (r: seq<string>)
    ensures forall i :: 0 <= i < |r| ==> r[i] != [] && NoSpace(r[i])
    decreases |s|
  {
    if s == [] then []
    else if IsSpace(s[0]) then Split(s[1..])
    else
      var n := WordLen(s);
      [s[..n]] + Split(s[n..])
  }

  lemma {:induction false} SplitBlank(s: string)
    ensures Split(s) == [] <==> forall i :: 0 <= i < |s| ==> IsSpace(s[i])
    decreases |s|
  {
    if s != [] {
      SplitBlank(s[1..]);
      if IsSpace(s[0]) {
        assert forall i :: 1 <= i < |s| ==> s[i] == s[1..][i - 1];
      }
    }
  }

  lemma {:induction false} WordLenWhole(w: string)
    requires NoSpace(w)
    ensures WordLen(w) == |w|
  {
    if w != [] {
      WordLenWhole(w[1..]);
    }
  }

  lemma {:induction false} WordLenStops(w: string, rest: string)
    requires NoSpace(w) && rest != [] && IsSpace(rest[0])
    ensures WordLen(w + rest) == |w|
  {
    if w != [] {
      assert (w + rest)[1..] == w[1..] + rest;
      WordLenStops(w[1..], rest);
    }
  }

  /** A single word splits to itself. */
  lemma SplitWord(w: string)
    requires w != [] && NoSpace(w)
    ensures Split(w) == [w]
  {
    WordLenWhole(w);
    assert w[..|w|] == w && w[|w|..] == [];
  }

  /** Two words joined by a blank split back into the two words. */
  lemma SplitTwo(a: string, b: string)
    requires a != [] && NoSpace(a) && b != [] && NoSpace(b)
    ensures Split(a + " " + b) == [a, b]
  {
    var s := a + " " + b;
    assert s == a + (" " + b);
    WordLenStops(a, " " + b);
    assert s[..|a|] == a;
    assert s[|a|..] == " " + b;
    assert (" " + b)[1..] == b;
    SplitWord(b);
  }

  // ---------------------------------------------------------------- strip

  function LeadLen(s: string): (n: nat)
    ensures n <= |s| && (forall i :: 0 <= i < n ==> IsSpace(s[i])) && (n < |s| ==> !IsSpace(s[n]))
  {
    if s != [] && IsSpace(s[0]) then 1 + LeadLen(s[1..]) else 0
  }

  function TrailLen(s: string): (n: nat)
    ensures n <= |s| && (forall i :: |s| - n <= i < |s| ==> IsSpace(s[i]))
    ensures n < |s| ==> !IsSpace(s[|s| - n - 1])
  {
    if s != [] && IsSpace(s[|s| - 1]) then 1 + TrailLen(s[..|s| - 1]) else 0
  }

  /** `s.strip()`: the slice of `s` between its leading and its trailing whitespace. */
  function Strip(s: string): (r: string)
    ensures r == [] || (!IsSpace(r[0]) && !IsSpace(r[|r| - 1]))
    ensures |r| <= |s|
  {
    var t := s[LeadLen(s)..];
    t[..|t| - TrailLen(t)]
  }

  /** A string that neither starts nor ends with whitespace is its own strip. */
  lemma StripStripped(s: string)
    requires s == [] || (!IsSpace(s[0]) && !IsSpace(s[|s| - 1]))
    ensures Strip(s) == s
  {
    if s != [] {
      assert LeadLen(s) == 0;
      assert s[0..] == s;
      assert TrailLen(s) == 0;
    }
  }

  lemma {:induction false} LeadLenSpaces(w: string, u: string)
    requires AllSpace(w) && (u == [] || !IsSpace(u[0]))
    ensures LeadLen(w + u) == |w|
    decreases |w|
  {
    if w != [] {
      assert (w + u)[1..] == w[1..] + u;
      LeadLenSpaces(w[1..], u);
    } else {
      assert w + u == u;
    }
  }

  lemma {:induction false} TrailLenSpaces(u: string, w: string)
    requires AllSpace(w) && (u == [] || !IsSpace(u[|u| - 1]))
    ensures TrailLen(u + w) == |w|
    decreases |w|
  {
    if w != [] {
      assert (u + w)[..|u + w| - 1] == u + w[..|w| - 1];
      TrailLenSpaces(u, w[..|w| - 1]);
    } else {
      assert u + w == u;
    }
  }

  /** Stripping removes exactly the whitespace around text that neither starts nor ends with it. */
  lemma StripPadded(w1: string, x: string, w2: string)
    requires AllSpace(w1) && AllSpace(w2)
    requires x == [] || (!IsSpace(x[0]) && !IsSpace(x[|x| - 1]))
    ensures Strip(w1 + x + w2) == x
  {
    var s := w1 + x + w2;
    if x == [] {
      assert s == (w1 + w2) + [];
      LeadLenSpaces(w1 + w2, []);
    } else {
      assert s == w1 + (x + w2);
      LeadLenSpaces(w1, x + w2);
      assert s[|w1|..] == x + w2;
      TrailLenSpaces(x, w2);
    }
  }

  /** Removing the trailing run of `c` characters: `s.rstrip(c)`. */
  function RStripChar(s: string, c: char): (r: string)
    ensures r == [] || r[|r| - 1] != c
    ensures r <= s
  {
    if s != [] && s[|s| - 1] == c then RStripChar(s[..|s| - 1], c) else s
  }

  // ---------------------------------------------------------------- search

  predicate StartsWith(s: string, p: string) {
    |p| <= |s| && s[..|p|] == p
  }

  predicate EndsWith(s: string, p: string) {
    |p| <= |s| && s[|s| - |p|..] == p
  }

  /** Python's `sub in s`. */
  predicate Contains(s: string, sub: string)
    decreases |s|
  {
    StartsWith(s, sub) || (s != [] && Contains(s[1..], sub))
  }

  lemma {:induction false} ContainsAt(s: string, sub: string, i: nat)
    requires i + |sub| <= |s| && s[i..i + |sub|] == sub
    ensures Contains(s, sub)
    decreases i
  {
    if i > 0 {
      assert s[1..][i - 1..i - 1 + |sub|] == s[i..i + |sub|];
      ContainsAt(s[1..], sub, i - 1);
    }
  }

  /** Text shorter than a pattern does not contain it. */
  lemma {:induction false} ShortNoContains(s: string, sub: string)
    requires |s| < |sub|
    ensures !Contains(s, sub)
    decreases |s|
  {
    if s != [] {
      ShortNoContains(s[1..], sub);
    }
  }

  lemma {:induction false} ContainsWitness(s: string, sub: string) returns (i: nat)
    requires Contains(s, sub)
    ensures i + |sub| <= |s| && s[i..i + |sub|] == sub
    decreases |s|
  {
    if StartsWith(s, sub) {
      i := 0;
    } else {
      var j := ContainsWitness(s[1..], sub);
      i := j + 1;
      assert s[1..][j..j + |sub|] == s[i..i + |sub|];
    }
  }

  /** The index of the first `c` in `s`, or `|s|` when there is none. */
  function IndexOf(s: string, c: char): (i: nat)
    ensures i <= |s| && c !in s[..i] && (i < |s| ==> s[i] == c)
  {
    if s == [] then 0 else if s[0] == c then 0 else 1 + IndexOf(s[1..], c)
  }

  /** The first `c` of `a + b`, when `a` holds none, is the first `c` of `b`, shifted by `|a|`. */
  lemma {:induction false} IndexOfConcat(a: string, c: char, b: string)
    requires c !in a
    ensures IndexOf(a + b, c) == |a| + IndexOf(b, c)
    decreases |a|
  {
    if a == [] {
      assert a + b == b;
    } else {
      assert (a + b)[1..] == a[1..] + b;
      IndexOfConcat(a[1..], c, b);
    }
  }

  // ---------------------------------------------------------------- building

  function Repeat(c: char, n: nat): (r: string)
    ensures |r| == n && forall i :: 0 <= i < n ==> r[i] == c
  {
    seq(n, _ => c)
  }

  /** `sep.join(parts)`. */
  function Join(parts: seq<string>, sep: string): string {
    if parts == [] then ""
    else if |parts| == 1 then parts[0]
    else parts[0] + sep + Join(parts[1..], sep)
  }

  /** The joined string starts with the first part. */
  lemma JoinFirst(parts: seq<string>, sep: string)
    requires parts != []
    ensures StartsWith(Join(parts, sep), parts[0])
  {
    if |parts| > 1 {
      assert Join(parts, sep) == parts[0] + (sep + Join(parts[1..], sep));
    }
  }

  /** The joined string ends with the last part. */
  lemma {:induction false} JoinLast(parts: seq<string>, sep: string)
    requires parts != []
    ensures EndsWith(Join(parts, sep), parts[|parts| - 1])
    decreases |parts|
  {
    if |parts| > 1 {
      JoinLast(parts[1..], sep);
      var j := Join(parts[1..], sep);
      var last := parts[|parts| - 1];
      assert Join(parts, sep) == (parts[0] + sep) + j;
      assert (parts[0] + sep + j)[|parts[0] + sep + j| - |last|..] == j[|j| - |last|..];
    }
  }

  /** `s[:n] + "..." if len(s) > n else s`. */
  function Truncate(s: string, n: nat): (r: string)
    ensures |r| <= n + 3
    ensures |s| <= n ==> r == s
    ensures |s| > n ==> r == s[..n] + "..." && StartsWith(r, s[..n]) && EndsWith(r, "...")
  {
    if |s| > n then s[..n] + "..." else s
  }

  /**
   * `s.replace(pat, rep)`: every occurrence of `pat`, found left to right and not
   * overlapping, replaced by `rep`.
   */
  function ReplaceAll(s: string, pat: string, rep: string): (r: string)
    requires pat != []
    ensures |rep| <= |pat| ==> |r| <= |s|
    decreases |s|
  {
    if |s| < |pat| then s
    else if s[..|pat|] == pat then rep + ReplaceAll(s[|pat|..], pat, rep)
    else [s[0]] + ReplaceAll(s[1..], pat, rep)
  }

  /** A string without an occurrence of the pattern is left as it is. */
  lemma {:induction false} ReplaceAbsent(s: string, pat: string, rep: string)
    requires pat != [] && !Contains(s, pat)
    ensures ReplaceAll(s, pat, rep) == s
    decreases |s|
  {
    if |s| >= |pat| {
      ReplaceAbsent(s[1..], pat, rep);
    }
  }

  /** Deleting a character (`s.replace(c, "")`) leaves no occurrence of it and keeps every other character. */
  lemma {:induction false} RemoveCharGone(s: string, c: char)
    ensures c !in ReplaceAll(s, [c], "")
    ensures forall d :: d != c ==> (d in ReplaceAll(s, [c], "") <==> d in s)
    decreases |s|
  {
    if |s| >= 1 {
      RemoveCharGone(s[1..], c);
      assert s == [s[0]] + s[1..];
    }
  }

  /** Deleting a character distributes over concatenation. */
  lemma {:induction false} RemoveCharAppend(a: string, b: string, c: char)
    ensures ReplaceAll(a + b, [c], "") == ReplaceAll(a, [c], "") + ReplaceAll(b, [c], "")
    decreases |a|
  {
    if a == [] {
      assert a + b == b;
    } else {
      assert (a + b)[1..] == a[1..] + b;
      assert (a + b)[..1] == a[..1];
      RemoveCharAppend(a[1..], b, c);
    }
  }

  /** Deleting a character that does not occur changes nothing. */
  lemma {:induction false} RemoveCharAbsent(s: string, c: char)
    requires c !in s
    ensures ReplaceAll(s, [c], "") == s
    decreases |s|
  {
    if s != [] {
      assert s[..1] == [s[0]];
      RemoveCharAbsent(s[1..], c);
    }
  }

  /**
   * When the first character of `pat` does not recur inside it, an occurrence at
   * the very end is always replaced: no earlier match can overlap it.
   */
  lemma {:induction false} ReplaceAtEnd(b: string, pat: string, rep: string)
    requires pat != [] && pat[0] !in pat[1..]
    ensures ReplaceAll(b + pat, pat, rep) == ReplaceAll(b, pat, rep) + rep
    decreases |b|
  {
    var s := b + pat;
    if b == [] {
      assert s == pat && pat[..|pat|] == pat && pat[|pat|..] == [];
    } else if |b| >= |pat| && b[..|pat|] == pat {
      assert s[..|pat|] == pat;
      assert s[|pat|..] == b[|pat|..] + pat;
      ReplaceAtEnd(b[|pat|..], pat, rep);
    } else {
      FrontNoMatch(b, pat);
      ReplaceFirstKept(s, pat, rep);
      assert s[0] == b[0] && s[1..] == b[1..] + pat;
      ReplaceAtEnd(b[1..], pat, rep);
      ReplaceFirstKept(b, pat, rep);
      assert [b[0]] + (ReplaceAll(b[1..], pat, rep) + rep) == ([b[0]] + ReplaceAll(b[1..], pat, rep)) + rep;
    }
  }

  /** A string that does not start with `pat` does not start with it once `pat` is appended either. */
  lemma FrontNoMatch(b: string, pat: string)
    requires pat != [] && pat[0] !in pat[1..]
    requires b != [] && !(|b| >= |pat| && b[..|pat|] == pat)
    ensures (b + pat)[..|pat|] != pat
  {
    var s := b + pat;
    if |b| < |pat| {
      assert pat[1..][|b| - 1] == pat[|b|];
      assert s[..|pat|][|b|] == pat[0] != pat[|b|];
    } else {
      assert s[..|pat|] == b[..|pat|];
    }
  }

  /** A string that does not start with the pattern keeps its first character. */
  lemma ReplaceFirstKept(b: string, pat: string, rep: string)
    requires pat != [] && b != [] && !(|b| >= |pat| && b[..|pat|] == pat)
    ensures ReplaceAll(b, pat, rep) == [b[0]] + ReplaceAll(b[1..], pat, rep)
  {
    if |b| < |pat| {
      assert |b[1..]| < |pat|;
      assert b == [b[0]] + b[1..];
    }
  }

  // ---------------------------------------------------------------- numbers

  function DigitChar(d: nat): (c: char)
    requires d < 10
    ensures IsDigit(c)
  {
    ('0' as int + d) as char
  }

  function DigitValue(c: char): nat
    requires IsDigit(c)
  {
    c as int - '0' as int
  }

  /** `int(s)` for a non-empty string of ASCII digits (an empty string gives 0 here). */
  function DigitsValue(s: string): nat
    requires AllDigits(s)
  {
    if s == [] then 0 else DigitsValue(s[..|s| - 1]) * 10 + DigitValue(s[|s| - 1])
  }

  function Pow10(k: nat): nat {
    if k == 0 then 1 else 10 * Pow10(k - 1)
  }

  lemma {:induction false} DigitsValueAppend(a: string, b: string)
    requires AllDigits(a) && AllDigits(b)
    ensures AllDigits(a + b) && DigitsValue(a + b) == DigitsValue(a) * Pow10(|b|) + DigitsValue(b)
    decreases |b|
  {
    if b != [] {
      var ab := a + b;
      var b' := b[..|b| - 1];
      assert ab[..|ab| - 1] == a + b' && ab[|ab| - 1] == b[|b| - 1];
      DigitsValueAppend(a, b');
      var x, y, p, d := DigitsValue(a), DigitsValue(b'), Pow10(|b'|), DigitValue(b[|b| - 1]);
      assert DigitsValue(ab) == (x * p + y) * 10 + d;
      assert Pow10(|b|) == p * 10;
      assert DigitsValue(b) == y * 10 + d;
      calc {
        (x * p + y) * 10 + d;
        x * p * 10 + (y * 10 + d);
        { MulAssoc(x, p, 10); }
        x * (p * 10) + (y * 10 + d);
      }
    } else {
      assert a + b == a;
    }
  }

  lemma MulAssoc(x: nat, y: nat, z: nat)
    ensures x * y * z == x * (y * z)
  {
  }

  /** The decimal digits of `n`, as `str(n)`. */
  function NatToString(n: nat): (r: string)
    ensures r != [] && AllDigits(r)
    decreases n
  {
    if n < 10 then [DigitChar(n)] else NatToString(n / 10) + [DigitChar(n % 10)]
  }

  lemma {:induction false} NatToStringValue(n: nat)
    ensures DigitsValue(NatToString(n)) == n
    decreases n
  {
    var r := NatToString(n);
    if n >= 10 {
      NatToStringValue(n / 10);
      assert r[..|r| - 1] == NatToString(n / 10);
    }
  }

  /** Three digits with leading zeros, the groups after the first in `{:,}`. */
  function Pad3(m: nat): (r: string)
    requires m < 1000
    ensures |r| == 3 && AllDigits(r)
  {
    [DigitChar(m / 100), DigitChar(m / 10 % 10), DigitChar(m % 10)]
  }

  /** `f"{n:,}"` for a natural number: digits grouped by three with commas. */
  function Thousands(n: nat): (r: string)
    ensures r != [] && IsDigit(r[0])
    ensures forall i :: 0 <= i < |r| ==> IsDigit(r[i]) || r[i] == ','
    decreases n
  {
    if n < 1000 then NatToString(n) else Thousands(n / 1000) + "," + Pad3(n % 1000)
  }

  /** `f"{i:,}"` for any integer. */
  function FormatInt(i: int): string {
    if i < 0 then "-" + Thousands(-i) else Thousands(i)
  }

  lemma Pad3Value(m: nat)
    requires m < 1000
    ensures DigitsValue(Pad3(m)) == m
  {
    var r := Pad3(m);
    var a, b, c := m / 100, m / 10 % 10, m % 10;
    var q := m / 10;
    assert m == q * 10 + c;
    assert q / 10 == a;
    assert q == a * 10 + b;
    assert DigitValue(r[0]) == a && DigitValue(r[1]) == b && DigitValue(r[2]) == c;
    assert r[..2][..1] == r[..1] && r[..1][..0] == [];
    assert DigitsValue(r[..1]) == a;
    assert DigitsValue(r[..2]) == q;
    assert DigitsValue(r) == q * 10 + c;
  }

  /** Removing the commas of `f"{n:,}"` leaves the decimal digits of `n`. */
  lemma {:induction false} ThousandsValue(n: nat)
    ensures var d := ReplaceAll(Thousands(n), [','], "");
      AllDigits(d) && DigitsValue(d) == n
    decreases n
  {
    if n < 1000 {
      RemoveCharAbsent(NatToString(n), ',');
      NatToStringValue(n);
    } else {
      ThousandsValue(n / 1000);
      var hi := ReplaceAll(Thousands(n / 1000), [','], "");
      var p := Pad3(n % 1000);
      RemoveCharAppend(Thousands(n / 1000) + ",", p, ',');
      RemoveCharAppend(Thousands(n / 1000), ",", ',');
      assert ReplaceAll(",", [','], "") == "";
      RemoveCharAbsent(p, ',');
      var d := ReplaceAll(Thousands(n), [','], "");
      assert d == hi + p;
      DigitsValueAppend(hi, p);
      Pad3Value(n % 1000);
      assert Pow10(3) == 1000;
      assert DigitsValue(d) == (n / 1000) * 1000 + n % 1000;
    }
  }

  lemma {:induction false} Pow10Mono(a: nat, b: nat)
    requires a <= b
    ensures Pow10(a) <= Pow10(b)
    decreases b
  {
    if a < b {
      Pow10Mono(a, b - 1);
    }
  }

  /** A digit string without a leading zero is worth at least `10^(|s| - 1)`. */
  lemma {:induction false} DigitsValueLower(s: string)
    requires s != [] && AllDigits(s) && s[0] != '0'
    ensures DigitsValue(s) >= Pow10(|s| - 1)
    decreases |s|
  {
    if |s| > 1 {
      var init := s[..|s| - 1];
      assert init[0] == s[0];
      DigitsValueLower(init);
      assert DigitsValue(s) >= DigitsValue(init) * 10;
    } else {
      assert DigitValue(s[0]) >= 1;
    }
  }

  /** A string of `k` digits is worth less than `10^k`. */
  lemma {:induction false} DigitsValueUpper(s: string)
    requires AllDigits(s)
    ensures DigitsValue(s) < Pow10(|s|)
    decreases |s|
  {
    if s != [] {
      var init := s[..|s| - 1];
      DigitsValueUpper(init);
      assert DigitsValue(s) <= DigitsValue(init) * 10 + 9;
    }
  }

  /** `str(n)` has at most `k` digits when `n < 10^k`. */
  lemma {:induction false} NatToStringLength(n: nat, k: nat)
    requires 1 <= k && n < Pow10(k)
    ensures |NatToString(n)| <= k
    decreases n
  {
    if n >= 10 {
      assert Pow10(1) == 10;
      assert Pow10(k) == 10 * Pow10(k - 1);
      NatToStringLength(n / 10, k - 1);
    }
  }

  lemma ThousandsBelow(n: nat, k: nat)
    requires k >= 3 && n < Pow10(k)
    ensures n / 1000 < Pow10(k - 3)
  {
    var q := Pow10(k - 3);
    assert Pow10(k - 2) == 10 * q;
    assert Pow10(k - 1) == 100 * q;
    assert Pow10(k) == 1000 * q;
  }

  /** Without its commas, `f"{n:,}"` has at most `k` digits when `n < 10^k`. */
  lemma {:induction false} ThousandsLength(n: nat, k: nat)
    requires 1 <= k && n < Pow10(k)
    ensures |ReplaceAll(Thousands(n), [','], "")| <= k
    decreases n
  {
    if n < 1000 {
      RemoveCharAbsent(NatToString(n), ',');
      NatToStringLength(n, k);
    } else {
      var hi := ReplaceAll(Thousands(n / 1000), [','], "");
      var p := Pad3(n % 1000);
      RemoveCharAppend(Thousands(n / 1000) + ",", p, ',');
      RemoveCharAppend(Thousands(n / 1000), ",", ',');
      assert ReplaceAll(",", [','], "") == "";
      RemoveCharAbsent(p, ',');
      assert ReplaceAll(Thousands(n), [','], "") == hi + p;
      assert Pow10(3) == 1000;
      assert k >= 4 by {
        if k < 4 {
          Pow10Mono(k, 3);
        }
      }
      ThousandsBelow(n, k);
      ThousandsLength(n / 1000, k - 3);
    }
  }
}

=== FILE: wrappers.dfy ===
/** Option and Result, and the Python exceptions the toolkit scripts can raise. */
module Wrappers {

  datatype Option<+T> = None | Some(value: T)

  /** The exceptions that escape the modelled code and end the script. */
  datatype Exception =
    | ValueError    // int("") on a comma-only amount; '{' or '}' unbalanced in a format string
    | IndexError    // parts[0] on a blank name; a positional field in a format string
    | KeyError      // an unknown named field in a format string
    | TypeError     // ', '.join over a department without a name
    | HttpError(status: int)  // a non-404 HTTP error re-raised by the board fetch
    | UsageError    // argparse's parser.error: a usage message and exit status 2

  datatype Result<+T> = Ok(value: T) | Err(error: Exception) {
    predicate IsFailure() { Err? }

    function PropagateFailure<U>(): Result<U>
      requires Err?
    {
      Err(error)
    }

    function Extract(): T
      requires Ok?
    {
      value
    }
  }
}
